=== FILE: README.md ===
# scrapy-autounit, modelled in Dafny

scrapy-autounit records what a Scrapy spider's callback does and replays it as a unit test.

- **Recording.** While a spider runs, the `AutounitMiddleware` spider middleware hands a fresh cassette from its input hook to its output hook through the response's `meta`. The recorder stores the cassette as a compressed, pickled fixture.
- **The cassette.** It holds the spider's name and middleware chain, the recorded settings, the request, the response, the callback's output and three snapshots of the spider's attributes: init, input and output.
- **The parser.** It turns requests, responses, dicts, lists and tuples into plain data: it cleans excluded and authorization headers, records the callback name and drops the cassette key from the request's `meta`.
- **The player.** It replays a cassette:
  - it checks the Python version and snapshots the spider's attributes;
  - it loads the recorded middlewares, skipping those that refuse with `NotConfigured`;
  - it runs their input hooks, then the callback, then their output hooks in reverse order;
  - it compares the output item by item, ignoring the skipped fields, and compares the three attribute snapshots. Each mismatch names the item's 1-based index and the fixture's file name.
- **The `autounit` command line.**
  - `CommandLine.__init__` checks that the project, the spider, the callback and the fixture exist.
  - `update` replays fixtures without comparison and rewrites their output and snapshots. It converts legacy dict fixtures first. The replay has popped `cls` from the cassette's response, so the rewritten fixture no longer records its response class.
  - `inspect` prints a cassette's `to_dict` as JSON.
- **`autounit-inspect`** (inspect.py) decompresses and unpickles a fixture file and prints its data as JSON.
- **utils.py** adds the legacy conversions (`parse_headers`, `parse_request`, `parse_item`, `parse_items_with_requests`, `response_to_dict`) and the layout of the fixtures and tests directories.

The model has one module per source file (`Parser`, `Cassettes`, `Player`, `Utils`, `Cli`, `Inspect`, `Middleware`). Four modules hold the Python semantics those files rely on:

- `Values`: Python values, dict keys and hashing, `d[key]`, `in`, iteration, truthiness;
- `PyText`: `int()` on strings, `strip`, `split`, `endswith`;
- `Scrapy`: the settings getters, `request_to_dict`, the spider object;
- `Utf8`: `bytes.decode('utf-8')` strict and with replacement, and `str.encode()`, with their round trips proved.

Python exceptions become `Result`/`Outcome` values carrying an `Error`. What the package does through pickle, zlib, the file system, the recorder, Scrapy's component loader or the spider's own callback is given as function parameters.

Places where the files disagree with one another or with the library:

- player.py calls `self.get_spider_attrs()`, but parser.py defines `spider_attrs`. The model uses `Parser.SpiderAttrs`.
- player.py and cli.py import `python_version` and `get_base_path` from utils.py, and inspect.py imports `unpickle_data` and `decompress_data` from it. utils.py as given defines none of these. The running major version, the tests directory and the two codecs are parameters.
- `utils.parse_request` calls itself on a request nested in `meta` without the required `spider` argument. The model turns such a request into the `MissingSpider` error.
- `inspect.get_data` reads a current fixture as a dict with a `fixture_version` key. A fixture that unpickles to a cassette object instead makes the `in` test raise a `TypeError`, which the model keeps (`Values.Contains` on an object).
- `_clean_headers` extends the stored exclusion setting in place. `Parser.CleanHeaders` returns the new settings, and `Parser.CleanAfterMutation` proves that the mutation does not change what a later call removes.

## Model

| member | source | states |
|---|---|---|
| Values.Lookup | scrapy_autounit/player.py:94-95 | `d[key]` succeeds exactly when a dict or Item holds the text key, and then gives its entry. |
| Values.Contains | scrapy_autounit/parser.py:19 | `x in list` / `x in tuple` is membership in the elements. |
| Values.Hash | scrapy_autounit/player.py:46 | Only lists, dicts and Items are unhashable; a hashable value's key denotes that value (booleans aside). |
| Values.Iterate | scrapy_autounit/player.py:45 | Iterating a list or tuple gives its elements. A dict or Item fails, because its order is not held; the order-free callers take its keys instead (`Player.CleanF`, `Scrapy.GetNames`). |
| Values.IterateChars | scrapy_autounit/player.py:45 | Iterating a string gives one single-character string per character, in order. |
| Values.IterateBytes | scrapy_autounit/player.py:45 | Iterating bytes gives their integer values, in order. |
| Values.AsSet | scrapy_autounit/parser.py:61-62 | `set(v)` holds only hashable elements. |
| Values.TextKeyed | scrapy_autounit/parser.py:65-68 | An attribute dict has exactly the text keys of the attribute names, each with its attribute's value. |
| PyText.PyIntChars | scrapy_autounit/cli.py:125-127 | Every character of a string `int()` accepts is a digit, a sign, `_` or blank. |
| PyText.NotPyInt | scrapy_autounit/cli.py:125-129 | A string with any other character is not a number, so `parse_fixture_arg` falls through to the name rules. |
| Scrapy.GetWithBase | scrapy_autounit/middleware.py:18 | `getwithbase` keeps every key of the project's own dict setting. |
| Scrapy.GetBool | scrapy_autounit/middleware.py:22 | An unset flag reads as false. |
| Scrapy.GetInt | scrapy_autounit/middleware.py:25 | An unset number reads as 0. |
| Scrapy.GetList | scrapy_autounit/cassette.py:66-68 | An unset list setting reads as the empty list. |
| Scrapy.GetNames | scrapy_autounit/cassette.py:66-68 | The names `getlist` yields, as a set: the elements of the list it reads, or the keys of a dict or Item setting. |
| Scrapy.GetNamesUnset | scrapy_autounit/cassette.py:66-68 | An unset setting names nothing. |
| Scrapy.RequestDict | scrapy_autounit/utils.py:107 | `request_to_dict` holds exactly the url, the callback, the method, the headers, the body and the meta of the request. |
| Utf8.DecodeStrict | scrapy_autounit/utils.py:75 | Strict UTF-8 decoding never yields more characters than bytes; failure is the UnicodeDecodeError case. |
| Utf8.DecodeReplace | scrapy_autounit/utils.py:65 | Decoding with replacement never fails and yields at most one character per byte. |
| Utf8.EncodeUtf8 | scrapy_autounit/parser.py:22 | `str.encode()` yields at least one byte per character. |
| Utf8.DecodeEncode | scrapy_autounit/parser.py:21-22 | Decoding the encoded header name gives the name back, so the bytes form removed is the header's own. |
| Utf8.EncodeDecode | scrapy_autounit/utils.py:74-75 | Encoding a decoded header gives the original bytes back. |
| Utf8.DecodeStrictInjective | scrapy_autounit/utils.py:71-90 | Two distinct byte header names never decode to the same text. |
| Utf8.ReplaceAgrees | scrapy_autounit/utils.py:65 | On valid UTF-8, decoding with replacement equals strict decoding. |
| Utf8.ReplaceMarksErrors | scrapy_autounit/utils.py:65 | On invalid input, the replacement character appears in the text. |
| Utf8.AsciiDecodes | scrapy_autounit/utils.py:75 | ASCII bytes decode to the characters with the same codes. |
| Parser.NotIncluded | scrapy_autounit/parser.py:19 | The auth headers kept for removal are exactly those the included list does not contain; the list succeeds when every `in` test does. |
| Parser.ExclusionList | scrapy_autounit/parser.py:10-19 | The removal list is the configured excluded list extended by every auth header not included; it fails exactly when the excluded setting is not a list or an `in` test fails. |
| Parser.ExcludedMappingFails | scrapy_autounit/parser.py:10-19 | A non-empty dict of excluded headers, read with `get`, has no `extend` and fails with AttributeError. |
| Parser.IncludedMappingByKeys | scrapy_autounit/parser.py:16-19 | A dict of auth headers to record is tested by its keys: naming `Authorization` leaves only `Proxy-Authorization` to remove. |
| Parser.RemoveEach | scrapy_autounit/parser.py:20-22 | The removal loop computes `RemoveAll`. |
| Parser.CleanHeaders | scrapy_autounit/parser.py:9-22 | `_clean_headers` gives the cleaned headers and the settings after the in-place `extend`. |
| Parser.RemoveAllExact | scrapy_autounit/parser.py:20-22 | The removal succeeds exactly when every listed name is text; it then keeps exactly the headers no listed name denotes, in text or bytes form, with their values. |
| Parser.RemoveAllRemoves | scrapy_autounit/parser.py:21-22 | A listed header is gone in both its text and its UTF-8 bytes form. |
| Parser.CleanRemovesExcluded | scrapy_autounit/parser.py:9-22 | After cleaning, no excluded header is left in either form. |
| Parser.CleanKeepsOthers | scrapy_autounit/parser.py:9-22 | A header that no excluded name denotes keeps its key and value. |
| Parser.CleanDropsAuth | scrapy_autounit/parser.py:14-19 | `Authorization` and `Proxy-Authorization` are removed unless the included list holds them. |
| Parser.CleanSucceeds | scrapy_autounit/parser.py:9-22 | Cleaning succeeds exactly when the removal list can be built and the excluded list holds only strings. |
| Parser.CleanAfterMutation | scrapy_autounit/parser.py:19 | A second `_clean_headers` after the in-place `extend` removes exactly what the first one did. |
| Parser.ExclusionAfterClean | scrapy_autounit/parser.py:19 | After the `extend`, the stored list is the old list with the missing auth headers appended. |
| Parser.RemoveAllRepeats | scrapy_autounit/parser.py:20-22 | Repeating names already in the list changes nothing the loop removes. |
| Parser.RemoveAllFirstError | scrapy_autounit/parser.py:20-22 | Extending a list that already holds a non-text name does not change the error the loop raises. |
| Parser.RuleCallback | scrapy_autounit/parser.py:31 | `rules[rule]` follows Python indexing, negative indices and booleans included, and fails exactly outside the list or on a non-integer. |
| Parser.RecordedCallback | scrapy_autounit/parser.py:26-31 | An empty callback is recorded as `parse`; a CrawlSpider request with a `rule` in its meta records that rule's callback; otherwise the callback is kept. |
| Parser.ResponseDict | scrapy_autounit/parser.py:40-53 | The response dict has exactly the seven fields; `cls` is the module plus the qualified name (or the plain name); `url`, `status`, `body` and `encoding` are the response's own, and `headers` and `flags` are its headers dict and flags list, the only non-leaf fields. |
| Parser.ParseObject | scrapy_autounit/parser.py:75-88 | Leaves and Items come back unchanged; dicts keep their keys and lists and tuples their lengths and kinds. |
| Parser.ParseItems | scrapy_autounit/parser.py:83-87 | A list or tuple parses when every element parses, element by element in order; otherwise it fails with the first failing element's error. |
| Parser.ParseEntries | scrapy_autounit/parser.py:80-82 | A dict parses when every value parses, keeping its keys with each value parsed. |
| Parser.SanitizeRequest | scrapy_autounit/parser.py:24-38 | `_request_to_dict` succeeds exactly when the callback, the header cleaning and every meta value succeed. It records the callback, the cleaned headers and the parsed meta without the cassette key. |
| Parser.SanitizeMeta | scrapy_autounit/parser.py:33-37 | The recorded meta is every entry but the cassette key, each value parsed. |
| Parser.ResponseParsedAsDict | scrapy_autounit/parser.py:78-79 | A response parses exactly as its `_response_to_dict`. |
| Parser.ResponseFieldsUnfold | scrapy_autounit/parser.py:78-79 | A response parses to its dict with the headers and the flags parsed, or fails when either fails. |
| Parser.ResponseFieldsFail | scrapy_autounit/parser.py:78-82 | A response dict whose headers or flags fail to parse fails. |
| Parser.ResponseFieldsParsed | scrapy_autounit/parser.py:78-82 | A response dict whose headers and flags parse is parsed only in those two fields. |
| Parser.SpiderAttrs | scrapy_autounit/parser.py:55-68 | The snapshot keeps exactly the attributes outside the always-filtered names (plus `rules`/`_rules` for a CrawlSpider) and the configured names, with their values. It fails when the configured names are unhashable. |
| Parser.Entry | scrapy_autounit/parser.py:100-103 | A recorded entry has exactly the keys `type` and `data`. |
| Parser.TagAll | scrapy_autounit/parser.py:93-103 | The output is recorded when every element is, one entry per element in order; otherwise some element's error is the result. |
| Parser.TagMeaning | scrapy_autounit/parser.py:95-103 | An entry is tagged `request` exactly when its element is a Request, otherwise `item`, and its data is the element parsed. |
| Parser.ParseCallbackOutput | scrapy_autounit/parser.py:90-104 | `parse_callback_output` returns the elements as they were, in order, and their entries. |
| Parser.TagAllFirstFailure | scrapy_autounit/parser.py:93-99 | The first element that fails decides the error. |
| Parser.ReportDeprecated | scrapy_autounit/parser.py:115-120 | The reporting loop computes `Deprecations` over the pairs. |
| Parser.DeprecatedSettings | scrapy_autounit/parser.py:106-120 | `deprecated_settings` reports over the five old/new pairs. |
| Parser.DeprecationsExact | scrapy_autounit/parser.py:116-119 | A pair's warning is in the report exactly when its old setting is truthy. |
| Parser.DeprecatedSettingsExact | scrapy_autounit/parser.py:106-120 | Each of the five old settings is reported exactly when it is set. |
| Cassettes.FirstEndingWith | scrapy_autounit/cassette.py:59 | The index found is the first entry ending with the suffix; none means no entry does. |
| Cassettes.Without | scrapy_autounit/cassette.py:61 | The filtered list holds exactly the entries other than the removed path. |
| Cassettes.WithoutKeepsOrder | scrapy_autounit/cassette.py:61 | Filtering keeps the chain's order. |
| Cassettes.ChainAfterAutounit | scrapy_autounit/cassette.py:57-62 | `_get_middlewares` fails with IndexError exactly when no component ends in `AutounitMiddleware`. |
| Cassettes.ChainAfterAutounitMeaning | scrapy_autounit/cassette.py:57-62 | The recorded chain is exactly the components after the recording middleware, in order, with every copy of it removed. |
| Cassettes.IncludedNames | scrapy_autounit/cassette.py:66-68 | An unreadable or non-empty `AUTOUNIT_RECORD_SETTINGS` decides the names (`GetNames`); when it names nothing, `AUTOUNIT_INCLUDED_SETTINGS` decides them; with neither setting, there are none. |
| Cassettes.SettingsOf | scrapy_autounit/cassette.py:69 | The dict succeeds exactly when every name is hashable; its keys are exactly the names, each with its setting's value. |
| Cassettes.IncludedSettingsOf | scrapy_autounit/cassette.py:64-70 | An unreadable names list fails with its error; otherwise the recorded settings are those of the chosen names (`SettingsOf`); with neither setting present, they are empty. |
| Cassettes.SettingsOfOne | scrapy_autounit/cassette.py:69 | One name records that setting's value under it. |
| Cassettes.IncludedSettingsFromNewName | scrapy_autounit/cassette.py:66 | A name in `AUTOUNIT_RECORD_SETTINGS` is recorded with its value. |
| Cassettes.IncludedSettingsFromOldName | scrapy_autounit/cassette.py:67-68 | With the new setting empty or unset, the names come from `AUTOUNIT_INCLUDED_SETTINGS`. |
| Cassettes.IncludedSettingsFromMapping | scrapy_autounit/cassette.py:66-69 | A dict given as `AUTOUNIT_RECORD_SETTINGS` names its keys, and each is recorded with its setting's value. |
| Cassettes.NewCassette | scrapy_autounit/cassette.py:18-48 | Without a spider, the given name, middlewares and settings are stored. With one, the spider's name, chain and included settings replace them, and construction fails exactly when either lookup does. A falsy python version becomes the running one; every other argument is stored as given. |
| Cassettes.ToDict | scrapy_autounit/cassette.py:87-98 | `to_dict` has exactly nine keys, without the filename and python version, with `settings` holding the included settings. |
| Player.CheckPythonVersion | scrapy_autounit/player.py:48-53 | The check passes exactly when the recorded version is the running one; otherwise the error names both. |
| Player.CreateInstance | scrapy_autounit/player.py:31-41 | `_create_instance` fails with ValueError exactly when neither settings nor crawler is given. It uses `from_crawler` when a crawler exists and the class has it, else `from_settings` with the given or the crawler's settings, else the constructor. |
| Player.Instantiate | scrapy_autounit/player.py:72-75 | A failed load fails; a loaded middleware with `from_crawler` is built from the crawler, else one with `from_settings` from the settings, else by its constructor. |
| Player.PopField | scrapy_autounit/player.py:46 | Popping a field keeps a dict a dict and an Item an Item. |
| Player.PopFieldsDict | scrapy_autounit/player.py:45-46 | Popping hashable fields from a dict removes exactly their keys, absent ones ignored. |
| Player.PopAll | scrapy_autounit/player.py:45-46 | The pop loop computes `PopFields`. |
| Player.Clean | scrapy_autounit/player.py:43-46 | `_clean` computes `CleanF` on both objects: a dict or Item of fields by its keys, any other fields by iterating them. |
| Player.PopKeysAnyOrder | scrapy_autounit/player.py:45-46 | Popping hashable fields one after the other, in any order, equals popping the set of keys they denote. |
| Player.PopAllKeys | scrapy_autounit/player.py:45-46 | The pop loop over a dict's keys, met in any order, computes `PopKeys`. |
| Player.CleanEachKey | scrapy_autounit/player.py:44-46 | The two loops over a dict's keys pop them from one object after the other. |
| Player.CleanIterated | scrapy_autounit/player.py:44-46 | For fields that iterate as a sequence, the two loops run over that sequence. |
| Player.CleanMappingFields | scrapy_autounit/player.py:43-46 | A dict of fields cleans two dicts exactly like the list of its keys, whatever their order: both lose exactly those keys. |
| Player.CleanEach | scrapy_autounit/player.py:44-46 | The two loops pop the fields from one object after the other. |
| Player.CleanDicts | scrapy_autounit/player.py:43-46 | On two dicts, both lose exactly the listed keys and nothing else. |
| Player.CompareItems | scrapy_autounit/player.py:92-109 | A passing comparison needs the entry's `type` and `data` and a parseable found item; it returns the found data after cleaning, which equals the cleaned recorded data. A missing `type` raises its KeyError. |
| Player.SkippedFieldsIgnored | scrapy_autounit/player.py:98-109 | Data that differs only in the skipped fields compares equal, and the found data loses those fields. |
| Player.OtherFieldsCompared | scrapy_autounit/player.py:105-109 | Any other difference fails with the item's index and the filename. |
| Player.ItemAfterCompare | scrapy_autounit/player.py:92-103 | A found dict, list or Item is left as its parsed, cleaned data, since `parse_object` and `_clean` change it in place; any other found item is left as it was. The errors are those of `CompareItems`. |
| Player.ItemChecker | scrapy_autounit/player.py:92-109 | The checker judges each pair as `ItemAfterCompare` does. |
| Player.SkippedFieldLeavesFoundDict | scrapy_autounit/player.py:96-103 | With `ts` skipped, a found `{'a': 1, 'ts': 5}` passes against a recorded `{'a': 1, 'ts': 3}` and is left as `{'a': 1}`. |
| Player.CompareSpec | scrapy_autounit/player.py:111-132 | A passing comparison has equal lengths on both sides, and returns each found item as its check leaves it. |
| Player.CompareOutputs | scrapy_autounit/player.py:111-132 | The comparison loop computes `CompareSpec` from index 1. |
| Player.CompareStep | scrapy_autounit/player.py:116-123 | One loop step: a failing pair decides the result; a passing pair moves on. |
| Player.CompareStepMore | scrapy_autounit/player.py:118-122 | Running out of recorded entries reports the rest of the found items plus one. |
| Player.CompareStepEnd | scrapy_autounit/player.py:126-132 | At the end of the found items, leftover entries are counted; otherwise the found items are returned. |
| Player.MoreFoundCounted | scrapy_autounit/player.py:118-122 | With all pairs matching and a longer output, the surplus count is reported. |
| Player.MoreExpectedCounted | scrapy_autounit/player.py:126-130 | With all pairs matching and a shorter output, the missing count is reported. |
| Player.FirstMismatchReported | scrapy_autounit/player.py:116-123 | The first differing pair decides the error. |
| Player.AllMatchPasses | scrapy_autounit/player.py:111-132 | Equal lengths and matching pairs pass. |
| Player.PassedUnchanged | scrapy_autounit/player.py:111-132 | When every check leaves its item as it was, the comparison returns the found items themselves. |
| Player.ReplayOfRecordingPasses | scrapy_autounit/player.py:111-132 | Comparing an output against the entries `parse_callback_output` recorded from it passes when no fields are skipped. Each found dict, list or Item comes back in parsed form, anything else as it was. |
| Player.RecordedEntryPasses | scrapy_autounit/player.py:92-109 | `_compare_items` passes an element against its own recorded entry and leaves it as its parsed data. |
| Player.CompareAttrs | scrapy_autounit/player.py:134-154 | The check passes exactly when all three snapshots match; the first mismatch (init, input, output) is reported with its label and the filename. |
| Player.LoadChain | scrapy_autounit/player.py:70-79 | Loading succeeds exactly when every failure is NotConfigured, and never keeps more middlewares than there are paths. |
| Player.LoadChainAppend | scrapy_autounit/player.py:72-78 | Loading a concatenation keeps the kept middlewares of each part, in order. |
| Player.LoadChainKeepsAll | scrapy_autounit/player.py:72-78 | Without refusals every middleware is kept, in order. |
| Player.LoadChainSkipsRefused | scrapy_autounit/player.py:77-78 | A middleware raising NotConfigured is simply left out. |
| Player.LoadMiddlewares | scrapy_autounit/player.py:70-79 | `_get_middlewares` computes `LoadChain` over the instantiated paths. |
| Player.FirstLoadFailure | scrapy_autounit/player.py:73-78 | The first failure other than NotConfigured propagates. |
| Player.Reversed | scrapy_autounit/player.py:185 | `reverse()` puts element i at position n-1-i. |
| Player.OnionLast | scrapy_autounit/player.py:185-188 | The last middleware of the chain wraps the callback innermost. |
| Player.ReversedChainIsOnion | scrapy_autounit/player.py:185-188 | Output hooks over the reversed chain compose as the onion of the recorded chain. |
| Player.Onion | scrapy_autounit/player.py:185-188 | Middlewares without an output hook leave the output alone; a single hook applies once. |
| Player.RunInputHooks | scrapy_autounit/player.py:176-178 | The input-hook loop leaves the spider's attributes as `InputChain` says. |
| Player.RunOutputHooks | scrapy_autounit/player.py:185-188 | The reversed output-hook loop computes the onion of the chain. |
| Player.InputAttrs | scrapy_autounit/player.py:164-165 | Recorded input attributes need a dict; a text-keyed dict gives exactly its attributes. |
| Player.AttrsFrom | scrapy_autounit/player.py:164-165 | A text-keyed dict is read back as its attribute names and values. |
| Player.ResponseClass | scrapy_autounit/player.py:62-66 | The class path is popped with its default `scrapy.http.HtmlResponse`; the remaining fields lack `cls`. |
| Player.Popped | scrapy_autounit/player.py:62-66 | Only the cassette's response changes: a dict response loses `cls`, anything else is left alone. |
| Player.PoppedResponseClass | scrapy_autounit/player.py:64-67 | A response without `cls` is built as `scrapy.http.HtmlResponse` from the remaining entries. |
| Player.PoppedIdempotent | scrapy_autounit/player.py:65 | Popping twice is popping once. |
| Player.Prepare | scrapy_autounit/player.py:156-173 | A version mismatch fails first and leaves the spider alone. Otherwise the init snapshot is taken before the input attributes are set and the input snapshot after; the recorded response must be a dict, and the response is built from its entries without `cls`; the chain is loaded. |
| Player.LoadedChain | scrapy_autounit/player.py:70-79 | An unreadable middleware list fails with its error; the loaded chain is never longer than the list. |
| Player.AfterLoad | scrapy_autounit/player.py:175-202 | The spider ends with the attributes the callback left. The init and input snapshots pass through, and the output snapshot is taken after the callback. A comparing phase that succeeds has passed the attribute comparison. |
| Player.PlaybackSpec | scrapy_autounit/player.py:156-202 | A version mismatch fails first and leaves the attributes alone. A successful replay took its three snapshots from the spider; a successful comparing replay reproduced the three recorded snapshots. |
| Player.Replayer.constructor | scrapy_autounit/player.py:15-16 | The player holds its cassette and spider. |
| Player.Replayer.ApplyInputAttrs | scrapy_autounit/player.py:164-165 | `setattr` for each recorded attribute overrides exactly those attributes. |
| Player.Replayer.Playback | scrapy_autounit/player.py:156-202 | `playback` computes `PlaybackSpec` on the cassette it was given. A successful replay leaves the cassette with `cls` popped from its response (`Popped`); a failed one leaves it either untouched or popped. |
| Player.Replayer.PrepareReplay | scrapy_autounit/player.py:157-173 | The phases before the hooks compute `Prepare`, popping `cls` from the cassette's response on the way. |
| Player.Replayer.RunPhases | scrapy_autounit/player.py:175-202 | The hook, callback and comparison phases compute `AfterLoad` on the cassette as the driver holds it, the compared output as its checks leave it. |
| Player.NoCompareDrains | scrapy_autounit/player.py:197-200 | Without comparison the whole onion output is returned and no comparison error arises. |
| Player.ComparePassedAgreesWithDrain | scrapy_autounit/player.py:193-200 | A passing compared replay leaves the spider with the same attributes and snapshots as the draining replay. Its output is the drained output as the item checks leave it. |
| Player.AfterLoadAgrees | scrapy_autounit/player.py:193-200 | The same agreement, after the middlewares are loaded. |
| Player.CompareAgreesOnParsedOutput | scrapy_autounit/player.py:193-200 | With no skipped fields and a drained output already in parsed form, the compared replay returns exactly what the draining replay returns. |
| Player.ParsedOutputKept | scrapy_autounit/player.py:111-132 | A comparison without skipped fields that passes on parsed items returns them as they were. |
| Player.NoSkipKeepsParsed | scrapy_autounit/player.py:92-103 | Without skipped fields, a passing check leaves an already parsed item as it was. |
| Utils.DecodeKey | scrapy_autounit/utils.py:74-75 | A bytes header name decodes exactly when it is valid UTF-8; other names are kept. |
| Utils.DecodeElement | scrapy_autounit/utils.py:83-84 | A bytes list element decodes exactly when it is valid UTF-8; others are kept. |
| Utils.ParseHeaderValue | scrapy_autounit/utils.py:77-86 | A list value keeps its length and decodes element by element, failing exactly when some element fails. |
| Utils.ParseHeaders | scrapy_autounit/utils.py:71-90 | The loop computes `ParseHeadersF` over the header items. |
| Utils.FirstHeaderFailure | scrapy_autounit/utils.py:73-88 | A failing header fails the parse with its own error. |
| Utils.ParseHeadersSucceeds | scrapy_autounit/utils.py:71-90 | Parsing succeeds exactly when every entry decodes. |
| Utils.ParseHeadersKeys | scrapy_autounit/utils.py:73-88 | The result's keys are exactly the decoded names. |
| Utils.ParseHeadersLastWins | scrapy_autounit/utils.py:88 | An entry that no later entry renames to the same key keeps its decoded value. |
| Utils.OneEntryPerHeader | scrapy_autounit/utils.py:71-90 | With distinct bytes names, every header gives exactly its own decoded entry. |
| Utils.ParseItem | scrapy_autounit/utils.py:128-138 | Items and dicts become dicts with the same keys, tuples and lists become lists of the same length, and everything else is kept. |
| Utils.ParseItemPlain | scrapy_autounit/utils.py:128-138 | The result holds no Item and no tuple. |
| Utils.ParseItemKeepsPlain | scrapy_autounit/utils.py:128-138 | A plain value is left unchanged. |
| Utils.ParseItemIdempotent | scrapy_autounit/utils.py:128-138 | Parsing twice is parsing once. |
| Utils.ParseMeta | scrapy_autounit/utils.py:114-123 | The meta keeps its keys with Items parsed, and fails exactly when it holds a Request (the recursive call lacks `spider`). |
| Utils.ParseRequest | scrapy_autounit/utils.py:106-125 | `parse_request` succeeds exactly when the headers, the body and the meta parse, with errors in that order. It has the fields of `request_to_dict`, `parse` for an empty callback, the parsed headers, the decoded body and the parsed meta. |
| Utils.ResponseToDict | scrapy_autounit/utils.py:61-68 | The dict has exactly five fields; only the headers can fail, and the body is decoded with replacement. |
| Utils.TagLegacy | scrapy_autounit/utils.py:143-153 | An entry is tagged `request` exactly for a Request; an item's data is `parse_item` of it and never fails. |
| Utils.TagLegacyEach | scrapy_autounit/utils.py:143-153 | One entry per element, in order. |
| Utils.TagLegacyAll | scrapy_autounit/utils.py:141-155 | The list succeeds exactly when every element does, entry by entry; otherwise the first failure is the result. |
| Utils.ParseItemsWithRequests | scrapy_autounit/utils.py:141-155 | The loop computes `TagLegacyAll`. |
| Utils.Stem | scrapy_autounit/utils.py:159 | The stem is a prefix of the file name. |
| Utils.FixturesDir | scrapy_autounit/utils.py:40-44 | The fixtures directory lies three levels below the base and ends with the callback's name. |
| Utils.TestsDir | scrapy_autounit/utils.py:47-53 | The tests directory lies three levels below the base and ends with the callback's name. |
| Utils.TestPathMirrorsFixture | scrapy_autounit/utils.py:158-165 | A fixture in its callback's fixtures directory gets its test module in the mirrored tests directory. |
| Utils.StemDropsBin | scrapy_autounit/utils.py:159-165 | A fixture named `name.bin` gets `test_name.py`. |
| Cli.ParseFixtureArg | scrapy_autounit/cli.py:124-132 | The name always ends in `.bin`: a number n gives `fixture<n>.bin`, and any other name gets `.bin` appended unless it already ends with it. |
| Cli.ParseFixtureArgIdempotent | scrapy_autounit/cli.py:124-132 | Normalising a normalised name changes nothing. |
| Cli.ExtraPath | scrapy_autounit/cli.py:73 | A falsy extra path adds nothing; a string adds its components. |
| Cli.CallbacksDir | scrapy_autounit/cli.py:72-74 | The callbacks directory is `tests/spider/extra_path`, failing only with the extra path. |
| Cli.ParsedKey | scrapy_autounit/cli.py:137 | A parsed key is never bytes; other keys are kept. |
| Cli.ParsedKeysDistinct | scrapy_autounit/cli.py:136-139 | Distinct kept keys stay distinct once parsed. |
| Cli.Rekey | scrapy_autounit/cli.py:136-139 | Each kept key's value lands under its parsed key, and every resulting key comes from a kept key. |
| Cli.RekeyTextKeys | scrapy_autounit/cli.py:136-139 | A dict without bytes keys is unchanged. |
| Cli.ProjectEntries | scrapy_autounit/cli.py:135-139 | A projected dict holds each kept key's projected value under its parsed key, and nothing else. |
| Cli.ProjectJsonReady | scrapy_autounit/cli.py:134-148 | The projection is JSON-ready: lists keep their lengths, dicts and Items become dicts, bytes become their text, and other objects become their `repr`. |
| Cli.ParseData | scrapy_autounit/cli.py:134-148 | `parse_data` succeeds exactly when every byte string is valid UTF-8 (otherwise UnicodeDecodeError), and its result is JSON-ready. |
| Cli.ProjectKeepsJson | scrapy_autounit/cli.py:134-148 | JSON-ready data is left unchanged. |
| Cli.ParseDataIdempotent | scrapy_autounit/cli.py:134-148 | Parsing parsed data changes nothing. |
| Cli.ProjectTextKeyed | scrapy_autounit/cli.py:135-139 | A text-keyed dict keeps its keys, each value projected. |
| Cli.InspectCommand | scrapy_autounit/cli.py:150-153 | `inspect` shows exactly the nine `to_dict` keys, each field projected, and fails exactly on invalid UTF-8 bytes. |
| Cli.LegacyInputAttrs | scrapy_autounit/cli.py:94 | The input attributes are `spider_args_in`, else `spider_args`, else `{}`, taking the first truthy one. |
| Cli.LegacyFields | scrapy_autounit/cli.py:87-96 | The six required fields are looked up in order; the first missing one is the error. |
| Cli.FromLegacyFixture | scrapy_autounit/cli.py:83-97 | A missing `encoding` or `data` raises its KeyError. The new cassette takes its fields from the old keys, the python version defaulting to the running one, the init attributes `{}`, the output attributes defaulting to `{}` and no filename. |
| Cli.LegacyVersionPasses | scrapy_autounit/cli.py:90 | A legacy fixture without a version passes the player's version check. |
| Cli.UpdateGate | scrapy_autounit/cli.py:156-169 | `update` proceeds exactly when a callback has a spider, a fixture has both, and an all-spiders update was confirmed; each refusal matches its check. |
| Cli.Startup | scrapy_autounit/cli.py:26-59 | Start-up passes exactly when inside a project and, for each given argument, its directory or fixture file exists. |
| Cli.NamedTargetExists | scrapy_autounit/cli.py:56-59 | After start-up, an update of a named fixture targets exactly one path, and it is a file. |
| Cli.Walk | scrapy_autounit/cli.py:65-70 | `_walk` yields exactly the subdirectories other than `__pycache__`. |
| Cli.FixturesUnder | scrapy_autounit/cli.py:78-80 | The fixtures found are exactly the globbed files of the listed callbacks. |
| Cli.SpiderFixtures | scrapy_autounit/cli.py:76-81 | The loop computes `SpiderFixturesF`. |
| Cli.AllFixturesUnder | scrapy_autounit/cli.py:180-182 | Listing every spider fails only with the extra path, and each fixture belongs to some spider's callbacks directory. |
| Cli.UpdateTargets | scrapy_autounit/cli.py:171-182 | Target selection fails exactly when the extra path fails and is actually consulted. |
| Cli.SpiderFixturesInside | scrapy_autounit/cli.py:76-81 | Every fixture of a spider lies under its callbacks directory. |
| Cli.AllTargetsInside | scrapy_autounit/cli.py:180-182 | Updating every spider touches only files under the tests directory. |
| Cli.TargetsWithinSelection | scrapy_autounit/cli.py:171-182 | Every target lies in the directory the arguments select, and a named fixture is the only target. |
| Cli.SelectTargets | scrapy_autounit/cli.py:171-182 | The selection code computes `UpdateTargets`. |
| Cli.AllFixturesFail | scrapy_autounit/cli.py:180-182 | An unusable extra path fails a non-empty all-spiders listing with its error. |
| Cli.Refreshed | scrapy_autounit/cli.py:195-203 | The refreshed cassette holds the entries recorded from the draining replay, its three snapshots and the recorded response without `cls`, and keeps every other field. |
| Cli.RefreshedOutputMatches | scrapy_autounit/cli.py:195-203 | A refreshed fixture's replayed output passes against its new entries when no fields are skipped, each dict, list or Item coming back in parsed form. |
| Cli.UpdatedResponseHasDefaultClass | scrapy_autounit/cli.py:195-205 | An updated fixture has lost its response class: its next replay builds a `scrapy.http.HtmlResponse` from the same arguments. |
| Cli.UpdateOne | scrapy_autounit/cli.py:184-205 | A current cassette, or a legacy fixture once converted, is refreshed by a draining replay against its spider; a failed conversion fails the update with its error. |
| Cli.UpdateFixtures | scrapy_autounit/cli.py:184-208 | Fixtures are written in target order; the loop passes exactly when all are written, and otherwise fails with the first unwritten target's load or update error. |
| Cli.Update | scrapy_autounit/cli.py:155-208 | A refusal writes nothing, a target failure writes nothing, and otherwise every written fixture is the update of its target, in order. |
| Inspect.ProjectEntries | scrapy_autounit/inspect.py:124 | A projected dict holds each kept key's projected value under its parsed key, and nothing else. |
| Inspect.ProjectProjected | scrapy_autounit/inspect.py:122-129 | The projection leaves no bytes, keeps dicts and list lengths, decodes bytes, and keeps every other value. |
| Inspect.ProjectKeepsProjected | scrapy_autounit/inspect.py:122-129 | A value without bytes is its own projection. |
| Inspect.ParseData | scrapy_autounit/inspect.py:122-129 | `parse_data` succeeds exactly when all bytes are valid UTF-8 (otherwise UnicodeDecodeError), and leaves no bytes. |
| Inspect.ParseDataIdempotent | scrapy_autounit/inspect.py:103-104 | `handle_path`'s second `parse_data` changes nothing. |
| Inspect.Payload | scrapy_autounit/inspect.py:112-117 | A fixture without `fixture_version` is its own payload; a versioned one is unpickled from `data` with its `encoding`; a failing `in` test fails. |
| Inspect.GetData | scrapy_autounit/inspect.py:108-119 | The shown data holds no bytes, and a decompression error propagates. |
| Inspect.VersionedFixtureShown | scrapy_autounit/inspect.py:113-115 | A versioned fixture shows its unpickled payload. |
| Inspect.LegacyFixtureShown | scrapy_autounit/inspect.py:116-117 | A legacy fixture is shown whole. |
| Inspect.HandlePath | scrapy_autounit/inspect.py:99-105 | A missing file gives exit code 1 and nothing shown; otherwise the call succeeds exactly when `get_data` does, with exit code 0 and its data shown. |
| Inspect.BasePath | scrapy_autounit/inspect.py:67-71 | A missing project directory fails even when the setting is present; an unset setting gives `project/autounit`; a string setting gives its path. |
| Inspect.FixturePath | scrapy_autounit/inspect.py:79-82 | The fixture path is `tests/spider/extra_path/callback/fixture`, ending in `.bin`, failing only with the extra path. |
| Inspect.Main | scrapy_autounit/inspect.py:44-85 | `--path` shows that fixture. Without it, a missing project or argument exits with 1. Exit code 0 always comes with data free of bytes. |
| Inspect.MainShowsNamedFixture | scrapy_autounit/inspect.py:62-85 | With all arguments and the tests directory, `main` shows exactly the fixture the arguments name, or exits with 1 when it is missing. |
| Middleware.Validate | scrapy_autounit/middleware.py:14-29 | Construction succeeds only with the class named in `SPIDER_MIDDLEWARES`, recording enabled and a readable concurrency, warning exactly when concurrency exceeds 1. A missing name raises the ValueError; disabled recording raises NotConfigured. |
| Middleware.EnabledInChainSucceeds | scrapy_autounit/middleware.py:20-29 | With the class in the chain and recording enabled, construction succeeds, with the warning exactly when concurrency exceeds 1. |
| Middleware.DefaultPathPasses | scrapy_autounit/middleware.py:20-29 | A chain with the class's own path, recording on and `CONCURRENT_REQUESTS` at 1 passes without a warning. |
| Middleware.MetaAfterInput | scrapy_autounit/middleware.py:40-43 | The input hook stores the pickled new cassette under the hand-off key and changes no other entry; it fails exactly when the recorder does. |
| Middleware.PoppedCassette | scrapy_autounit/middleware.py:46 | Popping a missing key raises KeyError; otherwise the stored value is unpickled. |
| Middleware.HandoffRoundTrip | scrapy_autounit/middleware.py:40-48 | With a round-tripping pickle, the output hook receives exactly the cassette the input hook created, and the meta ends as it began, the key apart. |
| Middleware.AutounitMiddleware.constructor | scrapy_autounit/middleware.py:14-29 | The middleware keeps its crawler, records whether it warned, and has no recorder yet. |
| Middleware.AutounitMiddleware.FromCrawler | scrapy_autounit/middleware.py:31-35 | `from_crawler` succeeds exactly when validation does, with a fresh middleware without a recorder; otherwise it fails with the validation's error. |
| Middleware.AutounitMiddleware.EngineStarted | scrapy_autounit/middleware.py:37-38 | The engine-started handler installs a recorder for the spider. |
| Middleware.AutounitMiddleware.ProcessSpiderInput | scrapy_autounit/middleware.py:40-43 | Without a recorder the hook raises AttributeError and leaves the meta alone; otherwise it updates the meta as `MetaAfterInput` says. |
| Middleware.AutounitMiddleware.ProcessSpiderOutput | scrapy_autounit/middleware.py:45-48 | The hand-off key is gone afterwards. The errors come in order: a missing key, a failing unpickle, no recorder. Otherwise the result is what the recorder records. |

## Left out

- pickle, zlib, the file system and reading or writing fixtures: they are function parameters (`Unpickle`, `Decompress`, `FileSystem`, `Checks`, `Env`). `Cassette.from_fixture`, `pack`, `add_file`, `Recorder.update_fixture` and the printing of JSON are not modelled.
- recorder.py is not part of this model. The recorder's `new_cassette` and `record` are parameters of the middleware's hooks.
- Scrapy internals are not modelled:
  - `build_component_list`: the sorted component list is given;
  - `load_object` and the middleware constructors: given as `load` and `construct`;
  - `request_from_dict`, `_init_spider`, `get_spider`, `_auto_import` and the response object: the spider is given, and `_http_objects` is reduced to popping `cls`;
  - `testfixtures.compare`: structural equality on the model's values (see the `Player.CompareItems` line below).
- The spider's callback and the middlewares' hook effects are parameters. Generator laziness is not modelled: outputs are finite sequences.
- In-place aliasing between the cassette, the parsed objects and the settings list is modelled by returning new values. Three updates in place are kept: the `meta` dict of the middleware (`Middleware.Meta`), the spider's attributes (`Scrapy.Spider`) and the replayed cassette's response (`Player.Replayer`). The found items a comparison changes are returned as changed (`Player.ItemAfterCompare`).
- Player.ItemAfterCompare: `parse_object` also rewrites in place the dicts and lists inside a found tuple, and the dict values of a found request's `meta`. The model leaves found tuples and requests as they were.
- Player.CompareItems: recorded and found data are compared by structural equality on `Value`. Python's `==`, which `testfixtures.compare` tries first, treats 1, 1.0 and True as equal and an Item as equal to a dict with the same entries. So `Player.CompareItems` and `Player.CompareAttrs` report a mismatch on such pairs where the source passes.
- Player.Prepare: when the recorded input attributes hold a non-text key, the model fails with TypeError and leaves the spider's attributes as they were. Python has already run `setattr` for the attributes iterated before that key when it raises.
- Scrapy.UpdateEntries: `BaseSettings.update` parses a string value with `json.loads`. JSON parsing is not modelled: a string fails here with AttributeError.
- Player.Environment: the middlewares' hooks and the spider's callback are total functions. An exception raised by one of them, which ends `playback` with that exception, is not modelled; so `Player.AfterLoad` and `Player.PlaybackSpec` fail only through the package's own checks.
- Cassettes.SettingsOf: a name Python can hash but the model's `Key` cannot hold (None, a float, a tuple) fails here with TypeError. Python would record it with the value `settings.get` gives it.
- Scrapy.RequestDict: a request is recorded by its url, callback, method, headers, body and meta only. `errback`, `cookies`, `priority`, `dont_filter`, `flags`, `cb_kwargs` and `_encoding` are not modelled, so requests that differ only in those compare equal here.
- Scrapy.GetInt: settings carry no default layer, so an unset setting reads as the getter's own default. An unset `CONCURRENT_REQUESTS` reads as 0, where Scrapy's defaults give 16. `Middleware.Validate` therefore warns about concurrency only when the setting is given.
- Dict iteration order is not modelled: dicts are maps. Therefore:
  - which failing entry `parse_object` reports is collapsed into one `SanitizeFailed` error;
  - header items are given as an explicit sequence where the order decides which duplicate wins (`Utils.ParseHeaders`).
- Values.Iterate: iterating a dict or Item fails, because the model does not hold its key order. The order-free uses take the keys instead: `_clean`'s fields (`Player.CleanF`) and `getlist` of the recorded settings (`Scrapy.GetNames`). The order-dependent uses still fail where Python iterates the keys: a cassette whose `middlewares` or `output_data` is a dict (`Player.LoadChain`, `Player.PlaybackSpec`).
- Cli.Rekey: when a bytes key decodes to a text key already present, the text key's entry is kept. In Python the key iterated last wins.
- Inspect.ProjectEntries: the same collision rule as `Cli.Rekey`.
- `_update_legacy_test`, `create_tests_tree`'s file writes, `write_test`'s template text, `test_generator`, `get_spider_class` and `get_project_dir` are left out: file writes and module loading.
- commands.py, `parse_command`'s dispatch and the argparse set-up are left out. The `update` and `inspect` commands are modelled directly.
- `from_crawler` connecting `engine_started` to Scrapy's signal is not modelled. `EngineStarted` is called directly.
- `sanitize_module_name` on the spider argument is not applied: names are taken as given.
- `Cli.PathOf` drops empty components, so absolute paths and `.` components are not distinguished. Separators inside the spider, callback and fixture arguments are not split.
- `int()` on strings accepts ASCII digits and whitespace only: Unicode digits and whitespace are not modelled.
- `confirmation.lower() == 'y'` is modelled as `y` or `Y`.
- `json.dumps` failing on values that are not JSON is not modelled. `Cli.ParseData` and `Inspect.ParseData` state what the data is before it is printed.
- Floating point is an exact `real`. Datetimes are carried as their ISO text.
- Middleware.Validate: when a non-string key of `SPIDER_MIDDLEWARES` comes before the key that names the class, Python's `any` raises TypeError. The model lets the match win; the TypeError is modelled only when no key names the class.
- Middleware.Validate: the class name is a parameter, so subclasses are covered by passing their own name.

=== FILE: cassette.dfy ===
/**
 * The cassette: the record of one callback invocation (request, response,
 * output, spider attributes, middleware chain and settings) that a fixture
 * file stores and the player replays.
 */
module Cassettes {
  import opened Values
  import opened PyText
  import opened Scrapy

  /** The format version written into every fixture. */
  const FixtureVersion := 2

  const RecordSettings := "AUTOUNIT_RECORD_SETTINGS"
  const IncludedSettings := "AUTOUNIT_INCLUDED_SETTINGS"

  /** The class-name suffix by which the recording middleware is recognised. */
  const AutounitSuffix := "AutounitMiddleware"

  /** A cassette's fields are set once; each holds whatever Python put there. */
  datatype Cassette = Cassette(
    spiderName: Value,
    middlewares: Value,
    includedSettings: Value,
    request: Value,
    response: Value,
    initAttrs: Value,
    inputAttrs: Value,
    outputAttrs: Value,
    outputData: Value,
    filename: Value,
    pythonVersion: Value)

  /**
   * What the constructor reads from a spider: its name, its settings and
   * the ordered middleware list Scrapy builds from `SPIDER_MIDDLEWARES`
   * (ordering by priority is Scrapy's and is given here).
   */
  datatype SpiderSource = SpiderSource(name: string, settings: Settings, componentList: seq<string>)

  // ---------------------------------------------------------------------
  // _get_middlewares
  // ---------------------------------------------------------------------

  /** The index of the first entry ending in `suffix`, if any. */
  function FirstEndingWith(xs: seq<string>, suffix: string): (r: Option<nat>)
    ensures r.Some? ==> r.value < |xs| && EndsWith(xs[r.value], suffix)
    ensures r.Some? ==> forall j :: 0 <= j < r.value ==> !EndsWith(xs[j], suffix)
    ensures r.None? ==> forall j :: 0 <= j < |xs| ==> !EndsWith(xs[j], suffix)
    decreases |xs|
  {
    if xs == [] then None
    else if EndsWith(xs[0], suffix) then Some(0)
    else
      match FirstEndingWith(xs[1..], suffix)
      case None => None
      case Some(i) => Some(i + 1)
  }

  /** `xs` with every entry equal to `p` left out, in order. */
  function Without(xs: seq<string>, p: string): (r: seq<string>)
    ensures forall x :: x in r <==> x in xs && x != p
    ensures |r| <= |xs|
    decreases |xs|
  {
    if xs == [] then []
    else if xs[0] == p then Without(xs[1..], p)
    else [xs[0]] + Without(xs[1..], p)
  }

  /** `r` is `xs` with some entries left out and the rest in their order. */
  predicate Subsequence(r: seq<string>, xs: seq<string>)
    decreases |xs|
  {
    if r == [] then true
    else if xs == [] then false
    else if r[0] == xs[0] then Subsequence(r[1..], xs[1..])
    else Subsequence(r, xs[1..])
  }

  lemma {:induction false} WithoutKeepsOrder(xs: seq<string>, p: string)
    ensures Subsequence(Without(xs, p), xs)
    decreases |xs|
  {
    if xs != [] {
      WithoutKeepsOrder(xs[1..], p);
      var r := Without(xs, p);
      if xs[0] != p {
        assert r[1..] == Without(xs[1..], p);
      } else if r != [] {
        assert r[0] in r;
      }
    }
  }

  /**
   * `_get_middlewares`: the middlewares downstream of the recording one,
   * in chain order.  With no entry ending in `AutounitMiddleware` the
   * `[0]` of the empty filtered list raises.
   */
  function ChainAfterAutounit(componentList: seq<string>): (r: Result<seq<string>>)
    ensures r.Failure? <==> forall j :: 0 <= j < |componentList| ==> !EndsWith(componentList[j], AutounitSuffix)
    ensures r.Failure? ==> r.error.IndexError?
  {
    match FirstEndingWith(componentList, AutounitSuffix)
    case None => Failure(IndexError("list index out of range"))
    case Some(start) => Success(Without(componentList[start..], componentList[start]))
  }

  /**
   * The chain after the recording middleware: exactly the entries from its
   * position on other than itself, in their order, and none placed before it.
   */
  lemma ChainAfterAutounitMeaning(componentList: seq<string>, start: nat)
    requires start < |componentList| && EndsWith(componentList[start], AutounitSuffix)
    requires forall j :: 0 <= j < start ==> !EndsWith(componentList[j], AutounitSuffix)
    ensures ChainAfterAutounit(componentList).Success?
    ensures var r := ChainAfterAutounit(componentList).value;
      var mw := componentList[start];
      r == Without(componentList[start + 1..], mw) &&
      (forall x :: x in r <==> x in componentList[start + 1..] && x != mw) &&
      Subsequence(r, componentList[start..]) &&
      mw !in r
  {
    var mw := componentList[start];
    assert FirstEndingWith(componentList, AutounitSuffix) == Some(start);
    assert componentList[start..][0] == mw && componentList[start..][1..] == componentList[start + 1..];
    WithoutKeepsOrder(componentList[start..], mw);
    forall x ensures x in componentList[start..] && x != mw <==> x in componentList[start + 1..] && x != mw {
      assert componentList[start..] == [mw] + componentList[start + 1..];
    }
  }

  // ---------------------------------------------------------------------
  // _get_included_settings
  // ---------------------------------------------------------------------

  /**
   * The names of the recorded settings: the new setting when non-empty,
   * else the old one.  Only which names there are matters, so they are a set.
   */
  function IncludedNames(s: Settings): (r: Result<set<Value>>)
    ensures GetNames(s, RecordSettings).Failure? ==> r == GetNames(s, RecordSettings)
    ensures GetNames(s, RecordSettings).Success? && GetNames(s, RecordSettings).value != {} ==> r == GetNames(s, RecordSettings)
    ensures GetNames(s, RecordSettings) == Success({}) ==> r == GetNames(s, IncludedSettings)
    ensures RecordSettings !in s && IncludedSettings !in s ==> r == Success({})
  {
    if RecordSettings !in s && IncludedSettings !in s then
      GetNamesUnset(s, RecordSettings);
      GetNamesUnset(s, IncludedSettings);
      Success({})
    else
    match GetNames(s, RecordSettings)
    case Failure(e) => Failure(e)
    case Success(names) => if names != {} then Success(names) else GetNames(s, IncludedSettings)
  }

  /** `settings.get(name)` for a name used as a dict key; only text names are settings. */
  function SettingFor(s: Settings, k: Key): Value {
    if k.KText? then Get(s, k.s, Null) else Null
  }

  /**
   * `{name: settings.get(name) for name in names}`.  A name must be usable
   * as a key; the names this model cannot key (see `Hash`) fail like
   * unhashable ones.
   */
  function SettingsOf(s: Settings, names: set<Value>): (r: Result<map<Key, Value>>)
    ensures r.Success? <==> forall x :: x in names ==> Hash(x).AsKey?
    ensures r.Success? ==> forall k :: k in r.value <==> exists x :: x in names && Hash(x) == AsKey(k)
    ensures r.Success? ==> forall t :: KText(t) in r.value ==> r.value[KText(t)] == Get(s, t, Null)
  {
    if exists x :: x in names && !Hash(x).AsKey? then Failure(TypeError("unhashable type"))
    else
      var keys := set x | x in names :: Hash(x).key;
      Success(map k | k in keys :: SettingFor(s, k))
  }

  /** `_get_included_settings`. */
  function IncludedSettingsOf(s: Settings): (r: Result<map<Key, Value>>)
    ensures IncludedNames(s).Failure? ==> r == Failure(IncludedNames(s).error)
    ensures IncludedNames(s).Success? ==> r == SettingsOf(s, IncludedNames(s).value)
    ensures RecordSettings !in s && IncludedSettings !in s ==> r == Success(map[])
  {
    match IncludedNames(s)
    case Failure(e) => Failure(e)
    case Success(names) => SettingsOf(s, names)
  }

  /** One named setting is recorded under its name with its value. */
  lemma {:induction false} SettingsOfOne(s: Settings, t: string)
    ensures SettingsOf(s, {Text(t)}) == Success(map[KText(t) := Get(s, t, Null)])
  {
    assert Hash(Text(t)) == AsKey(KText(t));
    var r := SettingsOf(s, {Text(t)});
    assert r.Success?;
    forall k ensures k in r.value <==> k == KText(t) {
      if k in r.value {
        var x :| x in {Text(t)} && Hash(x) == AsKey(k);
      }
    }
    assert r.value == map[KText(t) := Get(s, t, Null)];
  }

  /** A setting named in the new list is recorded with its value; the old list is then not consulted. */
  lemma IncludedSettingsFromNewName(s: Settings, t: string)
    requires RecordSettings in s && s[RecordSettings] == List([Text(t)])
    ensures IncludedSettingsOf(s) == Success(map[KText(t) := Get(s, t, Null)])
  {
    assert GetList(s, RecordSettings) == Success([Text(t)]);
    assert (set x | x in [Text(t)]) == {Text(t)};
    SettingsOfOne(s, t);
  }

  /** With the new setting empty or unset, the names come from the old setting. */
  lemma IncludedSettingsFromOldName(s: Settings, t: string)
    requires GetNames(s, RecordSettings) == Success({})
    requires IncludedSettings in s && s[IncludedSettings] == List([Text(t)])
    ensures IncludedSettingsOf(s) == Success(map[KText(t) := Get(s, t, Null)])
  {
    assert GetList(s, IncludedSettings) == Success([Text(t)]);
    assert (set x | x in [Text(t)]) == {Text(t)};
    SettingsOfOne(s, t);
  }

  /**
   * A dict given as the new setting names its keys, as `getlist`'s
   * `list(value)` does, whatever order it would iterate them in.
   */
  lemma IncludedSettingsFromMapping(s: Settings, t: string, v: Value)
    requires RecordSettings in s && s[RecordSettings] == Dict(map[KText(t) := v])
    ensures IncludedSettingsOf(s) == Success(map[KText(t) := Get(s, t, Null)])
  {
    var m := map[KText(t) := v];
    assert m.Keys == {KText(t)};
    var names := set k | k in m :: KeyValue(k);
    assert KeyValue(KText(t)) == Text(t);
    assert Text(t) in names;
    assert forall x :: x in names ==> x == Text(t);
    assert names == {Text(t)};
    SettingsOfOne(s, t);
  }

  // ---------------------------------------------------------------------
  // Construction and projection
  // ---------------------------------------------------------------------

  /** The middleware paths as the Python list of strings the cassette stores. */
  function AsTextList(xs: seq<string>): (v: Value)
    ensures v.List? && |v.items| == |xs| && forall i :: 0 <= i < |xs| ==> v.items[i] == Text(xs[i])
  {
    List(seq(|xs|, i requires 0 <= i < |xs| => Text(xs[i])))
  }

  /**
   * `Cassette(spider=..., ...)`: with a spider, its name, middleware chain
   * and included settings replace the arguments given for them; a falsy
   * `python_version` is replaced by the running major version.
   */
  function NewCassette(
    spider: Option<SpiderSource>,
    spiderName: Value, request: Value, response: Value,
    initAttrs: Value, inputAttrs: Value, outputAttrs: Value, outputData: Value,
    middlewares: Value, includedSettings: Value,
    pythonVersion: Value, filename: Value,
    runningMajor: int): (r: Result<Cassette>)
    ensures spider.None? ==>
      r.Success? && r.value.spiderName == spiderName && r.value.middlewares == middlewares && r.value.includedSettings == includedSettings
    ensures spider.Some? ==> (r.Success? <==>
      ChainAfterAutounit(spider.value.componentList).Success? && IncludedSettingsOf(spider.value.settings).Success?)
    ensures r.Success? && spider.Some? ==>
      r.value.spiderName == Text(spider.value.name) &&
      r.value.middlewares == AsTextList(ChainAfterAutounit(spider.value.componentList).value) &&
      r.value.includedSettings == Dict(IncludedSettingsOf(spider.value.settings).value)
    ensures r.Success? ==>
      r.value.request == request && r.value.response == response &&
      r.value.initAttrs == initAttrs && r.value.inputAttrs == inputAttrs &&
      r.value.outputAttrs == outputAttrs && r.value.outputData == outputData &&
      r.value.filename == filename
    ensures r.Success? ==> r.value.pythonVersion == if Truthy(pythonVersion) then pythonVersion else Int(runningMajor)
  {
    var version := if Truthy(pythonVersion) then pythonVersion else Int(runningMajor);
    match spider
    case None =>
      Success(Cassette(spiderName, middlewares, includedSettings, request, response,
        initAttrs, inputAttrs, outputAttrs, outputData, filename, version))
    case Some(sp) =>
      match ChainAfterAutounit(sp.componentList)
      case Failure(e) => Failure(e)
      case Success(chain) =>
        match IncludedSettingsOf(sp.settings)
        case Failure(e) => Failure(e)
        case Success(included) =>
          Success(Cassette(Text(sp.name), AsTextList(chain), Dict(included), request, response,
            initAttrs, inputAttrs, outputAttrs, outputData, filename, version))
  }

  /** The nine keys of `to_dict`. */
  const DictKeys: set<Key> := {
    KText("spider_name"), KText("request"), KText("response"), KText("output_data"),
    KText("middlewares"), KText("settings"), KText("init_attrs"), KText("input_attrs"),
    KText("output_attrs")}

  /**
   * `to_dict`: nine of the fields, the included settings under `settings`;
   * the filename and the python version are not part of it.
   */
  function ToDict(c: Cassette): (d: map<Key, Value>)
    ensures d.Keys == DictKeys
    ensures KText("filename") !in d && KText("python_version") !in d
    ensures d[KText("settings")] == c.includedSettings
    ensures d[KText("spider_name")] == c.spiderName && d[KText("middlewares")] == c.middlewares
    ensures d[KText("request")] == c.request && d[KText("response")] == c.response
    ensures d[KText("output_data")] == c.outputData
    ensures d[KText("init_attrs")] == c.initAttrs && d[KText("input_attrs")] == c.inputAttrs &&
      d[KText("output_attrs")] == c.outputAttrs
  {
    map[KText("spider_name") := c.spiderName,
        KText("request") := c.request,
        KText("response") := c.response,
        KText("output_data") := c.outputData,
        KText("middlewares") := c.middlewares,
        KText("settings") := c.includedSettings,
        KText("init_attrs") := c.initAttrs,
        KText("input_attrs") := c.inputAttrs,
        KText("output_attrs") := c.outputAttrs]
  }
}

=== FILE: cli.dfy ===
/**
 * The `autounit` command line: fixture-name normalisation, the JSON
 * projection of `inspect`, the migration of legacy fixtures, and the
 * argument gate, target selection and per-fixture step of `update`.
 *
 * The file system (walking, globbing, reading and writing fixtures) and the
 * pickle codec are outside the model: they are given as functions.
 */
module Cli {
  import opened Values
  import opened PyText
  import opened Utf8
  import opened Scrapy
  import opened Cassettes
  import Parser
  import Player

  /** A path as its components. */
  type Path = seq<string>

  /** `pickle.loads(data, encoding=encoding)`. */
  type Unpickle = (Value, Value) -> Result<Value>

  /** `to_unicode(b)`'s error: UnicodeDecodeError, a subclass of ValueError. */
  const DecodeError := ValueError("'utf-8' codec can't decode")

  const ExtraPathSetting := "AUTOUNIT_EXTRA_PATH"

  // ---------------------------------------------------------------------
  // parse_fixture_arg
  // ---------------------------------------------------------------------

  /**
   * `parse_fixture_arg`: a fixture number `n` names `fixture<n>.bin`; any
   * other name gets `.bin` appended unless it already ends with it.
   */
  function ParseFixtureArg(arg: string): (r: string)
    ensures EndsWith(r, ".bin")
    ensures IsPyInt(arg) ==> r == "fixture" + arg + ".bin"
    ensures !IsPyInt(arg) ==> r == arg || r == arg + ".bin"
    ensures !IsPyInt(arg) && EndsWith(arg, ".bin") ==> r == arg
  {
    if IsPyInt(arg) then
      assert ("fixture" + arg + ".bin")[|"fixture" + arg|..] == ".bin";
      "fixture" + arg + ".bin"
    else if !EndsWith(arg, ".bin") then
      assert (arg + ".bin")[|arg|..] == ".bin";
      arg + ".bin"
    else arg
  }

  /** A normalised name is its own normal form: it is no number and already ends in `.bin`. */
  lemma ParseFixtureArgIdempotent(arg: string)
    ensures ParseFixtureArg(ParseFixtureArg(arg)) == ParseFixtureArg(arg)
  {
    var r := ParseFixtureArg(arg);
    assert r[|r| - 4] == '.';
    NotPyInt(r, |r| - 4);
  }

  // ---------------------------------------------------------------------
  // Paths
  // ---------------------------------------------------------------------

  /** A path string as its non-empty `/`-separated components. */
  function PathOf(s: string): Path {
    Without(Split(s, '/'), "")
  }

  /** `settings.get('AUTOUNIT_EXTRA_PATH') or ''`, as the path it adds. */
  function ExtraPath(s: Settings): (r: Result<Path>)
    ensures !Truthy(Get(s, ExtraPathSetting, Null)) ==> r == Success([])
    ensures Get(s, ExtraPathSetting, Null).Text? ==> r == Success(PathOf(Get(s, ExtraPathSetting, Null).s))
  {
    var extra := Get(s, ExtraPathSetting, Null);
    if !Truthy(extra) then Success([])
    else if extra.Text? then Success(PathOf(extra.s))
    else Failure(TypeError("join() argument must be str"))
  }

  /** `_get_callbacks_dir`: `tests_dir/spider/extra_path`. */
  function CallbacksDir(s: Settings, testsDir: Path, spider: string): (r: Result<Path>)
    ensures r.Success? <==> ExtraPath(s).Success?
    ensures r.Success? ==> r.value == testsDir + [spider] + ExtraPath(s).value
    ensures !Truthy(Get(s, ExtraPathSetting, Null)) ==> r == Success(testsDir + [spider])
  {
    match ExtraPath(s)
    case Failure(e) => Failure(e)
    case Success(extra) =>
      assert extra == [] ==> testsDir + [spider] + extra == testsDir + [spider];
      Success(testsDir + [spider] + extra)
  }

  // ---------------------------------------------------------------------
  // parse_data
  // ---------------------------------------------------------------------

  /** A dict key survives `to_unicode`. */
  predicate KeyDecodes(k: Key) {
    !k.KBytes? || DecodeStrict(k.b).Some?
  }

  /** The key `parse_data` makes of a dict key: bytes are decoded. */
  function ParsedKey(k: Key): (r: Key)
    requires KeyDecodes(k)
    ensures !r.KBytes?
    ensures !k.KBytes? ==> r == k
  {
    if k.KBytes? then KText(DecodeStrict(k.b).value) else k
  }

  /**
   * A bytes key whose text is also a key of the same dict: the two collapse
   * into one entry, and the model keeps the text key's.
   */
  predicate Shadowed(m: map<Key, Value>, k: Key) {
    k.KBytes? && DecodeStrict(k.b).Some? && KText(DecodeStrict(k.b).value) in m
  }

  /** The keys of a dict that give an entry of the re-keyed dict. */
  predicate Kept(m: map<Key, Value>, k: Key) {
    k in m && KeyDecodes(k) && !Shadowed(m, k)
  }

  /** Distinct kept keys stay distinct once parsed. */
  lemma ParsedKeysDistinct(m: map<Key, Value>)
    ensures forall k1, k2 :: Kept(m, k1) && Kept(m, k2) && ParsedKey(k1) == ParsedKey(k2) ==> k1 == k2
  {
    forall k1, k2 | Kept(m, k1) && Kept(m, k2) && ParsedKey(k1) == ParsedKey(k2)
      ensures k1 == k2
    {
      if k1.KBytes? && k2.KBytes? {
        DecodeStrictInjective(k1.b, k2.b);
      }
    }
  }

  /**
   * `{parse_data(k): v for k, v in d.items()}` on the keys: every kept key
   * carries its value under its parsed key, and there is nothing else.
   */
  function Rekey(m: map<Key, Value>): (r: map<Key, Value>)
    requires forall k :: k in m ==> KeyDecodes(k)
    ensures forall k :: Kept(m, k) ==> ParsedKey(k) in r && r[ParsedKey(k)] == m[k]
    ensures forall k' :: k' in r ==> !k'.KBytes? && exists k :: Kept(m, k) && ParsedKey(k) == k'
  {
    ParsedKeysDistinct(m);
    var r := map k | k in m && KeyDecodes(k) && !Shadowed(m, k) :: ParsedKey(k) := m[k];
    assert forall k :: Kept(m, k) ==> ParsedKey(k) in r;
    r
  }

  /** A dict without bytes keys is re-keyed to itself. */
  lemma RekeyTextKeys(m: map<Key, Value>)
    requires forall k :: k in m ==> !k.KBytes?
    ensures Rekey(m) == m
  {
    assert forall k :: k in m ==> Kept(m, k) && ParsedKey(k) == k;
  }

  /** Every byte string the cli `parse_data` decodes is valid UTF-8. */
  predicate Decodes(v: Value)
    decreases v
  {
    match v
    case Dict(m) => forall k :: k in m ==> KeyDecodes(k) && Decodes(m[k])
    case Item(m) => forall k :: k in m ==> KeyDecodes(k) && Decodes(m[k])
    case List(xs) => forall i :: 0 <= i < |xs| ==> Decodes(xs[i])
    case Bytes(b) => DecodeStrict(b).Some?
    case _ => true
  }

  /** What `json.dumps` takes as it is: no bytes, no None, nothing without a JSON form. */
  predicate JsonReady(v: Value)
    decreases v
  {
    match v
    case Bool(_) => true
    case Int(_) => true
    case Float(_) => true
    case Text(_) => true
    case List(xs) => forall i :: 0 <= i < |xs| ==> JsonReady(xs[i])
    case Dict(m) => forall k :: k in m ==> !k.KBytes? && JsonReady(m[k])
    case _ => false
  }

  /**
   * The cli `parse_data` on input that decodes: dicts and Items become
   * dicts of parsed keys and values, lists are parsed elementwise, bytes
   * become text, datetimes their ISO form, numbers, booleans and text stay,
   * and anything else becomes its `repr`.
   */
  function Project(v: Value, repr: Value -> string): Value
    requires Decodes(v)
    decreases v
  {
    match v
    case Dict(m) => Dict(Rekey(map k | k in m :: Project(m[k], repr)))
    case Item(m) => Dict(Rekey(map k | k in m :: Project(m[k], repr)))
    case List(xs) => List(seq(|xs|, i requires 0 <= i < |xs| => Project(xs[i], repr)))
    case Bytes(b) => Text(DecodeStrict(b).value)
    case DateTime(iso) => Text(iso)
    case Int(_) => v
    case Float(_) => v
    case Text(_) => v
    case Bool(_) => v
    case _ => Text(repr(v))
  }

  /** The projected entries of a dict or Item: each kept key's value, projected, under its parsed key. */
  lemma ProjectEntries(m: map<Key, Value>, repr: Value -> string)
    requires Decodes(Dict(m))
    ensures var r := Project(Dict(m), repr).entries;
      (forall k :: Kept(m, k) ==> ParsedKey(k) in r && r[ParsedKey(k)] == Project(m[k], repr)) &&
      (forall k' :: k' in r ==> !k'.KBytes? && exists k :: Kept(m, k) && ParsedKey(k) == k')
  {
    var pm := map k | k in m :: Project(m[k], repr);
    assert forall k :: Kept(pm, k) <==> Kept(m, k);
  }

  /** The projection is ready for JSON, keeps list lengths and turns bytes into their text. */
  lemma {:induction false} ProjectJsonReady(v: Value, repr: Value -> string)
    requires Decodes(v)
    ensures JsonReady(Project(v, repr))
    ensures v.List? ==> Project(v, repr).List? && |Project(v, repr).items| == |v.items|
    ensures (v.Dict? || v.Item?) ==> Project(v, repr).Dict?
    ensures v.Bytes? ==> Project(v, repr) == Text(DecodeStrict(v.bytes).value)
    ensures (v.Null? || v.Tuple? || v.Req? || v.Resp? || v.Object?) ==> Project(v, repr) == Text(repr(v))
    decreases v
  {
    match v
    case Dict(m) =>
      ProjectEntries(m, repr);
      var r := Project(v, repr).entries;
      forall k' | k' in r ensures JsonReady(r[k']) {
        var k :| Kept(m, k) && ParsedKey(k) == k';
        ProjectJsonReady(m[k], repr);
      }
    case Item(m) =>
      assert Project(v, repr) == Project(Dict(m), repr);
      ProjectEntries(m, repr);
      var r := Project(v, repr).entries;
      forall k' | k' in r ensures JsonReady(r[k']) {
        var k :| Kept(m, k) && ParsedKey(k) == k';
        ProjectJsonReady(m[k], repr);
      }
    case List(xs) =>
      forall i | 0 <= i < |xs| ensures JsonReady(Project(v, repr).items[i]) {
        ProjectJsonReady(xs[i], repr);
      }
    case _ =>
  }

  /** `parse_data`: fails with UnicodeDecodeError on a byte string that is not UTF-8. */
  function ParseData(v: Value, repr: Value -> string): (r: Result<Value>)
    ensures r.Success? <==> Decodes(v)
    ensures r.Failure? ==> r.error == DecodeError
    ensures r.Success? ==> JsonReady(r.value)
  {
    if Decodes(v) then
      ProjectJsonReady(v, repr);
      Success(Project(v, repr))
    else Failure(DecodeError)
  }

  /** What is ready for JSON is left as it is. */
  lemma {:induction false} ProjectKeepsJson(v: Value, repr: Value -> string)
    requires JsonReady(v)
    ensures Decodes(v) && Project(v, repr) == v
    decreases v
  {
    match v
    case Dict(m) =>
      forall k | k in m ensures KeyDecodes(k) && Decodes(m[k]) && Project(m[k], repr) == m[k] {
        ProjectKeepsJson(m[k], repr);
      }
      var pm := map k | k in m :: Project(m[k], repr);
      assert pm == m;
      RekeyTextKeys(m);
    case List(xs) =>
      forall i | 0 <= i < |xs| ensures Decodes(xs[i]) && Project(xs[i], repr) == xs[i] {
        ProjectKeepsJson(xs[i], repr);
      }
      assert Project(v, repr).items == xs;
    case _ =>
  }

  /** Parsing parsed data changes nothing. */
  lemma ParseDataIdempotent(v: Value, repr: Value -> string)
    requires ParseData(v, repr).Success?
    ensures ParseData(ParseData(v, repr).value, repr) == ParseData(v, repr)
  {
    ProjectKeepsJson(ParseData(v, repr).value, repr);
  }

  /** A dict with text keys only keeps its keys, each with its value projected. */
  lemma ProjectTextKeyed(m: map<Key, Value>, repr: Value -> string)
    requires Decodes(Dict(m)) && forall k :: k in m ==> k.KText?
    ensures Project(Dict(m), repr).entries.Keys == m.Keys
    ensures forall k :: k in m ==> Project(Dict(m), repr).entries[k] == Project(m[k], repr)
  {
    var pm := map k | k in m :: Project(m[k], repr);
    RekeyTextKeys(pm);
    assert Project(Dict(m), repr) == Dict(pm);
  }

  /**
   * The `inspect` command: the cassette's `to_dict`, projected; what it
   * prints has exactly the nine keys of `to_dict`, each with its field
   * projected.
   */
  function InspectCommand(c: Cassette, repr: Value -> string): (r: Result<Value>)
    ensures r.Success? <==> Decodes(Dict(ToDict(c)))
    ensures r.Failure? ==> r.error == DecodeError
    ensures r.Success? ==> r.value.Dict? && r.value.entries.Keys == DictKeys
    ensures r.Success? ==> forall k :: k in DictKeys ==> r.value.entries[k] == Project(ToDict(c)[k], repr)
  {
    var m := ToDict(c);
    if Decodes(Dict(m)) then
      DictKeysText(m);
      ProjectTextKeyed(m, repr);
      ParseData(Dict(m), repr)
    else ParseData(Dict(m), repr)
  }

  /** The keys of `to_dict` are all text. */
  lemma DictKeysText(m: map<Key, Value>)
    requires m.Keys == DictKeys
    ensures forall k :: k in m ==> k.KText?
  {
  }

  // ---------------------------------------------------------------------
  // _from_legacy_fixture
  // ---------------------------------------------------------------------

  /** The entries of a dict or an Item. */
  function Entries(d: Value): map<Key, Value>
    requires d.Dict? || d.Item?
  {
    if d.Dict? then d.entries else d.fields
  }

  /** `old.get(key, default)` on a dict-like value. */
  function GetField(old_: Value, key: string, default: Value): Value
    requires old_.Dict? || old_.Item?
  {
    GetOr(Entries(old_), key, default)
  }

  /** `spider_args_in`, else `spider_args`, else `{}`, taking the first that is truthy. */
  function LegacyInputAttrs(old_: Value): (r: Value)
    requires old_.Dict? || old_.Item?
    ensures Truthy(GetField(old_, "spider_args_in", Null)) ==> r == GetField(old_, "spider_args_in", Null)
    ensures !Truthy(GetField(old_, "spider_args_in", Null)) && Truthy(GetField(old_, "spider_args", Null)) ==>
      r == GetField(old_, "spider_args", Null)
    ensures !Truthy(GetField(old_, "spider_args_in", Null)) && !Truthy(GetField(old_, "spider_args", Null)) ==>
      r == Dict(map[])
  {
    var argsIn := GetField(old_, "spider_args_in", Null);
    var args := GetField(old_, "spider_args", Null);
    if Truthy(argsIn) then argsIn else if Truthy(args) then args else Dict(map[])
  }

  /** The keys a legacy fixture must hold, in the order the conversion reads them. */
  const LegacyNames: seq<string> := ["spider_name", "middlewares", "settings", "request", "response", "result"]

  /** The six required fields; the first one missing is the error. */
  function LegacyFields(old_: Value): (r: Result<seq<Value>>)
    ensures r.Success? ==> (old_.Dict? || old_.Item?) && |r.value| == 6
    ensures r.Success? ==> forall i :: 0 <= i < 6 ==> Lookup(old_, LegacyNames[i]) == Success(r.value[i])
    ensures r.Failure? ==> exists i :: 0 <= i < 6 && Lookup(old_, LegacyNames[i]) == Failure(r.error) &&
                                       forall j :: 0 <= j < i ==> Lookup(old_, LegacyNames[j]).Success?
  {
    var rs := seq(6, i requires 0 <= i < 6 => Lookup(old_, LegacyNames[i]));
    assert forall i :: 0 <= i < 6 ==> rs[i] == Lookup(old_, LegacyNames[i]);
    Collect(rs)
  }

  /**
   * `_from_legacy_fixture`: unpickles the recorded data with its encoding
   * and maps the old keys onto a new cassette.
   */
  function FromLegacyFixture(recorded: map<Key, Value>, unpickle: Unpickle, running: int): (r: Result<Cassette>)
    ensures KText("encoding") !in recorded ==> r == Failure(KeyError(KText("encoding")))
    ensures KText("encoding") in recorded && KText("data") !in recorded ==> r == Failure(KeyError(KText("data")))
    ensures r.Success? ==>
      KText("encoding") in recorded && KText("data") in recorded &&
      unpickle(recorded[KText("data")], recorded[KText("encoding")]).Success?
    ensures r.Success? ==>
      var old_ := unpickle(recorded[KText("data")], recorded[KText("encoding")]).value;
      (old_.Dict? || old_.Item?) &&
      Lookup(old_, "spider_name") == Success(r.value.spiderName) &&
      Lookup(old_, "middlewares") == Success(r.value.middlewares) &&
      Lookup(old_, "settings") == Success(r.value.includedSettings) &&
      Lookup(old_, "request") == Success(r.value.request) &&
      Lookup(old_, "response") == Success(r.value.response) &&
      Lookup(old_, "result") == Success(r.value.outputData) &&
      r.value.pythonVersion == GetField(old_, "python_version", Int(running)) &&
      r.value.initAttrs == Dict(map[]) &&
      r.value.inputAttrs == LegacyInputAttrs(old_) &&
      r.value.outputAttrs == GetField(old_, "spider_args_out", Dict(map[])) &&
      r.value.filename == Null
  {
    if KText("encoding") !in recorded then Failure(KeyError(KText("encoding")))
    else if KText("data") !in recorded then Failure(KeyError(KText("data")))
    else
      match unpickle(recorded[KText("data")], recorded[KText("encoding")])
      case Failure(e) => Failure(e)
      case Success(old_) =>
        match LegacyFields(old_)
        case Failure(e) => Failure(e)
        case Success(fields) =>
          Success(Cassette(
            spiderName := fields[0], middlewares := fields[1], includedSettings := fields[2],
            request := fields[3], response := fields[4],
            initAttrs := Dict(map[]), inputAttrs := LegacyInputAttrs(old_),
            outputAttrs := GetField(old_, "spider_args_out", Dict(map[])),
            outputData := fields[5], filename := Null,
            pythonVersion := GetField(old_, "python_version", Int(running))))
  }

  /** A legacy fixture recorded without a python version replays on the running one. */
  lemma LegacyVersionPasses(recorded: map<Key, Value>, unpickle: Unpickle, running: int)
    requires FromLegacyFixture(recorded, unpickle, running).Success?
    requires KText("python_version") !in Entries(unpickle(recorded[KText("data")], recorded[KText("encoding")]).value)
    ensures Player.CheckPythonVersion(FromLegacyFixture(recorded, unpickle, running).value, running) == Pass
  {
  }

  // ---------------------------------------------------------------------
  // update: argument gate and target selection
  // ---------------------------------------------------------------------

  /** The `update` arguments; an empty string is an argument not given. */
  datatype UpdateArgs = UpdateArgs(spider: string, callback: string, fixture: string)

  /** Where `update` stops before touching any fixture, or that it goes on. */
  datatype Gate = MustSpecifySpider | MustSpecifySpiderAndCallback | Cancelled | Proceed

  /** `confirmation.lower() == 'y'`. */
  predicate IsYes(confirmation: string) {
    confirmation == "y" || confirmation == "Y"
  }

  /**
   * The checks at the head of `update`: a callback needs a spider, a
   * fixture needs both, and updating every spider needs a `y`.
   */
  function UpdateGate(args: UpdateArgs, confirmation: string): (g: Gate)
    ensures g == Proceed <==>
      (args.callback != "" ==> args.spider != "") &&
      (args.fixture != "" ==> args.spider != "" && args.callback != "") &&
      (args.spider == "" ==> IsYes(confirmation))
    ensures args.callback != "" && args.spider == "" ==> g == MustSpecifySpider
    ensures g == MustSpecifySpiderAndCallback ==> args.fixture != "" && (args.spider == "" || args.callback == "")
    ensures g == Cancelled ==> args.spider == "" && args.callback == "" && args.fixture == "" && !IsYes(confirmation)
  {
    if args.callback != "" && args.spider == "" then MustSpecifySpider
    else if args.fixture != "" && (args.spider == "" || args.callback == "") then MustSpecifySpiderAndCallback
    else if args.spider == "" && !IsYes(confirmation) then Cancelled
    else Proceed
  }

  /** Why the command line stops before running a command. */
  datatype Refusal =
    | NoActiveProject
    | NoSpiderData(spider: string)
    | NoCallbackData(callback: string, spider: string)
    | FixtureNotFound(path: Path)

  /** What the command line sees of the file system when it starts. */
  datatype Checks = Checks(insideProject: bool, isDir: Path -> bool, isFile: Path -> bool)

  /**
   * The checks of `CommandLine.__init__`, each exiting with code 1: a
   * project, then the spider's callbacks directory, the callback's directory
   * and the fixture file, each only when its argument was given.
   */
  function Startup(args: UpdateArgs, s: Settings, testsDir: Path, env: Checks): (r: Result<Option<Refusal>>)
    ensures !env.insideProject ==> r == Success(Some(NoActiveProject))
    ensures r == Success(None) <==>
      env.insideProject &&
      (args.spider != "" ==>
         (CallbacksDir(s, testsDir, args.spider).Success? &&
          var dir := CallbacksDir(s, testsDir, args.spider).value;
          env.isDir(dir) &&
          (args.callback != "" ==>
             (env.isDir(dir + [args.callback]) &&
              (args.fixture != "" ==> env.isFile(dir + [args.callback] + [ParseFixtureArg(args.fixture)]))))))
  {
    if !env.insideProject then Success(Some(NoActiveProject))
    else if args.spider == "" then Success(None)
    else
      match CallbacksDir(s, testsDir, args.spider)
      case Failure(e) => Failure(e)
      case Success(dir) =>
        if !env.isDir(dir) then Success(Some(NoSpiderData(args.spider)))
        else if args.callback == "" then Success(None)
        else if !env.isDir(dir + [args.callback]) then Success(Some(NoCallbackData(args.callback, args.spider)))
        else if args.fixture == "" then Success(None)
        else
          var path := dir + [args.callback] + [ParseFixtureArg(args.fixture)];
          if !env.isFile(path) then Success(Some(FixtureNotFound(path))) else Success(None)
  }

  /** After the start-up checks, the one fixture an `update` of a named fixture replays is a file. */
  lemma NamedTargetExists(args: UpdateArgs, s: Settings, testsDir: Path, env: Checks, fs: FileSystem)
    requires Startup(args, s, testsDir, env) == Success(None)
    requires args.spider != "" && args.callback != "" && args.fixture != ""
    ensures UpdateTargets(args, s, testsDir, fs).Success?
    ensures |UpdateTargets(args, s, testsDir, fs).value| == 1 && env.isFile(UpdateTargets(args, s, testsDir, fs).value[0])
  {
  }

  /** The file system as `update` sees it. */
  datatype FileSystem = FileSystem(
    subdirs: Path -> seq<string>,   // every directory name `os.walk` meets below a path
    fixtures: Path -> seq<Path>)    // `glob(path/*.bin)`

  /** `glob` finds files inside the directory it searches. */
  ghost predicate GlobInside(fs: FileSystem) {
    forall d, p :: p in fs.fixtures(d) ==> d < p
  }

  /** `_walk`: the directory names below `root`, without `__pycache__`. */
  function Walk(fs: FileSystem, root: Path): (r: seq<string>)
    ensures forall x :: x in r <==> x in fs.subdirs(root) && x != "__pycache__"
  {
    Without(fs.subdirs(root), "__pycache__")
  }

  /** The fixtures of the callbacks listed in `cbs`, in order. */
  function FixturesUnder(fs: FileSystem, callbacksDir: Path, cbs: seq<string>): (r: seq<Path>)
    ensures forall p :: p in r <==> exists j :: 0 <= j < |cbs| && p in fs.fixtures(callbacksDir + [cbs[j]])
    decreases |cbs|
  {
    if cbs == [] then []
    else
      var r := FixturesUnder(fs, callbacksDir, cbs[..|cbs| - 1]) + fs.fixtures(callbacksDir + [cbs[|cbs| - 1]]);
      assert forall j :: 0 <= j < |cbs| - 1 ==> cbs[..|cbs| - 1][j] == cbs[j];
      r
  }

  /** `_get_spider_fixtures` as a function. */
  function SpiderFixturesF(fs: FileSystem, callbacksDir: Path): seq<Path> {
    FixturesUnder(fs, callbacksDir, Walk(fs, callbacksDir))
  }

  /** `_get_spider_fixtures`: the `.bin` files of every callback directory of a spider. */
  method SpiderFixtures(fs: FileSystem, callbacksDir: Path) returns (fixtures: seq<Path>)
    ensures fixtures == SpiderFixturesF(fs, callbacksDir)
  {
    var callbacks := Walk(fs, callbacksDir);
    fixtures := [];
    var i := 0;
    while i < |callbacks|
      invariant 0 <= i <= |callbacks|
      invariant fixtures == FixturesUnder(fs, callbacksDir, callbacks[..i])
    {
      assert callbacks[..i + 1][..i] == callbacks[..i];
      fixtures := fixtures + fs.fixtures(callbacksDir + [callbacks[i]]);
      i := i + 1;
    }
    assert callbacks[..i] == callbacks;
  }

  /** The fixtures of every spider listed in `spiders`, in order. */
  function AllFixturesUnder(fs: FileSystem, s: Settings, testsDir: Path, spiders: seq<string>): (r: Result<seq<Path>>)
    ensures r.Success? <==> spiders == [] || ExtraPath(s).Success?
    ensures r.Success? ==> forall p :: p in r.value ==>
      exists j :: 0 <= j < |spiders| && p in SpiderFixturesF(fs, CallbacksDir(s, testsDir, spiders[j]).value)
    decreases |spiders|
  {
    if spiders == [] then Success([])
    else
      var last := spiders[|spiders| - 1];
      match AllFixturesUnder(fs, s, testsDir, spiders[..|spiders| - 1])
      case Failure(e) => Failure(e)
      case Success(before) =>
        match CallbacksDir(s, testsDir, last)
        case Failure(e) => Failure(e)
        case Success(dir) =>
          assert forall j :: 0 <= j < |spiders| - 1 ==> spiders[..|spiders| - 1][j] == spiders[j];
          Success(before + SpiderFixturesF(fs, dir))
  }

  /**
   * The fixtures `update` replays: the one named, else those of the
   * callback, else those of every callback of the spider, else those of
   * every spider.
   */
  function UpdateTargets(args: UpdateArgs, s: Settings, testsDir: Path, fs: FileSystem): (r: Result<seq<Path>>)
    ensures r.Success? <==> ExtraPath(s).Success? || (args.spider == "" && Walk(fs, testsDir) == [])
  {
    if args.spider == "" then AllFixturesUnder(fs, s, testsDir, Walk(fs, testsDir))
    else
      match CallbacksDir(s, testsDir, args.spider)
      case Failure(e) => Failure(e)
      case Success(callbacksDir) =>
        if args.fixture != "" then Success([callbacksDir + [args.callback] + [ParseFixtureArg(args.fixture)]])
        else if args.callback != "" then Success(fs.fixtures(callbacksDir + [args.callback]))
        else Success(SpiderFixturesF(fs, callbacksDir))
  }

  /** Every fixture of a spider lies under its callbacks directory. */
  lemma SpiderFixturesInside(fs: FileSystem, dir: Path)
    requires GlobInside(fs)
    ensures forall p :: p in SpiderFixturesF(fs, dir) ==> dir < p
  {
    forall p | p in SpiderFixturesF(fs, dir) ensures dir < p {
      var cbs := Walk(fs, dir);
      var k :| 0 <= k < |cbs| && p in fs.fixtures(dir + [cbs[k]]);
      assert dir < dir + [cbs[k]] < p;
    }
  }

  /** Updating every spider touches only fixtures under the tests directory. */
  lemma AllTargetsInside(fs: FileSystem, s: Settings, testsDir: Path)
    requires GlobInside(fs)
    requires AllFixturesUnder(fs, s, testsDir, Walk(fs, testsDir)).Success?
    ensures forall p :: p in AllFixturesUnder(fs, s, testsDir, Walk(fs, testsDir)).value ==> testsDir < p
  {
    var spiders := Walk(fs, testsDir);
    forall p | p in AllFixturesUnder(fs, s, testsDir, spiders).value ensures testsDir < p {
      var j :| 0 <= j < |spiders| && p in SpiderFixturesF(fs, CallbacksDir(s, testsDir, spiders[j]).value);
      var dir := CallbacksDir(s, testsDir, spiders[j]).value;
      SpiderFixturesInside(fs, dir);
      assert testsDir < dir;
    }
  }

  /**
   * Every target lies in the directory the arguments select: the tests
   * directory, a spider's callbacks directory, or one callback's directory;
   * a named fixture is the only target.
   */
  lemma TargetsWithinSelection(args: UpdateArgs, s: Settings, testsDir: Path, fs: FileSystem)
    requires GlobInside(fs)
    requires UpdateTargets(args, s, testsDir, fs).Success?
    ensures args.spider == "" ==> forall p :: p in UpdateTargets(args, s, testsDir, fs).value ==> testsDir < p
    ensures args.spider != "" ==> CallbacksDir(s, testsDir, args.spider).Success?
    ensures args.spider != "" && args.fixture == "" && args.callback == "" ==>
      forall p :: p in UpdateTargets(args, s, testsDir, fs).value ==> CallbacksDir(s, testsDir, args.spider).value < p
    ensures args.spider != "" && args.fixture == "" && args.callback != "" ==>
      forall p :: p in UpdateTargets(args, s, testsDir, fs).value ==> CallbacksDir(s, testsDir, args.spider).value + [args.callback] < p
    ensures args.spider != "" && args.fixture != "" ==>
      UpdateTargets(args, s, testsDir, fs).value ==
        [CallbacksDir(s, testsDir, args.spider).value + [args.callback] + [ParseFixtureArg(args.fixture)]]
  {
    if args.spider == "" {
      AllTargetsInside(fs, s, testsDir);
    } else if args.fixture == "" && args.callback == "" {
      SpiderFixturesInside(fs, CallbacksDir(s, testsDir, args.spider).value);
    }
  }

  /** `update`'s collection of targets: one fixture, a glob, or walks that extend the list. */
  method SelectTargets(args: UpdateArgs, s: Settings, testsDir: Path, fs: FileSystem) returns (r: Result<seq<Path>>)
    ensures r == UpdateTargets(args, s, testsDir, fs)
  {
    if args.spider != "" {
      var dir := CallbacksDir(s, testsDir, args.spider);
      if dir.Failure? {
        r := Failure(dir.error);
      } else if args.fixture != "" {
        r := Success([dir.value + [args.callback] + [ParseFixtureArg(args.fixture)]]);
      } else if args.callback != "" {
        r := Success(fs.fixtures(dir.value + [args.callback]));
      } else {
        var found := SpiderFixtures(fs, dir.value);
        r := Success(found);
      }
    } else {
      var spiders := Walk(fs, testsDir);
      var extra := ExtraPath(s);
      if spiders != [] && extra.Failure? {
        AllFixturesFail(fs, s, testsDir, spiders);
        r := Failure(extra.error);
      } else {
        var toUpdate := [];
        var i := 0;
        while i < |spiders|
          invariant 0 <= i <= |spiders|
          invariant AllFixturesUnder(fs, s, testsDir, spiders[..i]) == Success(toUpdate)
        {
          assert spiders[..i + 1][..i] == spiders[..i];
          var found := SpiderFixtures(fs, testsDir + [spiders[i]] + extra.value);
          toUpdate := toUpdate + found;
          i := i + 1;
        }
        assert spiders[..i] == spiders;
        r := Success(toUpdate);
      }
    }
  }

  /** When the extra path is unusable, listing any spider fails with its error. */
  lemma {:induction false} AllFixturesFail(fs: FileSystem, s: Settings, testsDir: Path, spiders: seq<string>)
    requires spiders != [] && ExtraPath(s).Failure?
    ensures AllFixturesUnder(fs, s, testsDir, spiders) == Failure(ExtraPath(s).error)
    decreases |spiders|
  {
    if |spiders| > 1 {
      AllFixturesFail(fs, s, testsDir, spiders[..|spiders| - 1]);
    }
  }

  // ---------------------------------------------------------------------
  // update: one fixture
  // ---------------------------------------------------------------------

  /** What `Player.from_fixture` finds in a fixture file. */
  datatype Stored = Current(cassette: Cassette) | Legacy(recorded: map<Key, Value>)

  /**
   * The cassette after an update replay: the entries recorded from the new
   * output and the three new snapshots, and the response as the replay
   * left it, without `cls`; every other field is kept.
   */
  function Refreshed(c: Cassette, cfg: SpiderConfig, attrs0: map<string, Value>, env: Player.Environment): (r: Result<Cassette>)
    ensures r.Success? <==>
      Player.PlaybackSpec(c, cfg, attrs0, env, false).0.Success? &&
      Parser.TagAll(cfg, Player.PlaybackSpec(c, cfg, attrs0, env, false).0.value.out).Success?
    ensures r.Success? ==>
      var replay := Player.PlaybackSpec(c, cfg, attrs0, env, false).0.value;
      r.value.outputData == List(Parser.TagAll(cfg, replay.out).value) &&
      r.value.initAttrs == Player.AttrsValue(replay.attrs.init) &&
      r.value.inputAttrs == Player.AttrsValue(replay.attrs.input) &&
      r.value.outputAttrs == Player.AttrsValue(replay.attrs.output)
    ensures r.Success? ==>
      r.value.spiderName == c.spiderName && r.value.middlewares == c.middlewares &&
      r.value.includedSettings == c.includedSettings && r.value.request == c.request &&
      c.response.Dict? && r.value.response == Dict(c.response.entries - {KText("cls")}) &&
      r.value.filename == c.filename && r.value.pythonVersion == c.pythonVersion
  {
    match Player.PlaybackSpec(c, cfg, attrs0, env, false).0
    case Failure(e) => Failure(e)
    case Success(replay) =>
      match Parser.TagAll(cfg, replay.out)
      case Failure(e) => Failure(e)
      case Success(parsed) =>
        Success(Player.Popped(c).(outputData := List(parsed),
                   initAttrs := Player.AttrsValue(replay.attrs.init),
                   inputAttrs := Player.AttrsValue(replay.attrs.input),
                   outputAttrs := Player.AttrsValue(replay.attrs.output)))
  }

  /**
   * The refreshed entries are those recorded from the replayed output, so
   * comparing that output against them passes when no fields are skipped.
   */
  lemma RefreshedOutputMatches(c: Cassette, cfg: SpiderConfig, attrs0: map<string, Value>, env: Player.Environment)
    requires Refreshed(c, cfg, attrs0, env).Success?
    requires Player.SkippedFields !in cfg.settings && Player.RequestSkippedFields !in cfg.settings
    ensures var out := Player.PlaybackSpec(c, cfg, attrs0, env, false).0.value.out;
      var updated := Refreshed(c, cfg, attrs0, env).value;
      var r := Player.CompareSpec(Player.ItemChecker(cfg, updated.filename), out, Iterate(updated.outputData).value, 1, updated.filename);
      Iterate(updated.outputData) == Parser.TagAll(cfg, out) && r.Success? &&
      forall j :: 0 <= j < |out| ==>
        r.value[j] == if out[j].Dict? || out[j].List? || out[j].Item? then Parser.ParseObject(cfg, out[j]).value else out[j]
  {
    var out := Player.PlaybackSpec(c, cfg, attrs0, env, false).0.value.out;
    Player.ReplayOfRecordingPasses(cfg, out, c.filename);
  }

  /**
   * An updated fixture has lost its response class: its next replay builds
   * the response with the default class, from the same keyword arguments.
   */
  lemma UpdatedResponseHasDefaultClass(c: Cassette, cfg: SpiderConfig, attrs0: map<string, Value>, env: Player.Environment)
    requires Refreshed(c, cfg, attrs0, env).Success?
    ensures Player.ResponseClass(Refreshed(c, cfg, attrs0, env).value.response) ==
      Success((Text(Player.DefaultResponseClass), c.response.entries - {KText("cls")}))
  {
    Player.PoppedResponseClass(c.response.entries);
  }

  /** The per-fixture context: how a cassette's spider is found, with its attributes, and the replay environment. */
  datatype UpdateContext = UpdateContext(
    spiderOf: Cassette -> (SpiderConfig, map<string, Value>),
    env: Player.Environment,
    unpickle: Unpickle)

  /** One pass of the `update` loop: convert a legacy fixture, replay it, refresh the cassette. */
  function UpdateOne(stored: Stored, ctx: UpdateContext): (r: Result<Cassette>)
    ensures stored.Legacy? && FromLegacyFixture(stored.recorded, ctx.unpickle, ctx.env.running).Failure? ==>
      r == Failure(FromLegacyFixture(stored.recorded, ctx.unpickle, ctx.env.running).error)
    ensures stored.Legacy? && FromLegacyFixture(stored.recorded, ctx.unpickle, ctx.env.running).Success? ==>
      var c := FromLegacyFixture(stored.recorded, ctx.unpickle, ctx.env.running).value;
      r == Refreshed(c, ctx.spiderOf(c).0, ctx.spiderOf(c).1, ctx.env)
    ensures stored.Current? ==>
      r == Refreshed(stored.cassette, ctx.spiderOf(stored.cassette).0, ctx.spiderOf(stored.cassette).1, ctx.env)
  {
    var c := if stored.Current? then Success(stored.cassette) else FromLegacyFixture(stored.recorded, ctx.unpickle, ctx.env.running);
    match c
    case Failure(e) => Failure(e)
    case Success(cassette) =>
      var (cfg, attrs0) := ctx.spiderOf(cassette);
      Refreshed(cassette, cfg, attrs0, ctx.env)
  }

  /**
   * The `for path in to_update` loop, with `step` the work on one loaded
   * fixture: each fixture is loaded, updated and written back; the first
   * error stops the loop, after the fixtures before it were written.
   */
  method UpdateFixtures(targets: seq<Path>, load: Path -> Result<Stored>, step: Stored -> Result<Cassette>)
    returns (written: seq<(Path, Cassette)>, r: Outcome)
    ensures |written| <= |targets|
    ensures forall i :: 0 <= i < |written| ==>
      written[i].0 == targets[i] && load(targets[i]).Success? && step(load(targets[i]).value) == Success(written[i].1)
    ensures r == Pass <==> |written| == |targets|
    ensures r.Fail? ==>
      var t := targets[|written|];
      (load(t).Failure? && r.error == load(t).error) ||
      (load(t).Success? && step(load(t).value) == Failure(r.error))
  {
    written := [];
    r := Pass;
    var i := 0;
    while i < |targets| && r == Pass
      invariant 0 <= i <= |targets| && |written| == i
      invariant forall j :: 0 <= j < i ==>
        written[j].0 == targets[j] && load(targets[j]).Success? && step(load(targets[j]).value) == Success(written[j].1)
      invariant r.Fail? ==>
        (i < |targets| &&
         ((load(targets[i]).Failure? && r.error == load(targets[i]).error) ||
          (load(targets[i]).Success? && step(load(targets[i]).value) == Failure(r.error))))
      decreases |targets| - i, if r == Pass then 1 else 0
    {
      var stored := load(targets[i]);
      if stored.Failure? {
        r := Fail(stored.error);
      } else {
        var updated := step(stored.value);
        if updated.Failure? {
          r := Fail(updated.error);
        } else {
          written := written + [(targets[i], updated.value)];
          i := i + 1;
        }
      }
    }
  }

  /** `update`: the gate, then the targets, then the loop; a refusal writes nothing. */
  method Update(args: UpdateArgs, confirmation: string, s: Settings, testsDir: Path, fs: FileSystem,
                load: Path -> Result<Stored>, ctx: UpdateContext)
    returns (gate: Gate, written: seq<(Path, Cassette)>, r: Outcome)
    ensures gate == UpdateGate(args, confirmation)
    ensures gate != Proceed ==> written == [] && r == Pass
    ensures gate == Proceed && UpdateTargets(args, s, testsDir, fs).Failure? ==>
      written == [] && r == Fail(UpdateTargets(args, s, testsDir, fs).error)
    ensures gate == Proceed && UpdateTargets(args, s, testsDir, fs).Success? ==>
      var targets := UpdateTargets(args, s, testsDir, fs).value;
      |written| <= |targets| && (r == Pass <==> |written| == |targets|) &&
      forall i :: 0 <= i < |written| ==>
        (written[i].0 == targets[i] && load(targets[i]).Success? && UpdateOne(load(targets[i]).value, ctx) == Success(written[i].1))
  {
    gate := UpdateGate(args, confirmation);
    written := [];
    r := Pass;
    if gate == Proceed {
      var targets := SelectTargets(args, s, testsDir, fs);
      if targets.Failure? {
        r := Fail(targets.error);
      } else {
        written, r := UpdateFixtures(targets.value, load, x => UpdateOne(x, ctx));
      }
    }
  }
}

=== FILE: inspect.dfy ===
/**
 * The stand-alone `autounit-inspect` tool: it finds a fixture from the
 * command-line arguments, reads it in either of the two older fixture
 * formats and shows its data as JSON.
 *
 * The file system, zlib and pickle are outside the model: an `Env` gives
 * them as functions, and the JSON the tool prints is the projected value.
 */
module Inspect {
  import opened Values
  import opened Utf8
  import opened PyText
  import opened Scrapy
  import Cli

  // ---------------------------------------------------------------------
  // parse_data
  // ---------------------------------------------------------------------

  /** Every byte string this `parse_data` decodes is valid UTF-8. */
  predicate Decodes(v: Value)
    decreases v
  {
    match v
    case Dict(m) => forall k :: k in m ==> Cli.KeyDecodes(k) && Decodes(m[k])
    case List(xs) => forall i :: 0 <= i < |xs| ==> Decodes(xs[i])
    case Bytes(b) => DecodeStrict(b).Some?
    case _ => true
  }

  /** What the projection leaves behind: no bytes, as keys or as values, inside dicts and lists. */
  predicate Projected(v: Value)
    decreases v
  {
    match v
    case Dict(m) => forall k :: k in m ==> !k.KBytes? && Projected(m[k])
    case List(xs) => forall i :: 0 <= i < |xs| ==> Projected(xs[i])
    case Bytes(_) => false
    case _ => true
  }

  /**
   * This `parse_data` on input that decodes: dicts become dicts of parsed
   * keys and values, lists are parsed elementwise, bytes become text, and
   * everything else (Items and tuples included) is left as it is.
   */
  function Project(v: Value): Value
    requires Decodes(v)
    decreases v
  {
    match v
    case Dict(m) => Dict(Cli.Rekey(map k | k in m :: Project(m[k])))
    case List(xs) => List(seq(|xs|, i requires 0 <= i < |xs| => Project(xs[i])))
    case Bytes(b) => Text(DecodeStrict(b).value)
    case _ => v
  }

  /** A projected dict holds each kept key's value, projected, under its parsed key, and nothing else. */
  lemma ProjectEntries(m: map<Key, Value>)
    requires Decodes(Dict(m))
    ensures var r := Project(Dict(m)).entries;
      (forall k :: Cli.Kept(m, k) ==> Cli.ParsedKey(k) in r && r[Cli.ParsedKey(k)] == Project(m[k])) &&
      (forall k' :: k' in r ==> !k'.KBytes? && exists k :: Cli.Kept(m, k) && Cli.ParsedKey(k) == k')
  {
    var pm := map k | k in m :: Project(m[k]);
    assert forall k :: Cli.Kept(pm, k) <==> Cli.Kept(m, k);
  }

  /**
   * The projection leaves no bytes, keeps dicts dicts and list lengths,
   * turns bytes into their text and leaves every other value unchanged.
   */
  lemma {:induction false} ProjectProjected(v: Value)
    requires Decodes(v)
    ensures Projected(Project(v))
    ensures v.Dict? ==> Project(v).Dict?
    ensures v.List? ==> Project(v).List? && |Project(v).items| == |v.items|
    ensures v.Bytes? ==> Project(v) == Text(DecodeStrict(v.bytes).value)
    ensures !v.Dict? && !v.List? && !v.Bytes? ==> Project(v) == v
    decreases v
  {
    match v
    case Dict(m) =>
      ProjectEntries(m);
      var r := Project(v).entries;
      forall k' | k' in r ensures Projected(r[k']) {
        var k :| Cli.Kept(m, k) && Cli.ParsedKey(k) == k';
        ProjectProjected(m[k]);
      }
    case List(xs) =>
      forall i | 0 <= i < |xs| ensures Projected(Project(v).items[i]) {
        ProjectProjected(xs[i]);
      }
    case _ =>
  }

  /** A value without bytes is its own projection. */
  lemma {:induction false} ProjectKeepsProjected(v: Value)
    requires Projected(v)
    ensures Decodes(v) && Project(v) == v
    decreases v
  {
    match v
    case Dict(m) =>
      forall k | k in m ensures Cli.KeyDecodes(k) && Decodes(m[k]) && Project(m[k]) == m[k] {
        ProjectKeepsProjected(m[k]);
      }
      var pm := map k | k in m :: Project(m[k]);
      assert pm == m;
      Cli.RekeyTextKeys(m);
    case List(xs) =>
      forall i | 0 <= i < |xs| ensures Decodes(xs[i]) && Project(xs[i]) == xs[i] {
        ProjectKeepsProjected(xs[i]);
      }
      assert Project(v).items == xs;
    case _ =>
  }

  /** `parse_data`: `to_unicode` raises on a byte string that is not UTF-8. */
  function ParseData(v: Value): (r: Result<Value>)
    ensures r.Success? <==> Decodes(v)
    ensures r.Failure? ==> r.error == Cli.DecodeError
    ensures r.Success? ==> Projected(r.value)
  {
    if Decodes(v) then
      ProjectProjected(v);
      Success(Project(v))
    else Failure(Cli.DecodeError)
  }

  /** Parsing parsed data changes nothing, so `handle_path`'s second pass is harmless. */
  lemma ParseDataIdempotent(v: Value)
    requires ParseData(v).Success?
    ensures ParseData(ParseData(v).value) == ParseData(v)
  {
    ProjectKeepsProjected(ParseData(v).value);
  }

  // ---------------------------------------------------------------------
  // get_data
  // ---------------------------------------------------------------------

  /** `zlib.decompress`. */
  type Decompress = ByteString -> Result<ByteString>

  const VersionKey := Text("fixture_version")

  /**
   * The payload of a decoded fixture: a versioned fixture holds it pickled
   * under `data` with its `encoding`; any other fixture is the payload.
   */
  function Payload(info: Value, unpickle: Cli.Unpickle): (r: Result<Value>)
    ensures Contains(info, VersionKey) == Success(false) ==> r == Success(info)
    ensures Contains(info, VersionKey) == Success(true) ==>
      (r.Success? ==> Lookup(info, "encoding").Success? && Lookup(info, "data").Success? &&
                      unpickle(Lookup(info, "data").value, Lookup(info, "encoding").value) == r)
    ensures Contains(info, VersionKey).Failure? ==> r.Failure?
  {
    match Contains(info, VersionKey)
    case Failure(e) => Failure(e)
    case Success(versioned) =>
      if versioned then
        match Lookup(info, "encoding")
        case Failure(e) => Failure(e)
        case Success(encoding) =>
          match Lookup(info, "data")
          case Failure(e) => Failure(e)
          case Success(data) => unpickle(data, encoding)
      else Success(info)
  }

  /** `get_data` on the bytes read from the file. */
  function GetData(raw: ByteString, decompress: Decompress, unpickle: Cli.Unpickle): (r: Result<Value>)
    ensures r.Success? ==> Projected(r.value)
    ensures decompress(raw).Failure? ==> r == Failure(decompress(raw).error)
  {
    match decompress(raw)
    case Failure(e) => Failure(e)
    case Success(z) =>
      match unpickle(Bytes(z), Text("utf-8"))
      case Failure(e) => Failure(e)
      case Success(info) =>
        match Payload(info, unpickle)
        case Failure(e) => Failure(e)
        case Success(data) => ParseData(data)
  }

  /** A versioned fixture shows the payload pickled under `data`, read with its recorded encoding. */
  lemma VersionedFixtureShown(raw: ByteString, decompress: Decompress, unpickle: Cli.Unpickle,
                              z: ByteString, m: map<Key, Value>, payload: Value)
    requires decompress(raw) == Success(z)
    requires unpickle(Bytes(z), Text("utf-8")) == Success(Dict(m))
    requires KText("fixture_version") in m && KText("encoding") in m && KText("data") in m
    requires unpickle(m[KText("data")], m[KText("encoding")]) == Success(payload)
    ensures GetData(raw, decompress, unpickle) == ParseData(payload)
  {
    assert Contains(Dict(m), VersionKey) == Success(true);
  }

  /** A fixture without a version key is shown whole. */
  lemma LegacyFixtureShown(raw: ByteString, decompress: Decompress, unpickle: Cli.Unpickle,
                           z: ByteString, m: map<Key, Value>)
    requires decompress(raw) == Success(z)
    requires unpickle(Bytes(z), Text("utf-8")) == Success(Dict(m))
    requires KText("fixture_version") !in m
    ensures GetData(raw, decompress, unpickle) == ParseData(Dict(m))
  {
    assert Contains(Dict(m), VersionKey) == Success(false);
  }

  // ---------------------------------------------------------------------
  // handle_path and main
  // ---------------------------------------------------------------------

  /** What the tool sees of the world. */
  datatype Env = Env(
    insideProject: bool,
    settings: Settings,
    projectDir: Option<Cli.Path>,     // `get_project_dir()`; None when no project is found
    isDir: Cli.Path -> bool,
    isFile: Cli.Path -> bool,
    read: Cli.Path -> ByteString,
    decompress: Decompress,
    unpickle: Cli.Unpickle)

  /** The exit code and, on success, the data printed as JSON. */
  datatype Run = Run(code: int, shown: Option<Value>)

  /** The command-line options; an empty string is an option not given. */
  datatype Args = Args(path: string, spider: string, callback: string, fixture: string)

  /**
   * `handle_path`: exit code 1 when there is no such file, otherwise 0 with
   * the fixture's data shown; errors raised while reading propagate.
   */
  function HandlePath(p: Cli.Path, env: Env): (r: Result<Run>)
    ensures !env.isFile(p) ==> r == Success(Run(1, None))
    ensures env.isFile(p) ==> (r.Success? <==> GetData(env.read(p), env.decompress, env.unpickle).Success?)
    ensures env.isFile(p) && r.Success? ==>
      r.value == Run(0, Some(GetData(env.read(p), env.decompress, env.unpickle).value))
  {
    if !env.isFile(p) then Success(Run(1, None))
    else
      var data := GetData(env.read(p), env.decompress, env.unpickle);
      if data.Failure? then Failure(data.error)
      else
        var shown := ParseData(data.value);
        ProjectKeepsProjected(data.value);
        if shown.Failure? then Failure(Cli.DecodeError) else Success(Run(0, Some(shown.value)))
  }

  const BasePathSetting := "AUTOUNIT_BASE_PATH"

  /**
   * `Path(settings.get('AUTOUNIT_BASE_PATH', default=get_project_dir() / 'autounit'))`:
   * the default is built before the lookup, so a missing project directory
   * fails even when the setting is present.
   */
  function BasePath(s: Settings, projectDir: Option<Cli.Path>): (r: Result<Cli.Path>)
    ensures projectDir.None? ==> r.Failure?
    ensures projectDir.Some? && !(BasePathSetting in s && s[BasePathSetting] != Null) ==>
      r == Success(projectDir.value + ["autounit"])
    ensures projectDir.Some? && Get(s, BasePathSetting, Null).Text? ==>
      r == Success(Cli.PathOf(Get(s, BasePathSetting, Null).s))
  {
    match projectDir
    case None => Failure(TypeError("unsupported operand type(s) for /: 'NoneType' and 'str'"))
    case Some(dir) =>
      var base := Get(s, BasePathSetting, Text(""));
      if !(BasePathSetting in s && s[BasePathSetting] != Null) then Success(dir + ["autounit"])
      else if base.Text? then Success(Cli.PathOf(base.s))
      else Failure(TypeError("expected str, bytes or os.PathLike object"))
  }

  /** The fixture the arguments name: `tests/spider/extra_path/callback/parse_fixture_arg(fixture)`. */
  function FixturePath(testsDir: Cli.Path, s: Settings, args: Args): (r: Result<Cli.Path>)
    ensures r.Success? <==> Cli.ExtraPath(s).Success?
    ensures r.Success? ==>
      r.value == testsDir + [args.spider] + Cli.ExtraPath(s).value + [args.callback] + [Cli.ParseFixtureArg(args.fixture)]
    ensures r.Success? ==> EndsWith(r.value[|r.value| - 1], ".bin")
  {
    match Cli.CallbacksDir(s, testsDir, args.spider)
    case Failure(e) => Failure(e)
    case Success(dir) => Success(dir + [args.callback] + [Cli.ParseFixtureArg(args.fixture)])
  }

  /**
   * `main`: with `--path` the fixture is shown straight away; otherwise the
   * project, the spider, the callback, the fixture and the tests directory
   * are checked in that order, each failing with exit code 1.
   */
  function Main(args: Args, env: Env): (r: Result<Run>)
    ensures args.path != "" ==> r == HandlePath(Cli.PathOf(args.path), env)
    ensures args.path == "" && (!env.insideProject || args.spider == "" || args.callback == "" || args.fixture == "") ==>
      r == Success(Run(1, None))
    ensures r.Success? && r.value.code == 0 ==> r.value.shown.Some? && Projected(r.value.shown.value)
  {
    if args.path != "" then HandlePath(Cli.PathOf(args.path), env)
    else if !env.insideProject || args.spider == "" || args.callback == "" || args.fixture == "" then
      Success(Run(1, None))
    else
      match BasePath(env.settings, env.projectDir)
      case Failure(e) => Failure(e)
      case Success(base) =>
        var testsDir := base + ["tests"];
        if !env.isDir(testsDir) then Success(Run(1, None))
        else
          match FixturePath(testsDir, env.settings, args)
          case Failure(e) => Failure(e)
          case Success(p) => HandlePath(p, env)
  }

  /** With every argument given and the tests directory present, `main` shows the fixture the arguments name. */
  lemma MainShowsNamedFixture(args: Args, env: Env, base: Cli.Path, p: Cli.Path)
    requires args.path == "" && env.insideProject
    requires args.spider != "" && args.callback != "" && args.fixture != ""
    requires BasePath(env.settings, env.projectDir) == Success(base) && env.isDir(base + ["tests"])
    requires FixturePath(base + ["tests"], env.settings, args) == Success(p)
    ensures env.isFile(p) ==> Main(args, env).Success? == GetData(env.read(p), env.decompress, env.unpickle).Success?
    ensures !env.isFile(p) ==> Main(args, env) == Success(Run(1, None))
    ensures p[|p| - 1] == Cli.ParseFixtureArg(args.fixture)
  {
  }
}

=== FILE: middleware.dfy ===
/**
 * The recording middleware: the checks that decide whether it runs, and the
 * hand-off of a fresh cassette from the input hook to the output hook
 * through the response's meta.
 *
 * The recorder's own work (what a new cassette holds, what recording
 * writes) and pickle are outside the model: they are given as functions.
 */
module Middleware {
  import opened Values
  import opened Scrapy
  import opened Cassettes
  import Parser

  const MiddlewaresSetting := "SPIDER_MIDDLEWARES"
  const EnabledSetting := "AUTOUNIT_ENABLED"
  const ConcurrencySetting := "CONCURRENT_REQUESTS"

  /** Some configured middleware path mentions the class name. */
  predicate Mentions(mws: map<Key, Value>, className: string) {
    exists k :: k in mws && k.KText? && IsSubstring(className, k.s)
  }

  /**
   * The checks of `__init__`, in order: the class must be named in
   * `SPIDER_MIDDLEWARES` (ValueError), recording must be enabled
   * (NotConfigured), and the result says whether the concurrency warning is
   * logged.
   */
  function Validate(className: string, s: Settings): (r: Result<bool>)
    ensures r.Success? ==>
      GetWithBase(s, MiddlewaresSetting).Success? && Mentions(GetWithBase(s, MiddlewaresSetting).value, className) &&
      GetBool(s, EnabledSetting) == Success(true) &&
      GetInt(s, ConcurrencySetting).Success? && (r.value <==> GetInt(s, ConcurrencySetting).value > 1)
    ensures (GetWithBase(s, MiddlewaresSetting).Success? && !Mentions(GetWithBase(s, MiddlewaresSetting).value, className) &&
             forall k :: k in GetWithBase(s, MiddlewaresSetting).value ==> k.KText?) ==>
      r == Failure(ValueError(className + " must be in SPIDER_MIDDLEWARES"))
    ensures (GetWithBase(s, MiddlewaresSetting).Success? && Mentions(GetWithBase(s, MiddlewaresSetting).value, className) &&
             GetBool(s, EnabledSetting) == Success(false)) ==>
      r == Failure(NotConfigured("scrapy-autounit is not enabled"))
  {
    match GetWithBase(s, MiddlewaresSetting)
    case Failure(e) => Failure(e)
    case Success(mws) =>
      if !Mentions(mws, className) then
        if forall k :: k in mws ==> k.KText? then Failure(ValueError(className + " must be in SPIDER_MIDDLEWARES"))
        else Failure(TypeError("'in <string>' requires string as left operand"))
      else
        match GetBool(s, EnabledSetting)
        case Failure(e) => Failure(e)
        case Success(enabled) =>
          if !enabled then Failure(NotConfigured("scrapy-autounit is not enabled"))
          else
            match GetInt(s, ConcurrencySetting)
            case Failure(e) => Failure(e)
            case Success(n) => Success(n > 1)
  }

  /**
   * With the class in the chain and recording enabled, construction
   * succeeds, logging the warning exactly when more than one request may run
   * at once.
   */
  lemma EnabledInChainSucceeds(className: string, s: Settings, n: int)
    requires GetWithBase(s, MiddlewaresSetting).Success? && Mentions(GetWithBase(s, MiddlewaresSetting).value, className)
    requires GetBool(s, EnabledSetting) == Success(true) && GetInt(s, ConcurrencySetting) == Success(n)
    ensures Validate(className, s) == Success(n > 1)
  {
  }

  /**
   * A chain holding the class's own path, with recording switched on and
   * one request at a time, passes without a warning.
   */
  lemma DefaultPathPasses(path: string, className: string, priority: int)
    requires IsSubstring(className, path)
    ensures Validate(className, map[MiddlewaresSetting := Dict(map[KText(path) := Int(priority)]),
                                    EnabledSetting := Bool(true), ConcurrencySetting := Int(1)]) == Success(false)
  {
    var s := map[MiddlewaresSetting := Dict(map[KText(path) := Int(priority)]), EnabledSetting := Bool(true),
                 ConcurrencySetting := Int(1)];
    assert KText(path) in GetWithBase(s, MiddlewaresSetting).value;
  }

  /** The recorder (not part of this model beyond the spider it records for). */
  datatype Recorder = Recorder(spider: SpiderConfig)

  /** The recorder's `new_cassette(response)`. */
  type NewCassette = (Recorder, Value) -> Result<Cassette>
  /** The recorder's `record(cassette, result)`. */
  type Record = (Recorder, Cassette, Value) -> Result<Value>
  /** `pickle.dumps(cassette, protocol=2)` and `pickle.loads`. */
  type Dumps = Cassette -> ByteString
  type Loads = Value -> Result<Cassette>

  /** A response's `meta` dict, which both hooks update in place. */
  class Meta {
    var entries: map<Key, Value>

    constructor (entries: map<Key, Value>)
      ensures this.entries == entries
    {
      this.entries := entries;
    }
  }

  const HandoffKey := KText(Parser.CassetteKey)

  /** The meta after `process_spider_input`: the pickled new cassette under the hand-off key. */
  function MetaAfterInput(meta: map<Key, Value>, rec: Recorder, response: Value,
                          newCassette: NewCassette, dumps: Dumps): (r: Result<map<Key, Value>>)
    ensures r.Success? <==> newCassette(rec, response).Success?
    ensures r.Success? ==> HandoffKey in r.value && r.value[HandoffKey] == Bytes(dumps(newCassette(rec, response).value))
    ensures r.Success? ==> forall k :: k != HandoffKey ==> (k in r.value <==> k in meta) && (k in meta ==> r.value[k] == meta[k])
  {
    match newCassette(rec, response)
    case Failure(e) => Failure(e)
    case Success(c) => Success(meta[HandoffKey := Bytes(dumps(c))])
  }

  /** The cassette `process_spider_output` pops from the meta and unpickles. */
  function PoppedCassette(meta: map<Key, Value>, loads: Loads): (r: Result<Cassette>)
    ensures HandoffKey !in meta ==> r == Failure(KeyError(HandoffKey))
    ensures HandoffKey in meta ==> r == loads(meta[HandoffKey])
  {
    if HandoffKey in meta then loads(meta[HandoffKey]) else Failure(KeyError(HandoffKey))
  }

  /**
   * A cassette handed from the input hook to the output hook arrives as it
   * left, provided pickling round-trips; the meta is left as it was before
   * the input hook, the hand-off key apart.
   */
  lemma HandoffRoundTrip(meta: map<Key, Value>, rec: Recorder, response: Value,
                         newCassette: NewCassette, dumps: Dumps, loads: Loads)
    requires newCassette(rec, response).Success?
    requires loads(Bytes(dumps(newCassette(rec, response).value))) == Success(newCassette(rec, response).value)
    ensures PoppedCassette(MetaAfterInput(meta, rec, response, newCassette, dumps).value, loads) == newCassette(rec, response)
    ensures MetaAfterInput(meta, rec, response, newCassette, dumps).value - {HandoffKey} == meta - {HandoffKey}
  {
    var after := MetaAfterInput(meta, rec, response, newCassette, dumps).value;
    assert after - {HandoffKey} == meta - {HandoffKey};
  }

  /** `AutounitMiddleware`: built from a crawler, given a recorder when the engine starts. */
  class AutounitMiddleware {
    const crawler: Crawler
    const className: string
    /** Whether construction logged the concurrency warning. */
    const warned: bool
    var recorder: Option<Recorder>

    constructor (crawler: Crawler, className: string)
      requires Validate(className, crawler.settings).Success?
      ensures this.crawler == crawler && this.className == className
      ensures warned == Validate(className, crawler.settings).value
      ensures recorder.None?
    {
      this.crawler := crawler;
      this.className := className;
      this.warned := Validate(className, crawler.settings).value;
      this.recorder := None;
    }

    /** `from_crawler`: construction fails with the first check that fails. */
    static method FromCrawler(crawler: Crawler, className: string) returns (r: Result<AutounitMiddleware>)
      ensures r.Success? <==> Validate(className, crawler.settings).Success?
      ensures r.Failure? ==> r.error == Validate(className, crawler.settings).error
      ensures r.Success? ==>
        (fresh(r.value) && r.value.recorder.None? && r.value.crawler == crawler &&
         r.value.warned == Validate(className, crawler.settings).value)
    {
      var v := Validate(className, crawler.settings);
      if v.Failure? {
        r := Failure(v.error);
      } else {
        var mw := new AutounitMiddleware(crawler, className);
        r := Success(mw);
      }
    }

    /** `engine_started`: a recorder for the crawler's spider. */
    method EngineStarted(spider: SpiderConfig)
      modifies this
      ensures recorder == Some(Recorder(spider))
    {
      recorder := Some(Recorder(spider));
    }

    /**
     * `process_spider_input`: stores the pickled new cassette in the meta and
     * lets the response through; before the engine has started there is no
     * recorder and the meta is untouched.
     */
    method ProcessSpiderInput(response: Value, meta: Meta, newCassette: NewCassette, dumps: Dumps) returns (r: Outcome)
      modifies meta
      ensures recorder.None? ==> r == Fail(AttributeError("recorder")) && meta.entries == old(meta.entries)
      ensures recorder.Some? ==>
        var after := MetaAfterInput(old(meta.entries), recorder.value, response, newCassette, dumps);
        (r.Pass? <==> after.Success?) &&
        (after.Success? ==> meta.entries == after.value) &&
        (after.Failure? ==> r == Fail(after.error) && meta.entries == old(meta.entries))
    {
      if recorder.None? {
        r := Fail(AttributeError("recorder"));
      } else {
        var c := newCassette(recorder.value, response);
        if c.Failure? {
          r := Fail(c.error);
        } else {
          meta.entries := meta.entries[HandoffKey := Bytes(dumps(c.value))];
          r := Pass;
        }
      }
    }

    /**
     * `process_spider_output`: pops the cassette from the meta, so the key is
     * gone afterwards whatever follows, and hands it to the recorder.
     */
    method ProcessSpiderOutput(response: Value, result: Value, meta: Meta, loads: Loads, record: Record)
      returns (r: Result<Value>)
      modifies meta
      ensures meta.entries == old(meta.entries) - {HandoffKey}
      ensures PoppedCassette(old(meta.entries), loads).Failure? ==> r == Failure(PoppedCassette(old(meta.entries), loads).error)
      ensures PoppedCassette(old(meta.entries), loads).Success? && recorder.None? ==> r == Failure(AttributeError("recorder"))
      ensures PoppedCassette(old(meta.entries), loads).Success? && recorder.Some? ==>
        r == record(recorder.value, PoppedCassette(old(meta.entries), loads).value, result)
    {
      if HandoffKey !in meta.entries {
        r := Failure(KeyError(HandoffKey));
      } else {
        var pickled := meta.entries[HandoffKey];
        meta.entries := meta.entries - {HandoffKey};
        var c := loads(pickled);
        if c.Failure? {
          r := Failure(c.error);
        } else if recorder.None? {
          r := Failure(AttributeError("recorder"));
        } else {
          r := record(recorder.value, c.value, result);
        }
      }
    }
  }
}

=== FILE: parser.dfy ===
/**
 * The sanitiser: turns what a callback yields (requests, responses, nested
 * containers) into plain data a cassette can store, and strips headers
 * that must not be recorded.
 */
module Parser {
  import opened Values
  import opened Scrapy
  import opened Utf8

  const DontRecordHeaders := "AUTOUNIT_DONT_RECORD_HEADERS"
  const ExcludedHeaders := "AUTOUNIT_EXCLUDED_HEADERS"
  const RecordAuthHeaders := "AUTOUNIT_RECORD_AUTH_HEADERS"
  const IncludedAuthHeaders := "AUTOUNIT_INCLUDED_AUTH_HEADERS"
  const DontRecordSpiderAttrs := "AUTOUNIT_DONT_RECORD_SPIDER_ATTRS"

  /** The meta key under which the middleware parks the pending cassette. */
  const CassetteKey := "_autounit_cassette"

  const AuthHeaders: seq<string> := ["Authorization", "Proxy-Authorization"]

  // ---------------------------------------------------------------------
  // Header exclusion (_clean_headers)
  // ---------------------------------------------------------------------

  /** The excluded-header list: the new setting when truthy, else the old one. */
  function Excluded(s: Settings): Value {
    var current := Get(s, DontRecordHeaders, List([]));
    if Truthy(current) then current else Get(s, ExcludedHeaders, List([]))
  }

  /** The stored setting whose list `Excluded` returns, if it is a stored one. */
  function ExcludedOwner(s: Settings): Option<string> {
    if Truthy(Get(s, DontRecordHeaders, List([]))) then Some(DontRecordHeaders)
    else if ExcludedHeaders in s && s[ExcludedHeaders] != Null then Some(ExcludedHeaders)
    else None
  }

  /** The auth headers that may be recorded: the new setting when truthy, else the old one. */
  function Included(s: Settings): Value {
    var current := Get(s, RecordAuthHeaders, List([]));
    if Truthy(current) then current else Get(s, IncludedAuthHeaders, List([]))
  }

  /** `[h for h in hs if h not in included]`. */
  function NotIncluded(hs: seq<string>, included: Value): (r: Result<seq<string>>)
    ensures r.Success? ==> forall h :: h in r.value <==> h in hs && Contains(included, Text(h)) == Success(false)
    ensures (forall h :: h in hs ==> Contains(included, Text(h)).Success?) ==> r.Success?
  {
    if hs == [] then Success([])
    else
      match Contains(included, Text(hs[0]))
      case Failure(e) => Failure(e)
      case Success(found) =>
        match NotIncluded(hs[1..], included)
        case Failure(e) => Failure(e)
        case Success(rest) => Success(if found then rest else [hs[0]] + rest)
  }

  function AsTexts(hs: seq<string>): (r: seq<Value>)
    ensures |r| == |hs| && forall i :: 0 <= i < |hs| ==> r[i] == Text(hs[i])
  {
    seq(|hs|, i requires 0 <= i < |hs| => Text(hs[i]))
  }

  /**
   * The list `_clean_headers` iterates: the excluded list extended by the
   * auth headers that are not included.  `extend` is looked up first, so a
   * non-list setting fails before `included` is consulted.
   */
  function ExclusionList(s: Settings): (r: Result<seq<Value>>)
    ensures r.Success? <==> Excluded(s).List? && NotIncluded(AuthHeaders, Included(s)).Success?
    ensures r.Success? ==> Excluded(s).items <= r.value
    ensures r.Success? ==> forall h :: h in AuthHeaders && Contains(Included(s), Text(h)) == Success(false) ==> Text(h) in r.value
  {
    var ex := Excluded(s);
    if !ex.List? then Failure(AttributeError("extend"))
    else
      match NotIncluded(AuthHeaders, Included(s))
      case Failure(e) => Failure(e)
      case Success(missing) => Success(ex.items + AsTexts(missing))
  }

  /**
   * `_clean_headers` reads its settings with `get`, not `getlist`: a
   * non-empty dict of excluded headers has no `extend` and fails.
   */
  lemma ExcludedMappingFails(s: Settings, m: map<Key, Value>)
    requires DontRecordHeaders in s && s[DontRecordHeaders] == Dict(m) && m != map[]
    ensures ExclusionList(s) == Failure(AttributeError("extend"))
  {
  }

  /** A dict of auth headers to record is consulted by its keys, as `in` does. */
  lemma IncludedMappingByKeys(s: Settings, v: Value)
    requires DontRecordHeaders !in s && ExcludedHeaders !in s
    requires RecordAuthHeaders in s && s[RecordAuthHeaders] == Dict(map[KText("Authorization") := v])
    ensures ExclusionList(s) == Success([Text("Proxy-Authorization")])
  {
    var included := Dict(map[KText("Authorization") := v]);
    assert KText("Authorization") in included.entries;
    assert Included(s) == included;
    assert AuthHeaders[1..] == ["Proxy-Authorization"] && AuthHeaders[1..][1..] == [];
    assert Contains(included, Text("Authorization")) == Success(true);
    assert Contains(included, Text("Proxy-Authorization")) == Success(false);
    var proxy := ["Proxy-Authorization"];
    assert NotIncluded(proxy[1..], included) == Success([]);
    assert Contains(included, Text(proxy[0])) == Success(false);
    assert [proxy[0]] + [] == proxy;
    assert NotIncluded(proxy, included) == Success(proxy);
    assert NotIncluded(AuthHeaders, included) == Success(proxy);
    assert AsTexts(proxy) == [Text("Proxy-Authorization")];
    assert Excluded(s) == List([]);
    assert Excluded(s).items + AsTexts(proxy) == [Text("Proxy-Authorization")];
  }

  /** The settings after `_clean_headers`: `extend` grew the stored list in place. */
  function SettingsAfterClean(s: Settings): Settings {
    var list := ExclusionList(s);
    var owner := ExcludedOwner(s);
    if list.Success? && owner.Some? then s[owner.value := List(list.value)] else s
  }

  /** Whether popping `header` and `header.encode()` removes key `k`. */
  predicate Removes(header: Value, k: Key) {
    Hash(header) == AsKey(k) || (header.Text? && k == KBytes(EncodeUtf8(header.s)))
  }

  predicate RemovedBy(headers: seq<Value>, k: Key) {
    exists x :: x in headers && Removes(x, k)
  }

  /** `headers.pop(header, None); headers.pop(header.encode(), None)`. */
  function RemoveHeader(h: map<Key, Value>, header: Value): Result<map<Key, Value>> {
    var popped :=
      match Hash(header)
      case AsKey(k) => Success(h - {k})
      case NotAKey => Success(h)
      case Unhashable => Failure(TypeError("unhashable type"));
    match popped
    case Failure(e) => Failure(e)
    case Success(h1) =>
      if header.Text? then Success(h1 - {KBytes(EncodeUtf8(header.s))})
      else Failure(AttributeError("encode"))
  }

  /** The removal loop, one header after the other. */
  function RemoveAll(h: map<Key, Value>, headers: seq<Value>): Result<map<Key, Value>>
    decreases |headers|
  {
    if headers == [] then Success(h)
    else
      match RemoveHeader(h, headers[0])
      case Failure(e) => Failure(e)
      case Success(h1) => RemoveAll(h1, headers[1..])
  }

  /** `_clean_headers` as a function of the settings and the header dict. */
  function CleanHeadersF(s: Settings, h: map<Key, Value>): Result<map<Key, Value>> {
    match ExclusionList(s)
    case Failure(e) => Failure(e)
    case Success(xs) => RemoveAll(h, xs)
  }

  /** The `for header in excluded` loop of `_clean_headers`. */
  method RemoveEach(headers: map<Key, Value>, excluded: seq<Value>) returns (r: Result<map<Key, Value>>)
    ensures r == RemoveAll(headers, excluded)
  {
    var h := headers;
    var i := 0;
    while i < |excluded|
      invariant 0 <= i <= |excluded|
      invariant RemoveAll(headers, excluded) == RemoveAll(h, excluded[i..])
    {
      assert excluded[i..][0] == excluded[i] && excluded[i..][1..] == excluded[i + 1..];
      var next := RemoveHeader(h, excluded[i]);
      if next.Failure? {
        return Failure(next.error);
      }
      h := next.value;
      i := i + 1;
    }
    return Success(h);
  }

  /**
   * `_clean_headers`: pops every excluded header, in text and in bytes form,
   * and extends the stored exclusion setting in place.
   */
  method CleanHeaders(s: Settings, headers: map<Key, Value>) returns (r: Result<map<Key, Value>>, after: Settings)
    ensures r == CleanHeadersF(s, headers)
    ensures after == SettingsAfterClean(s)
  {
    var list := ExclusionList(s);
    if list.Failure? {
      return Failure(list.error), s;
    }
    var owner := ExcludedOwner(s);
    after := if owner.Some? then s[owner.value := List(list.value)] else s;
    r := RemoveEach(headers, list.value);
  }

  /** `RemoveAll` succeeds iff every header is text, and then removes exactly what it names. */
  lemma {:induction false} RemoveAllExact(h: map<Key, Value>, headers: seq<Value>)
    ensures RemoveAll(h, headers).Success? <==> forall x :: x in headers ==> x.Text?
    ensures RemoveAll(h, headers).Success? ==>
      var r := RemoveAll(h, headers).value;
      (forall k :: k in r <==> k in h && !RemovedBy(headers, k)) &&
      (forall k :: k in r ==> r[k] == h[k])
    decreases |headers|
  {
    if headers != [] {
      var x := headers[0];
      if x.Text? {
        var h1 := RemoveHeader(h, x).value;
        assert h1 == h - {KText(x.s)} - {KBytes(EncodeUtf8(x.s))};
        RemoveAllExact(h1, headers[1..]);
        assert forall y :: y in headers <==> y == x || y in headers[1..];
        if RemoveAll(h, headers).Success? {
          forall k ensures RemovedBy(headers, k) <==> Removes(x, k) || RemovedBy(headers[1..], k) {
            if RemovedBy(headers, k) {
              var y :| y in headers && Removes(y, k);
            }
          }
        }
      } else {
        assert !RemoveAll(h, headers).Success?;
      }
    }
  }

  /** After `_clean_headers` no excluded header is left, in text or bytes form. */
  lemma CleanRemovesExcluded(s: Settings, h: map<Key, Value>, t: string)
    requires CleanHeadersF(s, h).Success?
    requires Text(t) in ExclusionList(s).value
    ensures KText(t) !in CleanHeadersF(s, h).value
    ensures KBytes(EncodeUtf8(t)) !in CleanHeadersF(s, h).value
  {
    RemoveAllRemoves(h, ExclusionList(s).value, t);
  }

  /** A text header named in the list is gone after the removal loop, in both forms. */
  lemma RemoveAllRemoves(h: map<Key, Value>, xs: seq<Value>, t: string)
    requires RemoveAll(h, xs).Success? && Text(t) in xs
    ensures KText(t) !in RemoveAll(h, xs).value
    ensures KBytes(EncodeUtf8(t)) !in RemoveAll(h, xs).value
  {
    RemoveAllExact(h, xs);
    assert Removes(Text(t), KText(t)) && Removes(Text(t), KBytes(EncodeUtf8(t)));
  }

  /** A header that no excluded name denotes keeps its key and value. */
  lemma CleanKeepsOthers(s: Settings, h: map<Key, Value>, k: Key)
    requires CleanHeadersF(s, h).Success?
    requires k in h && !RemovedBy(ExclusionList(s).value, k)
    ensures k in CleanHeadersF(s, h).value && CleanHeadersF(s, h).value[k] == h[k]
  {
    RemoveAllExact(h, ExclusionList(s).value);
  }

  /** `Authorization`/`Proxy-Authorization` are dropped unless the included list holds them. */
  lemma CleanDropsAuth(s: Settings, h: map<Key, Value>, auth: string)
    requires auth in AuthHeaders
    requires Contains(Included(s), Text(auth)) == Success(false)
    requires CleanHeadersF(s, h).Success?
    ensures KText(auth) !in CleanHeadersF(s, h).value
    ensures KBytes(EncodeUtf8(auth)) !in CleanHeadersF(s, h).value
  {
    CleanRemovesExcluded(s, h, auth);
  }

  /** The cleaning succeeds iff the chosen list is a list of strings and the auth lookup works. */
  lemma CleanSucceeds(s: Settings, h: map<Key, Value>)
    ensures CleanHeadersF(s, h).Success? <==>
      ExclusionList(s).Success? && forall x :: x in Excluded(s).items ==> x.Text?
  {
    if ExclusionList(s).Success? {
      var xs := ExclusionList(s).value;
      RemoveAllExact(h, xs);
      assert forall x :: x in xs ==> x in Excluded(s).items || x.Text?;
    }
  }

  lemma {:induction false} RemovedBySame(xs: seq<Value>, ys: seq<Value>, k: Key)
    requires forall y :: y in ys ==> y in xs
    ensures RemovedBy(xs + ys, k) <==> RemovedBy(xs, k)
  {
    if RemovedBy(xs + ys, k) {
      var y :| y in xs + ys && Removes(y, k);
      assert y in xs;
    }
    if RemovedBy(xs, k) {
      var y :| y in xs && Removes(y, k);
      assert y in xs + ys;
    }
  }

  /**
   * The in-place `extend` of the exclusion setting does not change what a
   * later `_clean_headers` removes: the list only gains repeats.
   */
  lemma CleanAfterMutation(s: Settings, h: map<Key, Value>)
    ensures CleanHeadersF(SettingsAfterClean(s), h) == CleanHeadersF(s, h)
  {
    if ExclusionList(s).Success? && ExcludedOwner(s).Some? {
      var xs := ExclusionList(s).value;
      var miss := AsTexts(NotIncluded(AuthHeaders, Included(s)).value);
      ExclusionAfterClean(s);
      assert xs == Excluded(s).items + miss;
      forall y | y in miss ensures y in xs {
        var j :| 0 <= j < |miss| && miss[j] == y;
        assert xs[|Excluded(s).items| + j] == y;
      }
      RemoveAllRepeats(h, xs, miss);
    }
  }

  /** After the `extend`, the exclusion list is the old one with the missing auth headers appended again. */
  lemma ExclusionAfterClean(s: Settings)
    requires ExclusionList(s).Success? && ExcludedOwner(s).Some?
    ensures ExclusionList(SettingsAfterClean(s)) ==
      Success(ExclusionList(s).value + AsTexts(NotIncluded(AuthHeaders, Included(s)).value))
  {
    var s' := SettingsAfterClean(s);
    var xs := ExclusionList(s).value;
    assert Included(s') == Included(s);
    if ExcludedOwner(s).value == DontRecordHeaders {
      assert Excluded(s') == List(xs);
    } else {
      assert !Truthy(Get(s, DontRecordHeaders, List([])));
      assert Get(s', DontRecordHeaders, List([])) == Get(s, DontRecordHeaders, List([]));
      assert Excluded(s') == List(xs);
    }
  }

  /** Appending headers already in the list changes nothing the removal loop does. */
  lemma RemoveAllRepeats(h: map<Key, Value>, xs: seq<Value>, ys: seq<Value>)
    requires forall y :: y in ys ==> y in xs
    ensures RemoveAll(h, xs + ys) == RemoveAll(h, xs)
  {
    RemoveAllExact(h, xs);
    RemoveAllExact(h, xs + ys);
    assert forall x :: x in xs + ys ==> x in xs;
    if RemoveAll(h, xs).Success? {
      var a := RemoveAll(h, xs).value;
      var b := RemoveAll(h, xs + ys).value;
      forall k ensures k in a <==> k in b {
        RemovedBySame(xs, ys, k);
      }
      assert a == b;
    } else {
      var x :| x in xs && !x.Text?;
      RemoveAllFirstError(h, xs, xs + ys);
    }
  }

  /** Both removal loops stop at the same first non-text header with the same error. */
  lemma {:induction false} RemoveAllFirstError(h: map<Key, Value>, xs: seq<Value>, ys: seq<Value>)
    requires xs <= ys
    requires exists x :: x in xs && !x.Text?
    ensures RemoveAll(h, xs) == RemoveAll(h, ys)
    decreases |xs|
  {
    assert xs[0] == ys[0];
    if xs[0].Text? {
      var x :| x in xs && !x.Text?;
      assert x in xs[1..];
      RemoveAllFirstError(RemoveHeader(h, xs[0]).value, xs[1..], ys[1..]);
    }
  }

  // ---------------------------------------------------------------------
  // Requests, responses and nested output (_request_to_dict, parse_object)
  // ---------------------------------------------------------------------

  /** `spider.rules[rule].callback`: Python list indexing, negative indices included. */
  function RuleCallback(rules: seq<Value>, rule: Value): (r: Result<Value>)
    ensures r.Success? ==> r.value in rules
    ensures rule.Int? && 0 <= rule.i < |rules| ==> r == Success(rules[rule.i])
    ensures rule.Int? && -|rules| <= rule.i < 0 ==> r == Success(rules[|rules| + rule.i])
    ensures r.Failure? <==> !(rule.Int? || rule.Bool?) || (rule.Int? && !(-|rules| <= rule.i < |rules|)) || (rule.Bool? && (if rule.b then 1 else 0) >= |rules|)
  {
    var index :=
      match rule
      case Int(i) => Some(i)
      case Bool(b) => Some(if b then 1 else 0)
      case _ => None;
    match index
    case None => Failure(TypeError("list indices must be integers or slices"))
    case Some(i) =>
      if 0 <= i < |rules| then Success(rules[i])
      else if -|rules| <= i < 0 then Success(rules[|rules| + i])
      else Failure(IndexError("list index out of range"))
  }

  /** The callback `_request_to_dict` records. */
  function RecordedCallback(cfg: SpiderConfig, req: Request): (r: Result<Value>)
    ensures !Truthy(req.callback) ==> r == Success(Text("parse"))
    ensures Truthy(req.callback) && (!cfg.isCrawlSpider || GetOr(req.meta, "rule", Null) == Null) ==> r == Success(req.callback)
    ensures Truthy(req.callback) && cfg.isCrawlSpider && GetOr(req.meta, "rule", Null) != Null ==>
      r == RuleCallback(cfg.ruleCallbacks, GetOr(req.meta, "rule", Null))
  {
    if !Truthy(req.callback) then Success(Text("parse"))
    else if cfg.isCrawlSpider && GetOr(req.meta, "rule", Null) != Null then
      RuleCallback(cfg.ruleCallbacks, GetOr(req.meta, "rule", Null))
    else Success(req.callback)
  }

  /** Values `parse_object` returns as they are. */
  predicate Leaf(v: Value) {
    !(v.Req? || v.Resp? || v.Dict? || v.List? || v.Tuple?)
  }

  /** `_response_to_dict`: the response's fields and its class path under `cls`. */
  function ResponseDict(r: Response): (d: map<Key, Value>)
    ensures d.Keys == {KText("cls"), KText("url"), KText("status"), KText("body"), KText("headers"), KText("flags"), KText("encoding")}
    ensures d[KText("cls")] == Text(r.moduleName + "." + (if r.qualname != "" then r.qualname else r.name))
    ensures d[KText("url")] == Text(r.url) && d[KText("status")] == Int(r.status)
    ensures d[KText("body")] == Bytes(r.body) && d[KText("encoding")] == Text(r.encoding)
    ensures d[KText("headers")] == Dict(r.headers) && d[KText("flags")] == List(r.flags)
    ensures forall k :: k in d && k != KText("headers") && k != KText("flags") ==> Leaf(d[k])
  {
    map[KText("cls") := Text(r.moduleName + "." + (if r.qualname != "" then r.qualname else r.name)),
        KText("url") := Text(r.url),
        KText("status") := Int(r.status),
        KText("body") := Bytes(r.body),
        KText("headers") := Dict(r.headers),
        KText("flags") := List(r.flags),
        KText("encoding") := Text(r.encoding)]
  }

  /**
   * `parse_object`: requests become their dicts, responses the dict of
   * `_response_to_dict`, dicts, lists and tuples are rebuilt from their
   * parsed elements, and everything else (Items included, which are not
   * dicts) is returned unchanged.
   */
  function ParseObject(cfg: SpiderConfig, v: Value): (r: Result<Value>)
    ensures Leaf(v) ==> r == Success(v)
    ensures r.Success? && v.Dict? ==> r.value.Dict? && r.value.entries.Keys == v.entries.Keys
    ensures r.Success? && v.List? ==> r.value.List? && |r.value.items| == |v.items|
    ensures r.Success? && v.Tuple? ==> r.value.Tuple? && |r.value.items| == |v.items|
    decreases v, 3
  {
    match v
    case Req(req) => SanitizeRequest(cfg, req)
    case Resp(resp) =>
      var headers := ParseEntries(cfg, resp.headers, v);
      var flags := ParseItems(cfg, resp.flags);
      if headers.Failure? || flags.Failure? then Failure(SanitizeFailed)
      else Success(Dict(ResponseDict(resp)[KText("headers") := Dict(headers.value)][KText("flags") := List(flags.value)]))
    case Dict(m) =>
      var entries := ParseEntries(cfg, m, v);
      if entries.Failure? then Failure(entries.error) else Success(Dict(entries.value))
    case List(xs) =>
      var items := ParseItems(cfg, xs);
      if items.Failure? then Failure(items.error) else Success(List(items.value))
    case Tuple(xs) =>
      var items := ParseItems(cfg, xs);
      if items.Failure? then Failure(items.error) else Success(Tuple(items.value))
    case _ => Success(v)
  }

  /**
   * `[parse_object(x) for x in xs]`: every element parsed in order, the
   * first failure ending the run with its error.
   */
  function ParseItems(cfg: SpiderConfig, xs: seq<Value>): (r: Result<seq<Value>>)
    ensures r.Success? <==> forall i :: 0 <= i < |xs| ==> ParseObject(cfg, xs[i]).Success?
    ensures r.Success? ==> |r.value| == |xs| && forall i :: 0 <= i < |xs| ==> ParseObject(cfg, xs[i]) == Success(r.value[i])
    ensures r.Failure? ==>
      exists i :: 0 <= i < |xs| && ParseObject(cfg, xs[i]) == Failure(r.error) && (forall j :: 0 <= j < i ==> ParseObject(cfg, xs[j]).Success?)
    decreases xs
  {
    if xs == [] then Success([])
    else
      match ParseObject(cfg, xs[0])
      case Failure(e) => Failure(e)
      case Success(x) =>
        match ParseItems(cfg, xs[1..])
        case Failure(e) => Failure(e)
        case Success(rest) => Success([x] + rest)
  }

  /**
   * `{k: parse_object(v) for k, v in m.items()}`.  Dict iteration order is
   * not modelled, so any failing entry gives the one `SanitizeFailed`.
   * `parent` is the value holding `m`; it only serves termination.
   */
  function ParseEntries(cfg: SpiderConfig, m: map<Key, Value>, ghost parent: Value): (r: Result<map<Key, Value>>)
    requires forall k :: k in m ==> m[k] < parent
    ensures r.Success? <==> forall k :: k in m ==> ParseObject(cfg, m[k]).Success?
    ensures r.Success? ==> r.value.Keys == m.Keys && forall k :: k in m ==> ParseObject(cfg, m[k]) == Success(r.value[k])
    ensures r.Failure? ==> r.error == SanitizeFailed
    decreases parent, 0
  {
    if exists k | k in m :: ParseObject(cfg, m[k]).Failure? then Failure(SanitizeFailed)
    else Success(map k | k in m :: ParseObject(cfg, m[k]).value)
  }

  /**
   * `_request_to_dict`: the request's dict with the recorded callback, the
   * cleaned headers, and its meta parsed entry by entry without the
   * cassette key.
   */
  function SanitizeRequest(cfg: SpiderConfig, req: Request): (r: Result<Value>)
    ensures r.Success? <==>
      RecordedCallback(cfg, req).Success? && CleanHeadersF(cfg.settings, req.headers).Success? &&
      forall k :: k in req.meta && k != KText(CassetteKey) ==> ParseObject(cfg, req.meta[k]).Success?
    ensures r.Success? ==> (
      r.value.Dict? &&
      var d := r.value.entries;
      KText("callback") in d && Success(d[KText("callback")]) == RecordedCallback(cfg, req) &&
      KText("headers") in d && CleanHeadersF(cfg.settings, req.headers).Success? &&
      d[KText("headers")] == Dict(CleanHeadersF(cfg.settings, req.headers).value) &&
      KText("meta") in d && d[KText("meta")].Dict? &&
      d[KText("meta")].entries.Keys == req.meta.Keys - {KText(CassetteKey)} &&
      (forall k :: k in d[KText("meta")].entries ==> Success(d[KText("meta")].entries[k]) == ParseObject(cfg, req.meta[k])))
    decreases Req(req), 2
  {
    match RecordedCallback(cfg, req)
    case Failure(e) => Failure(e)
    case Success(callback) =>
      match CleanHeadersF(cfg.settings, req.headers)
      case Failure(e) => Failure(e)
      case Success(headers) =>
        var meta := SanitizeMeta(cfg, req);
        if meta.Failure? then Failure(meta.error)
        else Success(Dict(SanitizedDict(req, callback, headers, meta.value)))
  }

  /** The request's dict with its callback, headers and meta replaced. */
  function SanitizedDict(req: Request, callback: Value, headers: map<Key, Value>, meta: map<Key, Value>): (d: map<Key, Value>)
    ensures KText("callback") in d && d[KText("callback")] == callback
    ensures KText("headers") in d && d[KText("headers")] == Dict(headers)
    ensures KText("meta") in d && d[KText("meta")] == Dict(meta)
  {
    RequestDict(req)[KText("callback") := callback][KText("headers") := Dict(headers)][KText("meta") := Dict(meta)]
  }

  /** The loop of `_request_to_dict` over the meta entries, skipping the cassette key. */
  function SanitizeMeta(cfg: SpiderConfig, req: Request): (r: Result<map<Key, Value>>)
    ensures r.Success? <==> forall k :: k in req.meta && k != KText(CassetteKey) ==> ParseObject(cfg, req.meta[k]).Success?
    ensures r.Success? ==> r.value.Keys == req.meta.Keys - {KText(CassetteKey)}
    ensures r.Success? ==> forall k :: k in r.value ==> Success(r.value[k]) == ParseObject(cfg, req.meta[k])
    decreases Req(req), 1
  {
    var m := req.meta - {KText(CassetteKey)};
    assert forall k :: k in m ==> m[k] == req.meta[k];
    ParseEntries(cfg, m, Req(req))
  }

  /** A response is parsed exactly as the dict `_response_to_dict` makes of it. */
  lemma ResponseParsedAsDict(cfg: SpiderConfig, resp: Response)
    ensures ParseObject(cfg, Resp(resp)) == ParseObject(cfg, Dict(ResponseDict(resp)))
  {
    ResponseFieldsUnfold(cfg, resp);
    if ParseObject(cfg, Dict(resp.headers)).Success? && ParseObject(cfg, List(resp.flags)).Success? {
      ResponseFieldsParsed(cfg, resp);
    } else {
      ResponseFieldsFail(cfg, resp);
    }
  }

  /** A response is parsed through its headers dict and its flags list. */
  lemma ResponseFieldsUnfold(cfg: SpiderConfig, resp: Response)
    ensures var ph, pf := ParseObject(cfg, Dict(resp.headers)), ParseObject(cfg, List(resp.flags));
      ParseObject(cfg, Resp(resp)) ==
        if ph.Success? && pf.Success?
        then Success(Dict(ResponseDict(resp)[KText("headers") := ph.value][KText("flags") := pf.value]))
        else Failure(SanitizeFailed)
  {
    var h := ParseEntries(cfg, resp.headers, Resp(resp));
    var f := ParseItems(cfg, resp.flags);
    assert h == ParseEntries(cfg, resp.headers, Dict(resp.headers));
    assert ParseObject(cfg, Dict(resp.headers)) == if h.Failure? then Failure(h.error) else Success(Dict(h.value));
    assert ParseObject(cfg, List(resp.flags)) == if f.Failure? then Failure(f.error) else Success(List(f.value));
  }

  /** The dict of a response whose headers or flags fail to parse fails to parse. */
  lemma ResponseFieldsFail(cfg: SpiderConfig, resp: Response)
    requires !ParseObject(cfg, Dict(resp.headers)).Success? || !ParseObject(cfg, List(resp.flags)).Success?
    ensures ParseObject(cfg, Dict(ResponseDict(resp))) == Failure(SanitizeFailed)
  {
    var d := ResponseDict(resp);
    var hk, fk := KText("headers"), KText("flags");
    assert d[hk] == Dict(resp.headers) && d[fk] == List(resp.flags);
    assert !ParseObject(cfg, d[hk]).Success? || !ParseObject(cfg, d[fk]).Success?;
  }

  /** The dict of a response whose headers and flags parse is parsed field by field. */
  lemma ResponseFieldsParsed(cfg: SpiderConfig, resp: Response)
    requires ParseObject(cfg, Dict(resp.headers)).Success? && ParseObject(cfg, List(resp.flags)).Success?
    ensures ParseObject(cfg, Dict(ResponseDict(resp))) ==
      Success(Dict(ResponseDict(resp)[KText("headers") := ParseObject(cfg, Dict(resp.headers)).value][KText("flags") := ParseObject(cfg, List(resp.flags)).value]))
  {
    var d := ResponseDict(resp);
    var hk, fk := KText("headers"), KText("flags");
    var ph := ParseObject(cfg, Dict(resp.headers));
    var pf := ParseObject(cfg, List(resp.flags));
    assert d[hk] == Dict(resp.headers) && d[fk] == List(resp.flags);
    var want := d[hk := ph.value][fk := pf.value];
    forall k | k in d ensures ParseObject(cfg, d[k]) == Success(want[k]) {
      if k != hk && k != fk {
        assert Leaf(d[k]);
      }
    }
    var pd := ParseEntries(cfg, d, Dict(d));
    assert pd.Success?;
    assert pd.value == want;
  }

  // ---------------------------------------------------------------------
  // Spider attributes (spider_attrs)
  // ---------------------------------------------------------------------

  /** Attribute names never recorded for a spider of this kind. */
  function AlwaysFiltered(cfg: SpiderConfig): set<string> {
    {"crawler", "settings", "start_urls"} + (if cfg.isCrawlSpider then {"rules", "_rules"} else {})
  }

  /**
   * `spider_attrs`: the attribute dict without the crawler, settings and
   * start URLs, a CrawlSpider's rules, and the configured names.
   */
  function SpiderAttrs(cfg: SpiderConfig, attrs: map<string, Value>): (r: Result<map<string, Value>>)
    ensures r.Success? <==> AsSet(Get(cfg.settings, DontRecordSpiderAttrs, List([]))).Success?
    ensures r.Success? ==>
      var dont := AsSet(Get(cfg.settings, DontRecordSpiderAttrs, List([]))).value;
      forall k :: k in r.value <==> k in attrs && k !in AlwaysFiltered(cfg) && Text(k) !in dont
    ensures r.Success? ==> forall k :: k in r.value ==> r.value[k] == attrs[k]
    ensures r.Success? ==> "crawler" !in r.value && "settings" !in r.value && "start_urls" !in r.value
    ensures r.Success? && cfg.isCrawlSpider ==> "rules" !in r.value && "_rules" !in r.value
  {
    match AsSet(Get(cfg.settings, DontRecordSpiderAttrs, List([])))
    case Failure(e) => Failure(e)
    case Success(dont) =>
      Success(map k | k in attrs && k !in AlwaysFiltered(cfg) && Text(k) !in dont :: attrs[k])
  }

  // ---------------------------------------------------------------------
  // Callback output (parse_callback_output)
  // ---------------------------------------------------------------------

  /** `{'type': kind, 'data': data}`. */
  function Entry(kind: string, data: Value): (e: Value)
    ensures e.Dict? && e.entries.Keys == {KText("type"), KText("data")}
    ensures e.entries[KText("type")] == Text(kind) && e.entries[KText("data")] == data
  {
    Dict(map[KText("type") := Text(kind), KText("data") := data])
  }

  /** The recorded entry of one output element. */
  function Tag(cfg: SpiderConfig, elem: Value): Result<Value> {
    if elem.Req? then
      match SanitizeRequest(cfg, elem.request)
      case Failure(e) => Failure(e)
      case Success(d) => Success(Entry("request", d))
    else
      match ParseObject(cfg, elem)
      case Failure(e) => Failure(e)
      case Success(d) => Success(Entry("item", d))
  }

  /** The recorded entries of a whole output, stopping at the first failure. */
  function TagAll(cfg: SpiderConfig, output: seq<Value>): (r: Result<seq<Value>>)
    ensures r.Success? <==> forall i :: 0 <= i < |output| ==> Tag(cfg, output[i]).Success?
    ensures r.Success? ==> |r.value| == |output| && forall i :: 0 <= i < |output| ==> Tag(cfg, output[i]) == Success(r.value[i])
    ensures r.Failure? ==> exists i :: 0 <= i < |output| && Tag(cfg, output[i]) == Failure(r.error)
  {
    var rs := seq(|output|, i requires 0 <= i < |output| => Tag(cfg, output[i]));
    assert forall i :: 0 <= i < |output| ==> rs[i] == Tag(cfg, output[i]);
    Collect(rs)
  }

  /** Each entry is tagged `request` iff its element is a Request, and carries its parsed data. */
  lemma TagMeaning(cfg: SpiderConfig, elem: Value)
    requires Tag(cfg, elem).Success?
    ensures var e := Tag(cfg, elem).value;
      e.Dict? && KText("type") in e.entries && KText("data") in e.entries &&
      (e.entries[KText("type")] == Text("request") <==> elem.Req?) &&
      (e.entries[KText("type")] == Text("item") <==> !elem.Req?) &&
      Success(e.entries[KText("data")]) == ParseObject(cfg, elem)
  {
    if elem.Req? {
      assert ParseObject(cfg, elem) == SanitizeRequest(cfg, elem.request);
    }
  }

  /**
   * `parse_callback_output`: the elements themselves, in order, and the
   * entry of each; an element that fails to parse aborts the call with its
   * error.
   */
  method ParseCallbackOutput(cfg: SpiderConfig, output: seq<Value>) returns (original: seq<Value>, parsed: Result<seq<Value>>)
    ensures parsed == TagAll(cfg, output)
    ensures parsed.Success? ==> original == output
  {
    original := [];
    var entries: seq<Value> := [];
    var i := 0;
    while i < |output|
      invariant 0 <= i <= |output|
      invariant original == output[..i]
      invariant |entries| == i && forall j :: 0 <= j < i ==> Tag(cfg, output[j]) == Success(entries[j])
    {
      original := original + [output[i]];
      var data := Tag(cfg, output[i]);
      if data.Failure? {
        TagAllFirstFailure(cfg, output, i);
        return original, Failure(data.error);
      }
      entries := entries + [data.value];
      i := i + 1;
    }
    TagAllCollects(cfg, output, entries);
    parsed := Success(entries);
  }

  /** When every element is tagged, the output's entries are those tags, in order. */
  lemma TagAllCollects(cfg: SpiderConfig, output: seq<Value>, entries: seq<Value>)
    requires |entries| == |output| && forall j :: 0 <= j < |output| ==> Tag(cfg, output[j]) == Success(entries[j])
    ensures TagAll(cfg, output) == Success(entries)
  {
    var all := TagAll(cfg, output);
    assert all.Success?;
    assert all.value == entries;
  }

  /** The first element that fails decides the error of the whole output. */
  lemma TagAllFirstFailure(cfg: SpiderConfig, output: seq<Value>, i: nat)
    requires i < |output| && Tag(cfg, output[i]).Failure?
    requires forall j :: 0 <= j < i ==> Tag(cfg, output[j]).Success?
    ensures TagAll(cfg, output) == Failure(Tag(cfg, output[i]).error)
  {
    var rs := seq(|output|, j requires 0 <= j < |output| => Tag(cfg, output[j]));
    assert TagAll(cfg, output) == Collect(rs);
    assert rs[i] == Tag(cfg, output[i]);
    assert forall j :: 0 <= j < i ==> rs[j] == Tag(cfg, output[j]);
    CollectFirstFailure(rs, i);
  }

  // ---------------------------------------------------------------------
  // Deprecated settings (deprecated_settings)
  // ---------------------------------------------------------------------

  /** Old setting name and its replacement, in the order they are reported. */
  const DeprecatedNames: seq<(string, string)> := [
    ("AUTOUNIT_SKIPPED_FIELDS", "AUTOUNIT_DONT_TEST_OUTPUT_FIELDS"),
    ("AUTOUNIT_REQUEST_SKIPPED_FIELDS", "AUTOUNIT_DONT_TEST_REQUEST_ATTRS"),
    ("AUTOUNIT_EXCLUDED_HEADERS", "AUTOUNIT_DONT_RECORD_HEADERS"),
    ("AUTOUNIT_INCLUDED_AUTH_HEADERS", "AUTOUNIT_RECORD_AUTH_HEADERS"),
    ("AUTOUNIT_INCLUDED_SETTINGS", "AUTOUNIT_RECORD_SETTINGS")]

  function DeprecationMessage(oldName: string, newName: string): string {
    "DEPRECATED: '" + oldName + "' is going to be removed soon. Please use '" + newName + "' instead."
  }

  /** The warnings for the given pairs whose old setting is truthy, in order. */
  function Deprecations(s: Settings, pairs: seq<(string, string)>): seq<string>
    decreases |pairs|
  {
    if pairs == [] then []
    else
      (if Truthy(Get(s, pairs[0].0, Null)) then [DeprecationMessage(pairs[0].0, pairs[0].1)] else []) +
      Deprecations(s, pairs[1..])
  }

  /** The reporting loop over a list of (old, new) pairs. */
  method ReportDeprecated(s: Settings, pairs: seq<(string, string)>) returns (warnings: seq<string>)
    ensures warnings == Deprecations(s, pairs)
  {
    warnings := [];
    var i := 0;
    while i < |pairs|
      invariant 0 <= i <= |pairs|
      invariant warnings + Deprecations(s, pairs[i..]) == Deprecations(s, pairs)
    {
      assert pairs[i..][1..] == pairs[i + 1..];
      if Truthy(Get(s, pairs[i].0, Null)) {
        warnings := warnings + [DeprecationMessage(pairs[i].0, pairs[i].1)];
      }
      i := i + 1;
    }
  }

  /** `deprecated_settings`: one warning per old setting that is set. */
  method DeprecatedSettings(s: Settings) returns (warnings: seq<string>)
    ensures warnings == Deprecations(s, DeprecatedNames)
  {
    warnings := ReportDeprecated(s, DeprecatedNames);
  }

  /** A message names an old setting iff that setting is truthy; messages of distinct pairs differ. */
  lemma {:induction false} DeprecationsExact(s: Settings, pairs: seq<(string, string)>, i: nat)
    requires i < |pairs|
    requires forall j :: 0 <= j < |pairs| && j != i ==>
      |pairs[j].0| + |pairs[j].1| != |pairs[i].0| + |pairs[i].1|
    ensures DeprecationMessage(pairs[i].0, pairs[i].1) in Deprecations(s, pairs) <==> Truthy(Get(s, pairs[i].0, Null))
    decreases |pairs|
  {
    var m := DeprecationMessage(pairs[i].0, pairs[i].1);
    var head := if Truthy(Get(s, pairs[0].0, Null)) then [DeprecationMessage(pairs[0].0, pairs[0].1)] else [];
    assert Deprecations(s, pairs) == head + Deprecations(s, pairs[1..]);
    if i == 0 {
      if Truthy(Get(s, pairs[0].0, Null)) {
        assert m == Deprecations(s, pairs)[0];
      } else {
        DeprecationsAbsent(s, pairs[1..], m);
      }
    } else {
      DeprecationsExact(s, pairs[1..], i - 1);
      assert |DeprecationMessage(pairs[0].0, pairs[0].1)| != |m|;
    }
  }

  /** A message no later pair can produce is absent. */
  lemma {:induction false} DeprecationsAbsent(s: Settings, pairs: seq<(string, string)>, m: string)
    requires forall j :: 0 <= j < |pairs| ==> |DeprecationMessage(pairs[j].0, pairs[j].1)| != |m|
    ensures m !in Deprecations(s, pairs)
    decreases |pairs|
  {
    if pairs != [] {
      DeprecationsAbsent(s, pairs[1..], m);
    }
  }

  /** Each of the five old settings is reported iff it is set. */
  lemma DeprecatedSettingsExact(s: Settings, i: nat)
    requires i < |DeprecatedNames|
    ensures DeprecationMessage(DeprecatedNames[i].0, DeprecatedNames[i].1) in Deprecations(s, DeprecatedNames)
        <==> Truthy(Get(s, DeprecatedNames[i].0, Null))
  {
    DeprecationsExact(s, DeprecatedNames, i);
  }
}

=== FILE: player.dfy ===
/**
 * The player: replays a cassette against a freshly built spider and
 * compares what the callback yields, and the spider's attributes, with
 * what was recorded.
 *
 * What lies outside the package is given: the spider built from the
 * cassette, the middleware classes (`load`), what their factories make of
 * them (`construct`), the effects of their hooks and of the callback.
 */
module Player {
  import opened Values
  import opened Scrapy
  import opened Parser
  import opened Cassettes

  const SkippedFields := "AUTOUNIT_SKIPPED_FIELDS"
  const RequestSkippedFields := "AUTOUNIT_REQUEST_SKIPPED_FIELDS"
  const DefaultResponseClass := "scrapy.http.HtmlResponse"

  const InitLabel := "Init attributes not equal"
  const InputLabel := "Input arguments not equal"
  const OutputLabel := "Output arguments not equal"

  // ---------------------------------------------------------------------
  // Small decisions (_len, _check_python_version, _create_instance)
  // ---------------------------------------------------------------------

  /** `_len(iterator)`: what is left of an iterator plus the item just taken from it. */
  function Len(rest: seq<Value>): nat {
    |rest| + 1
  }

  /** `_check_python_version`: the recorded major version must be the running one. */
  function CheckPythonVersion(c: Cassette, running: int): (r: Outcome)
    ensures r.Pass? <==> c.pythonVersion == Int(running)
    ensures r.Fail? ==> r.error == VersionMismatch(c.pythonVersion, Int(running))
  {
    if Int(running) == c.pythonVersion then Pass else Fail(VersionMismatch(c.pythonVersion, Int(running)))
  }

  /** A middleware class, by the factories it offers. */
  datatype ComponentClass = ComponentClass(path: string, hasFromCrawler: bool, hasFromSettings: bool)

  /** How `_create_instance` builds an object. */
  datatype Factory = FromCrawler(crawler: Crawler) | FromSettings(settings: Settings) | Constructor

  /**
   * `_create_instance`: `from_crawler` when there is a crawler and the class
   * has it, else `from_settings` (with the crawler's settings if none were
   * given), else the plain constructor.
   */
  function CreateInstance(cls: ComponentClass, settings: Option<Settings>, crawler: Option<Crawler>): (r: Result<Factory>)
    ensures r.Failure? <==> settings.None? && crawler.None?
    ensures r.Failure? ==> r.error.ValueError?
    ensures r.Success? && crawler.Some? && cls.hasFromCrawler ==> r.value == FromCrawler(crawler.value)
    ensures r.Success? && !(crawler.Some? && cls.hasFromCrawler) && cls.hasFromSettings ==>
      r.value.FromSettings? && r.value.settings == (if settings.Some? then settings.value else crawler.value.settings)
    ensures r.Success? && !(crawler.Some? && cls.hasFromCrawler) && !cls.hasFromSettings ==> r.value == Constructor
  {
    if settings.None? && crawler.None? then Failure(ValueError("Specifiy at least one of settings and crawler."))
    else
      var s := if settings.Some? then settings.value else crawler.value.settings;
      if crawler.Some? && cls.hasFromCrawler then Success(FromCrawler(crawler.value))
      else if cls.hasFromSettings then Success(FromSettings(s))
      else Success(Constructor)
  }

  // ---------------------------------------------------------------------
  // Skipped fields (_clean)
  // ---------------------------------------------------------------------

  /** `obj.pop(field, None)`: dicts and Items lose the key if they hold it. */
  function PopField(obj: Value, field: Value): (r: Result<Value>)
    ensures r.Success? && obj.Dict? ==> r.value.Dict?
    ensures r.Success? && obj.Item? ==> r.value.Item?
  {
    match obj
    case Dict(m) =>
      (match Hash(field)
       case AsKey(k) => Success(Dict(m - {k}))
       case NotAKey => Success(obj)
       case Unhashable => Failure(TypeError("unhashable type")))
    case Item(m) =>
      (match Hash(field)
       case AsKey(k) => Success(Item(m - {k}))
       case NotAKey => Success(obj)
       case Unhashable => Failure(TypeError("unhashable type")))
    case List(_) => Failure(TypeError("pop expected at most 1 argument, got 2"))
    case _ => Failure(AttributeError("pop"))
  }

  /** Every field popped from one object, in order. */
  function PopFields(obj: Value, fields: seq<Value>): Result<Value>
    decreases |fields|
  {
    if fields == [] then Success(obj)
    else
      match PopField(obj, fields[0])
      case Failure(e) => Failure(e)
      case Success(o) => PopFields(o, fields[1..])
  }

  /** The keys a list of field names denotes. */
  function FieldKeys(fields: seq<Value>): set<Key>
    decreases |fields|
  {
    if fields == [] then {}
    else (match Hash(fields[0]) case AsKey(k) => {k} case _ => {}) + FieldKeys(fields[1..])
  }

  /**
   * Popping hashable fields from a dict removes exactly the keys they
   * denote, absent ones included, and leaves every other entry as it was.
   */
  lemma {:induction false} PopFieldsDict(m: map<Key, Value>, fields: seq<Value>)
    requires forall i :: 0 <= i < |fields| ==> !Hash(fields[i]).Unhashable?
    ensures PopFields(Dict(m), fields) == Success(Dict(m - FieldKeys(fields)))
    decreases |fields|
  {
    if fields != [] {
      var f := fields[0];
      assert forall i :: 0 <= i < |fields[1..]| ==> fields[1..][i] == fields[i + 1];
      match Hash(f)
      case AsKey(k) =>
        assert PopField(Dict(m), f) == Success(Dict(m - {k}));
        PopFieldsDict(m - {k}, fields[1..]);
        assert m - {k} - FieldKeys(fields[1..]) == m - FieldKeys(fields);
      case NotAKey =>
        assert PopField(Dict(m), f) == Success(Dict(m));
        PopFieldsDict(m, fields[1..]);
        assert FieldKeys(fields) == FieldKeys(fields[1..]);
    } else {
      assert m - FieldKeys(fields) == m;
    }
  }

  /** The loop `for field in fields: obj.pop(field, None)` on one object. */
  method PopAll(obj: Value, fields: seq<Value>) returns (r: Result<Value>)
    ensures r == PopFields(obj, fields)
  {
    var cur := obj;
    var i := 0;
    while i < |fields|
      invariant 0 <= i <= |fields|
      invariant PopFields(obj, fields) == PopFields(cur, fields[i..])
    {
      assert fields[i..][0] == fields[i] && fields[i..][1..] == fields[i + 1..];
      var next := PopField(cur, fields[i]);
      if next.Failure? {
        return Failure(next.error);
      }
      cur := next.value;
      i := i + 1;
    }
    return Success(cur);
  }

  /** Both objects without the given fields, the first one first. */
  function PopBoth(x: Value, y: Value, fs: seq<Value>): Result<(Value, Value)> {
    var x1 := PopFields(x, fs);
    if x1.Failure? then Failure(x1.error)
    else
      var y1 := PopFields(y, fs);
      if y1.Failure? then Failure(y1.error)
      else Success((x1.value, y1.value))
  }

  /**
   * The fields of a mapping popped from one object.  A mapping's keys are
   * distinct, so the order in which `for field in fields` meets them does
   * not change the result (`PopKeysAnyOrder`).
   */
  function PopKeys(obj: Value, ks: set<Key>): Result<Value> {
    match obj
    case Dict(m) => Success(Dict(m - ks))
    case Item(m) => Success(Item(m - ks))
    case List(_) => if ks == {} then Success(obj) else Failure(TypeError("pop expected at most 1 argument, got 2"))
    case _ => if ks == {} then Success(obj) else Failure(AttributeError("pop"))
  }

  /** A key, as the value iterating a mapping yields, pops exactly that key. */
  lemma KeyValueHashes(k: Key)
    ensures Hash(KeyValue(k)) == AsKey(k)
  {
  }

  /**
   * Popping hashable fields one after the other, in whatever order, is
   * popping the set of keys they denote.
   */
  lemma {:induction false} PopKeysAnyOrder(obj: Value, fs: seq<Value>)
    requires forall i :: 0 <= i < |fs| ==> Hash(fs[i]).AsKey?
    ensures PopFields(obj, fs) == PopKeys(obj, FieldKeys(fs))
    decreases |fs|
  {
    if fs == [] {
      match obj {
        case Dict(m) => assert m - {} == m;
        case Item(m) => assert m - {} == m;
        case _ =>
      }
    } else {
      var k := Hash(fs[0]).key;
      var rest := fs[1..];
      assert forall i :: 0 <= i < |rest| ==> rest[i] == fs[i + 1];
      assert FieldKeys(fs) == {k} + FieldKeys(rest);
      match obj
      case Dict(m) =>
        assert PopField(obj, fs[0]) == Success(Dict(m - {k}));
        PopKeysAnyOrder(Dict(m - {k}), rest);
        assert m - {k} - FieldKeys(rest) == m - FieldKeys(fs);
      case Item(m) =>
        assert PopField(obj, fs[0]) == Success(Item(m - {k}));
        PopKeysAnyOrder(Item(m - {k}), rest);
        assert m - {k} - FieldKeys(rest) == m - FieldKeys(fs);
      case _ =>
    }
  }

  /** Both objects without the keys of a mapping of fields, the first one first. */
  function PopBothKeys(x: Value, y: Value, ks: set<Key>): Result<(Value, Value)> {
    var x1 := PopKeys(x, ks);
    if x1.Failure? then Failure(x1.error)
    else
      var y1 := PopKeys(y, ks);
      if y1.Failure? then Failure(y1.error)
      else Success((x1.value, y1.value))
  }

  /**
   * `_clean(x, y, fields)` as a function: both objects lose the listed
   * fields.  A dict or Item of fields gives its keys.
   */
  function CleanF(x: Value, y: Value, fields: Value): Result<(Value, Value)> {
    match fields
    case Dict(m) => PopBothKeys(x, y, m.Keys)
    case Item(m) => PopBothKeys(x, y, m.Keys)
    case _ => CleanListed(x, y, fields)
  }

  /** `_clean` for fields that iterate as a sequence. */
  function CleanListed(x: Value, y: Value, fields: Value): Result<(Value, Value)> {
    var fs := Iterate(fields);
    if fs.Failure? then Failure(fs.error) else PopBoth(x, y, fs.value)
  }

  /** `_clean`: the recorded and the found object, each without the listed fields. */
  method Clean(x: Value, y: Value, fields: Value) returns (r: Result<(Value, Value)>)
    ensures r == CleanF(x, y, fields)
  {
    match fields {
      case Dict(m) =>
        r := CleanEachKey(x, y, m.Keys);
        assert r == CleanF(x, y, fields);
      case Item(m) =>
        r := CleanEachKey(x, y, m.Keys);
        assert r == CleanF(x, y, fields);
      case _ =>
        r := CleanIterated(x, y, fields);
        assert r == CleanF(x, y, fields);
    }
  }

  /** `_clean` for fields that iterate as a sequence: both loops over that sequence. */
  method CleanIterated(x: Value, y: Value, fields: Value) returns (r: Result<(Value, Value)>)
    ensures r == CleanListed(x, y, fields)
  {
    var fs := Iterate(fields);
    if fs.Failure? {
      r := Failure(fs.error);
    } else {
      r := CleanEach(x, y, fs.value);
    }
  }

  /** The loop `for field in fields: obj.pop(field, None)` over the keys of a mapping. */
  method PopAllKeys(obj: Value, ks: set<Key>) returns (r: Result<Value>)
    ensures r == PopKeys(obj, ks)
  {
    var cur := obj;
    var rest := ks;
    while rest != {}
      invariant rest <= ks
      invariant PopKeys(obj, ks) == PopKeys(cur, rest)
      decreases |rest|
    {
      var k :| k in rest;
      KeyValueHashes(k);
      var next := PopField(cur, KeyValue(k));
      if next.Failure? {
        return Failure(next.error);
      }
      match cur {
        case Dict(m) => assert m - {k} - (rest - {k}) == m - rest;
        case Item(m) => assert m - {k} - (rest - {k}) == m - rest;
        case _ =>
      }
      assert |rest - {k}| < |rest|;
      cur := next.value;
      rest := rest - {k};
    }
    match cur {
      case Dict(m) => assert m - {} == m;
      case Item(m) => assert m - {} == m;
      case _ =>
    }
    return Success(cur);
  }

  /** The two loops of `_clean` over the keys of a mapping, one object after the other. */
  method CleanEachKey(x: Value, y: Value, ks: set<Key>) returns (r: Result<(Value, Value)>)
    ensures r == PopBothKeys(x, y, ks)
  {
    var x1 := PopAllKeys(x, ks);
    if x1.Failure? {
      r := Failure(x1.error);
    } else {
      var y1 := PopAllKeys(y, ks);
      if y1.Failure? {
        r := Failure(y1.error);
      } else {
        r := Success((x1.value, y1.value));
      }
    }
  }

  /** The two loops of `_clean`, one object after the other. */
  method CleanEach(x: Value, y: Value, fs: seq<Value>) returns (r: Result<(Value, Value)>)
    ensures r == PopBoth(x, y, fs)
  {
    var x1 := PopAll(x, fs);
    if x1.Failure? {
      r := Failure(x1.error);
    } else {
      var y1 := PopAll(y, fs);
      if y1.Failure? {
        r := Failure(y1.error);
      } else {
        r := Success((x1.value, y1.value));
      }
    }
  }

  /**
   * On two dicts and a list of hashable fields, `_clean` removes every
   * listed key from both, ignores the absent ones, and changes nothing else.
   */
  lemma CleanDicts(a: map<Key, Value>, b: map<Key, Value>, fs: seq<Value>)
    requires forall i :: 0 <= i < |fs| ==> !Hash(fs[i]).Unhashable?
    ensures CleanF(Dict(a), Dict(b), List(fs)) == Success((Dict(a - FieldKeys(fs)), Dict(b - FieldKeys(fs))))
  {
    PopFieldsDict(a, fs);
    PopFieldsDict(b, fs);
  }

  /**
   * A dict of fields works like the list of its keys: two dicts each lose
   * exactly those keys, whatever order iterating the dict would give them.
   */
  lemma CleanMappingFields(a: map<Key, Value>, b: map<Key, Value>, f: map<Key, Value>, fs: seq<Value>)
    requires forall i :: 0 <= i < |fs| ==> Hash(fs[i]).AsKey?
    requires FieldKeys(fs) == f.Keys
    ensures CleanF(Dict(a), Dict(b), Dict(f)) == Success((Dict(a - f.Keys), Dict(b - f.Keys)))
    ensures CleanF(Dict(a), Dict(b), Dict(f)) == CleanF(Dict(a), Dict(b), List(fs))
  {
    CleanDicts(a, b, fs);
  }

  // ---------------------------------------------------------------------
  // Output comparison (_compare_items, _compare_outputs)
  // ---------------------------------------------------------------------

  /** The skip-field setting for a recorded entry of the given type. */
  function SkipSetting(expectedType: Value): string {
    if expectedType == Text("request") then RequestSkippedFields else SkippedFields
  }

  /**
   * `_compare_items`: the recorded entry's data against the parsed found
   * item, both without the skipped fields; a difference names the item's
   * 1-based index and the cassette's filename.  On success the result is
   * the found data as the comparison leaves it, parsed and cleaned.
   */
  function CompareItems(cfg: SpiderConfig, index: nat, found: Value, expected: Value, filename: Value): (r: Result<Value>)
    ensures r.Success? ==> Lookup(expected, "type").Success? && Lookup(expected, "data").Success? && ParseObject(cfg, found).Success?
    ensures r.Success? ==>
      CleanF(Lookup(expected, "data").value, ParseObject(cfg, found).value,
             Get(cfg.settings, SkipSetting(Lookup(expected, "type").value), List([]))) == Success((r.value, r.value))
    ensures Lookup(expected, "type").Failure? ==> r == Failure(Lookup(expected, "type").error)
  {
    match Lookup(expected, "type")
    case Failure(e) => Failure(e)
    case Success(expectedType) =>
      match Lookup(expected, "data")
      case Failure(e) => Failure(e)
      case Success(expectedData) =>
        match ParseObject(cfg, found)
        case Failure(e) => Failure(e)
        case Success(foundData) =>
          match CleanF(expectedData, foundData, Get(cfg.settings, SkipSetting(expectedType), List([])))
          case Failure(e) => Failure(e)
          case Success(pair) => if pair.0 == pair.1 then Success(pair.1) else Failure(ItemMismatch(index, filename))
  }

  /**
   * A found item whose data differs from the recorded data only in skipped
   * fields compares equal, and loses those fields.
   */
  lemma SkippedFieldsIgnored(cfg: SpiderConfig, index: nat, found: Value, kind: string, a: map<Key, Value>,
                             b: map<Key, Value>, fs: seq<Value>, filename: Value)
    requires ParseObject(cfg, found) == Success(Dict(b))
    requires Get(cfg.settings, SkipSetting(Text(kind)), List([])) == List(fs)
    requires forall i :: 0 <= i < |fs| ==> !Hash(fs[i]).Unhashable?
    requires a - FieldKeys(fs) == b - FieldKeys(fs)
    ensures CompareItems(cfg, index, found, Entry(kind, Dict(a)), filename) == Success(Dict(b - FieldKeys(fs)))
  {
    CleanDicts(a, b, fs);
  }

  /** A difference outside the skipped fields is reported with the item's index and the filename. */
  lemma OtherFieldsCompared(cfg: SpiderConfig, index: nat, found: Value, kind: string, a: map<Key, Value>,
                            b: map<Key, Value>, fs: seq<Value>, filename: Value)
    requires ParseObject(cfg, found) == Success(Dict(b))
    requires Get(cfg.settings, SkipSetting(Text(kind)), List([])) == List(fs)
    requires forall i :: 0 <= i < |fs| ==> !Hash(fs[i]).Unhashable?
    requires a - FieldKeys(fs) != b - FieldKeys(fs)
    ensures CompareItems(cfg, index, found, Entry(kind, Dict(a)), filename) == Failure(ItemMismatch(index, filename))
  {
    CleanDicts(a, b, fs);
  }

  /**
   * How one found item is judged against one recorded entry, given its
   * 1-based index: the error, or the found item as the check leaves it.
   */
  type ItemCheck = (nat, Value, Value) -> Result<Value>

  /**
   * The found item once `_compare_items` has passed on it.  `parse_object`
   * rewrites dicts and lists in place and returns Items as they are, and
   * `_clean` pops from that same object, so these become the compared data;
   * requests, responses, tuples and plain values are copied before any
   * change, so the item itself stays as it was.
   */
  function ItemAfterCompare(cfg: SpiderConfig, index: nat, found: Value, expected: Value, filename: Value): (r: Result<Value>)
    ensures r.Success? <==> CompareItems(cfg, index, found, expected, filename).Success?
    ensures r.Failure? ==> r.error == CompareItems(cfg, index, found, expected, filename).error
    ensures r.Success? && (found.Dict? || found.List? || found.Item?) ==> r.value == CompareItems(cfg, index, found, expected, filename).value
    ensures r.Success? && !(found.Dict? || found.List? || found.Item?) ==> r.value == found
  {
    match CompareItems(cfg, index, found, expected, filename)
    case Failure(e) => Failure(e)
    case Success(data) => if found.Dict? || found.List? || found.Item? then Success(data) else Success(found)
  }

  /** `_compare_items` for one spider and one cassette. */
  function ItemChecker(cfg: SpiderConfig, filename: Value): (check: ItemCheck)
    ensures forall index, found, expected :: check(index, found, expected) == ItemAfterCompare(cfg, index, found, expected, filename)
  {
    (index: nat, found: Value, expected: Value) => ItemAfterCompare(cfg, index, found, expected, filename)
  }

  /**
   * A skipped field of a found dict is gone from the dict once it has been
   * compared: with `ts` skipped, `{'a': 1, 'ts': 5}` against a recording of
   * `{'a': 1, 'ts': 3}` passes and is left as `{'a': 1}`.
   */
  lemma SkippedFieldLeavesFoundDict(cfg: SpiderConfig, filename: Value)
    requires cfg.settings == map[SkippedFields := List([Text("ts")])]
    ensures var found := Dict(map[KText("a") := Int(1), KText("ts") := Int(5)]);
      var recorded := Entry("item", Dict(map[KText("a") := Int(1), KText("ts") := Int(3)]));
      ItemChecker(cfg, filename)(1, found, recorded) == Success(Dict(map[KText("a") := Int(1)]))
  {
    var b := map[KText("a") := Int(1), KText("ts") := Int(5)];
    var a := map[KText("a") := Int(1), KText("ts") := Int(3)];
    var fs := [Text("ts")];
    assert FieldKeys(fs) == {KText("ts")} by {
      assert Hash(fs[0]) == AsKey(KText("ts"));
      assert fs[1..] == [];
    }
    PlainDictParsed(cfg, b);
    assert a - FieldKeys(fs) == map[KText("a") := Int(1)] == b - FieldKeys(fs);
    SkippedFieldsIgnored(cfg, 1, Dict(b), "item", a, b, fs, filename);
  }

  /** A dict of plain integers parses to itself. */
  lemma PlainDictParsed(cfg: SpiderConfig, b: map<Key, Value>)
    requires b == map[KText("a") := Int(1), KText("ts") := Int(5)]
    ensures ParseObject(cfg, Dict(b)) == Success(Dict(b))
  {
    assert Leaf(Int(1)) && Leaf(Int(5));
    var e := ParseEntries(cfg, b, Dict(b));
    assert e.Success?;
    assert e.value == b;
  }

  /**
   * `_compare_outputs` as a function of what is left of both iterators:
   * pairs are compared in order, a surplus on either side is counted; the
   * result holds each found item as its check leaves it.
   */
  function CompareSpec(check: ItemCheck, found: seq<Value>, expected: seq<Value>, index: nat, filename: Value): (r: Result<seq<Value>>)
    ensures r.Success? ==> |r.value| == |found| == |expected|
    ensures r.Success? ==> forall j :: 0 <= j < |found| ==> check(index + j, found[j], expected[j]) == Success(r.value[j])
    decreases |found|
  {
    if found == [] then
      if expected == [] then Success([]) else Failure(MoreExpected(Len(expected[1..]), filename))
    else if expected == [] then Failure(MoreFound(Len(found[1..]), filename))
    else
      match check(index, found[0], expected[0])
      case Failure(e) => Failure(e)
      case Success(item) =>
        match CompareSpec(check, found[1..], expected[1..], index + 1, filename)
        case Failure(e) => Failure(e)
        case Success(rest) =>
          assert forall j :: 0 < j < |found| ==>
            (found[1..][j - 1] == found[j] && expected[1..][j - 1] == expected[j] && index + 1 + (j - 1) == index + j);
          Success([item] + rest)
  }

  /**
   * `_compare_outputs`: walks the found items, taking the recorded entry
   * for each; returns the found items in order, as their checks leave them.
   */
  method CompareOutputs(check: ItemCheck, found: seq<Value>, expected: seq<Value>, filename: Value) returns (r: Result<seq<Value>>)
    ensures r == CompareSpec(check, found, expected, 1, filename)
  {
    var out := [];
    var i := 0;
    while i < |found|
      invariant 0 <= i <= |found| && |out| == i && i <= |expected|
      invariant forall j :: 0 <= j < i ==> check(1 + j, found[j], expected[j]) == Success(out[j])
      invariant CompareRest(check, found, expected, filename, i)
    {
      if i == |expected| {
        CompareStepMore(check, found, expected, filename, i);
        return Failure(MoreFound(Len(found[i + 1..]), filename));
      }
      var verdict := check(i + 1, found[i], expected[i]);
      CompareStep(check, found, expected, filename, i);
      if verdict.Failure? {
        return Failure(verdict.error);
      }
      out := out + [verdict.value];
      i := i + 1;
    }
    CompareStepEnd(check, found, expected, filename, i);
    if i < |expected| {
      return Failure(MoreExpected(Len(expected[i + 1..]), filename));
    }
    PassedGives(check, found, expected, 1, filename, out);
    return Success(out);
  }

  /** A passing comparison returns, item by item, what the checks returned. */
  lemma PassedGives(check: ItemCheck, found: seq<Value>, expected: seq<Value>, index: nat, filename: Value, out: seq<Value>)
    requires |out| == |found| && CompareSpec(check, found, expected, index, filename).Success?
    requires forall j :: 0 <= j < |found| ==> check(index + j, found[j], expected[j]) == Success(out[j])
    ensures CompareSpec(check, found, expected, index, filename) == Success(out)
  {
    var whole := CompareSpec(check, found, expected, index, filename);
    assert forall j :: 0 <= j < |out| ==> out[j] == whole.value[j];
    assert out == whole.value;
  }

  /** The comparison from the start fails exactly as the comparison of what is left after `i` pairs. */
  predicate CompareRest(check: ItemCheck, found: seq<Value>, expected: seq<Value>, filename: Value, i: nat)
    requires i <= |found| && i <= |expected|
  {
    var whole := CompareSpec(check, found, expected, 1, filename);
    var rest := CompareSpec(check, found[i..], expected[i..], 1 + i, filename);
    whole.Failure? == rest.Failure? && (whole.Failure? ==> whole.error == rest.error)
  }

  lemma CompareStep(check: ItemCheck, found: seq<Value>, expected: seq<Value>, filename: Value, i: nat)
    requires i < |found| && i < |expected| && CompareRest(check, found, expected, filename, i)
    ensures check(i + 1, found[i], expected[i]).Failure? ==>
      CompareSpec(check, found, expected, 1, filename) == Failure(check(i + 1, found[i], expected[i]).error)
    ensures check(i + 1, found[i], expected[i]).Success? ==> CompareRest(check, found, expected, filename, i + 1)
  {
    assert found[i..][0] == found[i] && found[i..][1..] == found[i + 1..];
    assert expected[i..][0] == expected[i] && expected[i..][1..] == expected[i + 1..];
  }

  lemma CompareStepMore(check: ItemCheck, found: seq<Value>, expected: seq<Value>, filename: Value, i: nat)
    requires i < |found| && i == |expected| && CompareRest(check, found, expected, filename, i)
    ensures CompareSpec(check, found, expected, 1, filename) == Failure(MoreFound(Len(found[i + 1..]), filename))
  {
    assert found[i..][1..] == found[i + 1..];
    assert expected[i..] == [];
  }

  lemma CompareStepEnd(check: ItemCheck, found: seq<Value>, expected: seq<Value>, filename: Value, i: nat)
    requires i == |found| && i <= |expected| && CompareRest(check, found, expected, filename, i)
    ensures i < |expected| ==> CompareSpec(check, found, expected, 1, filename) == Failure(MoreExpected(Len(expected[i + 1..]), filename))
    ensures i == |expected| ==> CompareSpec(check, found, expected, 1, filename).Success?
  {
    assert found[i..] == [];
    if i < |expected| {
      assert expected[i..][1..] == expected[i + 1..];
    } else {
      assert expected[i..] == [];
    }
  }

  /** Every pair up to `n` compares equal, counting from `index`. */
  predicate PairsMatch(check: ItemCheck, found: seq<Value>, expected: seq<Value>, n: nat, index: nat)
    requires n <= |found| && n <= |expected|
  {
    forall j :: 0 <= j < n ==> check(index + j, found[j], expected[j]).Success?
  }

  /** Matching pairs from `index` on are matching pairs of the tails from `index + 1` on. */
  lemma PairsMatchTail(check: ItemCheck, found: seq<Value>, expected: seq<Value>, n: nat, index: nat)
    requires 0 < n <= |found| && n <= |expected| && PairsMatch(check, found, expected, n, index)
    ensures check(index, found[0], expected[0]).Success?
    ensures PairsMatch(check, found[1..], expected[1..], n - 1, index + 1)
  {
    assert check(index + 0, found[0], expected[0]).Success?;
    forall j | 0 <= j < n - 1 ensures check(index + 1 + j, found[1..][j], expected[1..][j]).Success? {
      assert check(index + (j + 1), found[j + 1], expected[j + 1]).Success?;
    }
  }

  /** When the callback yields more than was recorded, the surplus is reported. */
  lemma {:induction false} MoreFoundCounted(check: ItemCheck, found: seq<Value>, expected: seq<Value>, index: nat, filename: Value)
    requires |found| > |expected|
    requires PairsMatch(check, found, expected, |expected|, index)
    ensures CompareSpec(check, found, expected, index, filename) == Failure(MoreFound(|found| - |expected|, filename))
    decreases |expected|
  {
    if expected != [] {
      PairsMatchTail(check, found, expected, |expected|, index);
      MoreFoundCounted(check, found[1..], expected[1..], index + 1, filename);
    }
  }

  /** When fewer items are found than were recorded, the missing ones are counted. */
  lemma {:induction false} MoreExpectedCounted(check: ItemCheck, found: seq<Value>, expected: seq<Value>, index: nat, filename: Value)
    requires |found| < |expected|
    requires PairsMatch(check, found, expected, |found|, index)
    ensures CompareSpec(check, found, expected, index, filename) == Failure(MoreExpected(|expected| - |found|, filename))
    decreases |found|
  {
    if found != [] {
      PairsMatchTail(check, found, expected, |found|, index);
      MoreExpectedCounted(check, found[1..], expected[1..], index + 1, filename);
    }
  }

  /** The first pair that differs decides the outcome; no later pair is looked at. */
  lemma {:induction false} FirstMismatchReported(check: ItemCheck, found: seq<Value>, expected: seq<Value>, index: nat, filename: Value, i: nat)
    requires i < |found| && i < |expected|
    requires PairsMatch(check, found, expected, i, index)
    requires check(index + i, found[i], expected[i]).Failure?
    ensures CompareSpec(check, found, expected, index, filename) == Failure(check(index + i, found[i], expected[i]).error)
    decreases i
  {
    if i > 0 {
      PairsMatchTail(check, found, expected, i, index);
      FirstMismatchReported(check, found[1..], expected[1..], index + 1, filename, i - 1);
    }
  }

  /** Equal lengths and equal pairs: the comparison passes. */
  lemma {:induction false} AllMatchPasses(check: ItemCheck, found: seq<Value>, expected: seq<Value>, index: nat, filename: Value)
    requires |found| == |expected|
    requires PairsMatch(check, found, expected, |found|, index)
    ensures CompareSpec(check, found, expected, index, filename).Success?
    decreases |found|
  {
    if found != [] {
      PairsMatchTail(check, found, expected, |found|, index);
      AllMatchPasses(check, found[1..], expected[1..], index + 1, filename);
    }
  }

  /** A check that leaves every found item as it was returns the found items themselves. */
  lemma PassedUnchanged(check: ItemCheck, found: seq<Value>, expected: seq<Value>, index: nat, filename: Value)
    requires |found| == |expected|
    requires forall j :: 0 <= j < |found| ==> check(index + j, found[j], expected[j]) == Success(found[j])
    ensures CompareSpec(check, found, expected, index, filename) == Success(found)
  {
    assert PairsMatch(check, found, expected, |found|, index);
    AllMatchPasses(check, found, expected, index, filename);
    var r := CompareSpec(check, found, expected, index, filename);
    assert forall j :: 0 <= j < |found| ==> r.value[j] == found[j];
    assert r.value == found;
  }

  /**
   * Replaying an output against the entries recorded from it passes when
   * no skip fields are configured: recording and comparison agree, and
   * each found dict, list or Item is left as its parsed form.
   */
  lemma ReplayOfRecordingPasses(cfg: SpiderConfig, output: seq<Value>, filename: Value)
    requires TagAll(cfg, output).Success?
    requires SkippedFields !in cfg.settings && RequestSkippedFields !in cfg.settings
    ensures var r := CompareSpec(ItemChecker(cfg, filename), output, TagAll(cfg, output).value, 1, filename);
      r.Success? &&
      forall j :: 0 <= j < |output| ==>
        r.value[j] == if output[j].Dict? || output[j].List? || output[j].Item? then ParseObject(cfg, output[j]).value else output[j]
  {
    var recorded := TagAll(cfg, output).value;
    var check := ItemChecker(cfg, filename);
    assert |recorded| == |output|;
    forall j | 0 <= j < |output| ensures check(1 + j, output[j], recorded[j]).Success? {
      RecordedEntryPasses(cfg, 1 + j, output[j], filename);
    }
    assert PairsMatch(check, output, recorded, |output|, 1);
    AllMatchPasses(check, output, recorded, 1, filename);
    forall j | 0 <= j < |output|
      ensures CompareItems(cfg, 1 + j, output[j], recorded[j], filename) == Success(ParseObject(cfg, output[j]).value)
    {
      RecordedEntryPasses(cfg, 1 + j, output[j], filename);
    }
  }

  /** One output element against the entry recorded from it: it passes, as its parsed data. */
  lemma RecordedEntryPasses(cfg: SpiderConfig, index: nat, elem: Value, filename: Value)
    requires Tag(cfg, elem).Success?
    requires SkippedFields !in cfg.settings && RequestSkippedFields !in cfg.settings
    ensures ParseObject(cfg, elem).Success?
    ensures CompareItems(cfg, index, elem, Tag(cfg, elem).value, filename) == Success(ParseObject(cfg, elem).value)
  {
    TagMeaning(cfg, elem);
    var e := Tag(cfg, elem).value;
    var data := e.entries[KText("data")];
    assert Lookup(e, "data") == Success(data);
    assert ParseObject(cfg, elem) == Success(data);
    var fields := Get(cfg.settings, SkipSetting(e.entries[KText("type")]), List([]));
    assert fields == List([]);
    assert CleanF(data, data, fields) == Success((data, data));
  }

  // ---------------------------------------------------------------------
  // Attribute comparison (_compare_attrs)
  // ---------------------------------------------------------------------

  /** The three snapshots of the spider's recordable attributes. */
  datatype Snapshots = Snapshots(init: map<string, Value>, input: map<string, Value>, output: map<string, Value>)

  /** A snapshot as the dict the cassette holds. */
  function AttrsValue(attrs: map<string, Value>): Value {
    Dict(TextKeyed(attrs))
  }

  /** `_compare_attrs`: init, then input, then output attributes, each with its own label. */
  function CompareAttrs(c: Cassette, snaps: Snapshots): (r: Outcome)
    ensures r.Pass? <==>
      c.initAttrs == AttrsValue(snaps.init) && c.inputAttrs == AttrsValue(snaps.input) && c.outputAttrs == AttrsValue(snaps.output)
    ensures c.initAttrs != AttrsValue(snaps.init) ==> r == Fail(AttrsMismatch(InitLabel, c.filename))
    ensures c.initAttrs == AttrsValue(snaps.init) && c.inputAttrs != AttrsValue(snaps.input) ==>
      r == Fail(AttrsMismatch(InputLabel, c.filename))
    ensures (c.initAttrs == AttrsValue(snaps.init) && c.inputAttrs == AttrsValue(snaps.input) &&
             c.outputAttrs != AttrsValue(snaps.output)) ==> r == Fail(AttrsMismatch(OutputLabel, c.filename))
  {
    if c.initAttrs != AttrsValue(snaps.init) then Fail(AttrsMismatch(InitLabel, c.filename))
    else if c.inputAttrs != AttrsValue(snaps.input) then Fail(AttrsMismatch(InputLabel, c.filename))
    else if c.outputAttrs != AttrsValue(snaps.output) then Fail(AttrsMismatch(OutputLabel, c.filename))
    else Pass
  }

  // ---------------------------------------------------------------------
  // Middlewares (_get_middlewares) and their hooks
  // ---------------------------------------------------------------------

  /** A loaded middleware object, by the hooks it defines. */
  datatype Hook = Hook(name: string, hasInput: bool, hasOutput: bool)

  /** How a middleware path is turned into an object; NotConfigured means "skip it". */
  function Instantiate(path: Value, settings: Settings, crawler: Crawler,
                       load: Value -> Result<ComponentClass>,
                       construct: (ComponentClass, Factory) -> Result<Hook>): (r: Result<Hook>)
    ensures load(path).Failure? ==> r == Failure(load(path).error)
    ensures load(path).Success? && load(path).value.hasFromCrawler ==> r == construct(load(path).value, FromCrawler(crawler))
    ensures load(path).Success? && !load(path).value.hasFromCrawler && load(path).value.hasFromSettings ==>
      r == construct(load(path).value, FromSettings(settings))
    ensures load(path).Success? && !load(path).value.hasFromCrawler && !load(path).value.hasFromSettings ==>
      r == construct(load(path).value, Constructor)
  {
    match load(path)
    case Failure(e) => Failure(e)
    case Success(cls) =>
      match CreateInstance(cls, Some(settings), Some(crawler))
      case Failure(e) => Failure(e)
      case Success(factory) => construct(cls, factory)
  }

  /** The loaded chain: NotConfigured entries dropped, any other error raised. */
  function LoadChain(results: seq<Result<Hook>>): (r: Result<seq<Hook>>)
    ensures r.Success? <==> forall i :: 0 <= i < |results| ==> results[i].Success? || results[i].error.NotConfigured?
    ensures r.Success? ==> |r.value| <= |results|
    decreases |results|
  {
    if results == [] then Success([])
    else
      match results[0]
      case Failure(e) => if e.NotConfigured? then LoadChain(results[1..]) else Failure(e)
      case Success(h) =>
        match LoadChain(results[1..])
        case Failure(e) => Failure(e)
        case Success(rest) => Success([h] + rest)
  }

  /** Loading a chain piecewise: the kept entries of a concatenation are the kept entries of each part. */
  lemma {:induction false} LoadChainAppend(a: seq<Result<Hook>>, b: seq<Result<Hook>>)
    requires LoadChain(a).Success? && LoadChain(b).Success?
    ensures LoadChain(a + b) == Success(LoadChain(a).value + LoadChain(b).value)
    decreases |a|
  {
    if a != [] {
      assert (a + b)[0] == a[0] && (a + b)[1..] == a[1..] + b;
      LoadChainAppend(a[1..], b);
      if a[0].Success? {
        assert [a[0].value] + (LoadChain(a[1..]).value + LoadChain(b).value) ==
          [a[0].value] + LoadChain(a[1..]).value + LoadChain(b).value;
      }
    } else {
      assert a + b == b && LoadChain(a) == Success([]);
      assert LoadChain(a).value + LoadChain(b).value == LoadChain(b).value;
    }
  }

  /** A chain none of whose entries refuses keeps every middleware, in order. */
  lemma {:induction false} LoadChainKeepsAll(hooks: seq<Hook>)
    ensures LoadChain(seq(|hooks|, i requires 0 <= i < |hooks| => Success(hooks[i]))) == Success(hooks)
    decreases |hooks|
  {
    var rs := seq(|hooks|, i requires 0 <= i < |hooks| => Success(hooks[i]));
    if hooks != [] {
      LoadChainKeepsAll(hooks[1..]);
      assert rs[0] == Success(hooks[0]);
      assert rs[1..] == seq(|hooks[1..]|, i requires 0 <= i < |hooks[1..]| => Success(hooks[1..][i]));
      assert hooks == [hooks[0]] + hooks[1..];
    } else {
      assert rs == [];
    }
  }

  /** A middleware that refuses with NotConfigured is simply left out. */
  lemma LoadChainSkipsRefused(a: seq<Result<Hook>>, msg: string, b: seq<Result<Hook>>)
    requires LoadChain(a).Success? && LoadChain(b).Success?
    ensures LoadChain(a + [Failure(NotConfigured(msg))] + b) == LoadChain(a + b)
  {
    LoadChainAppend([Failure(NotConfigured(msg))], b);
    LoadChainAppend(a, [Failure(NotConfigured(msg))] + b);
    LoadChainAppend(a, b);
    assert a + [Failure(NotConfigured(msg))] + b == a + ([Failure(NotConfigured(msg))] + b);
  }

  /** `_get_middlewares`: instantiate every recorded path, skipping the refused ones. */
  method LoadMiddlewares(paths: seq<Value>, settings: Settings, crawler: Crawler,
                         load: Value -> Result<ComponentClass>,
                         construct: (ComponentClass, Factory) -> Result<Hook>) returns (r: Result<seq<Hook>>)
    ensures r == LoadChain(seq(|paths|, i requires 0 <= i < |paths| => Instantiate(paths[i], settings, crawler, load, construct)))
  {
    ghost var results := seq(|paths|, i requires 0 <= i < |paths| => Instantiate(paths[i], settings, crawler, load, construct));
    var hooks := [];
    var i := 0;
    while i < |paths|
      invariant 0 <= i <= |paths|
      invariant LoadChain(results[..i]) == Success(hooks)
    {
      var one := Instantiate(paths[i], settings, crawler, load, construct);
      assert results[..i + 1] == results[..i] + [one];
      if one.Failure? && !one.error.NotConfigured? {
        FirstLoadFailure(results, i);
        return Failure(one.error);
      }
      assert [one][1..] == [];
      LoadChainAppend(results[..i], [one]);
      if one.Success? {
        assert LoadChain([one][1..]) == Success([]) && [one.value] + [] == [one.value];
        assert LoadChain([one]) == Success([one.value]);
        hooks := hooks + [one.value];
      } else {
        assert LoadChain([one]) == Success([]);
        assert hooks + [] == hooks;
      }
      i := i + 1;
    }
    assert results[..i] == results;
    return Success(hooks);
  }

  /** The first entry that fails other than with NotConfigured decides the error. */
  lemma {:induction false} FirstLoadFailure(results: seq<Result<Hook>>, i: nat)
    requires i < |results| && results[i].Failure? && !results[i].error.NotConfigured?
    requires LoadChain(results[..i]).Success?
    ensures LoadChain(results) == Failure(results[i].error)
    decreases i
  {
    if i == 0 {
    } else {
      assert results[..i][0] == results[0];
      assert results[..i][1..] == results[1..][..i - 1];
      FirstLoadFailure(results[1..], i - 1);
    }
  }

  /** The input hooks, in recorded order, each acting on the spider's attributes. */
  function InputChain(mws: seq<Hook>, attrs: map<string, Value>,
                      inputEffect: (Hook, map<string, Value>) -> map<string, Value>): map<string, Value>
    decreases |mws|
  {
    if mws == [] then attrs
    else InputChain(mws[1..], if mws[0].hasInput then inputEffect(mws[0], attrs) else attrs, inputEffect)
  }

  /** The output hooks applied one after the other, in the given order. */
  function OutputChain(mws: seq<Hook>, out: seq<Value>, outputEffect: (Hook, seq<Value>) -> seq<Value>): seq<Value>
    decreases |mws|
  {
    if mws == [] then out
    else OutputChain(mws[1..], if mws[0].hasOutput then outputEffect(mws[0], out) else out, outputEffect)
  }

  /**
   * The reference order of output hooks: the first recorded middleware
   * wraps all the others, so its hook sees the output last.
   */
  function Onion(mws: seq<Hook>, out: seq<Value>, outputEffect: (Hook, seq<Value>) -> seq<Value>): (r: seq<Value>)
    ensures (forall i :: 0 <= i < |mws| ==> !mws[i].hasOutput) ==> r == out
    ensures |mws| == 1 && mws[0].hasOutput ==> r == outputEffect(mws[0], out)
    decreases |mws|
  {
    if mws == [] then out
    else
      var inner := Onion(mws[1..], out, outputEffect);
      if mws[0].hasOutput then outputEffect(mws[0], inner) else inner
  }

  function Reversed<T>(s: seq<T>): (r: seq<T>)
    ensures |r| == |s| && forall i :: 0 <= i < |s| ==> r[i] == s[|s| - 1 - i]
    decreases |s|
  {
    if s == [] then [] else Reversed(s[1..]) + [s[0]]
  }

  /** Peeling the last middleware off the onion: it is the innermost one. */
  lemma {:induction false} OnionLast(mws: seq<Hook>, m: Hook, out: seq<Value>, outputEffect: (Hook, seq<Value>) -> seq<Value>)
    ensures Onion(mws + [m], out, outputEffect) == Onion(mws, if m.hasOutput then outputEffect(m, out) else out, outputEffect)
    decreases |mws|
  {
    if mws != [] {
      assert (mws + [m])[1..] == mws[1..] + [m];
      OnionLast(mws[1..], m, out, outputEffect);
    }
  }

  /** Running the output hooks over the reversed chain is the onion of the recorded chain. */
  lemma {:induction false} ReversedChainIsOnion(mws: seq<Hook>, out: seq<Value>, outputEffect: (Hook, seq<Value>) -> seq<Value>)
    ensures OutputChain(Reversed(mws), out, outputEffect) == Onion(mws, out, outputEffect)
    decreases |mws|
  {
    if mws != [] {
      var init, m := mws[..|mws| - 1], mws[|mws| - 1];
      assert mws == init + [m];
      var rev := Reversed(mws);
      assert rev[0] == m;
      assert rev[1..] == Reversed(init);
      var out1 := if m.hasOutput then outputEffect(m, out) else out;
      ReversedChainIsOnion(init, out1, outputEffect);
      OnionLast(init, m, out, outputEffect);
    }
  }

  /** The input-hook loop of `playback`. */
  method RunInputHooks(spider: Spider, mws: seq<Hook>, inputEffect: (Hook, map<string, Value>) -> map<string, Value>)
    modifies spider
    ensures spider.attrs == InputChain(mws, old(spider.attrs), inputEffect)
  {
    var i := 0;
    while i < |mws|
      invariant 0 <= i <= |mws|
      invariant InputChain(mws, old(spider.attrs), inputEffect) == InputChain(mws[i..], spider.attrs, inputEffect)
    {
      assert mws[i..][0] == mws[i] && mws[i..][1..] == mws[i + 1..];
      if mws[i].hasInput {
        spider.attrs := inputEffect(mws[i], spider.attrs);
      }
      i := i + 1;
    }
  }

  /** The output-hook loop of `playback`, over the chain it has reversed in place. */
  method RunOutputHooks(mws: seq<Hook>, cbOutput: seq<Value>, outputEffect: (Hook, seq<Value>) -> seq<Value>) returns (out: seq<Value>)
    ensures out == Onion(mws, cbOutput, outputEffect)
  {
    var reversed := Reversed(mws);
    out := cbOutput;
    var i := 0;
    while i < |reversed|
      invariant 0 <= i <= |reversed|
      invariant OutputChain(reversed, cbOutput, outputEffect) == OutputChain(reversed[i..], out, outputEffect)
    {
      assert reversed[i..][0] == reversed[i] && reversed[i..][1..] == reversed[i + 1..];
      if reversed[i].hasOutput {
        out := outputEffect(reversed[i], out);
      }
      i := i + 1;
    }
    ReversedChainIsOnion(mws, cbOutput, outputEffect);
  }

  // ---------------------------------------------------------------------
  // playback
  // ---------------------------------------------------------------------

  /** `cassette.input_attrs.items()` as attribute assignments; names must be strings. */
  function InputAttrs(v: Value): (r: Result<map<string, Value>>)
    ensures r.Success? ==> (v.Dict? || v.Item?)
    ensures v.Dict? && (forall k :: k in v.entries ==> k.KText?) ==> r.Success? && TextKeyed(r.value) == v.entries
  {
    match v
    case Dict(m) => AttrsFrom(m)
    case Item(m) => AttrsFrom(m)
    case _ => Failure(AttributeError("items"))
  }

  function AttrsFrom(m: map<Key, Value>): (r: Result<map<string, Value>>)
    ensures (forall k :: k in m ==> k.KText?) ==> r.Success? && TextKeyed(r.value) == m
  {
    if exists k :: k in m && !k.KText? then Failure(TypeError("attribute name must be string"))
    else
      var attrs := map k | k in m :: k.s := m[k];
      assert forall k :: k in m ==> k == KText(k.s);
      Success(attrs)
  }

  /** `_http_objects`: the response class path popped from the recorded response, with its default. */
  function ResponseClass(response: Value): (r: Result<(Value, map<Key, Value>)>)
    ensures r.Success? ==> response.Dict? && KText("cls") !in r.value.1
    ensures r.Success? ==> r.value.0 == GetOr(response.entries, "cls", Text(DefaultResponseClass))
    ensures r.Success? ==> r.value.1 == response.entries - {KText("cls")}
    ensures response.Dict? ==> r.Success?
  {
    match response
    case Dict(m) => Success((GetOr(m, "cls", Text(DefaultResponseClass)), m - {KText("cls")}))
    case _ => Failure(AttributeError("pop"))
  }

  /**
   * The cassette once `_http_objects` has popped `cls` from its recorded
   * response; only the response changes.
   */
  function Popped(c: Cassette): (r: Cassette)
    ensures r.(response := c.response) == c
    ensures ResponseClass(c.response).Success? ==> r.response == Dict(ResponseClass(c.response).value.1)
    ensures !c.response.Dict? ==> r == c
  {
    if c.response.Dict? then c.(response := Dict(c.response.entries - {KText("cls")})) else c
  }

  /** A response with `cls` popped is built with the default class, from what is left. */
  lemma PoppedResponseClass(m: map<Key, Value>)
    ensures ResponseClass(Dict(m - {KText("cls")})) == Success((Text(DefaultResponseClass), m - {KText("cls")}))
  {
    assert m - {KText("cls")} - {KText("cls")} == m - {KText("cls")};
  }

  /** Popping twice is popping once: a replayed cassette has no `cls` left to lose. */
  lemma PoppedIdempotent(c: Cassette)
    ensures Popped(Popped(c)) == Popped(c)
  {
    if c.response.Dict? {
      assert Popped(c).response.entries - {KText("cls")} == Popped(c).response.entries;
    }
  }

  /** What the outside world contributes to a replay. */
  datatype Environment = Environment(
    running: int,
    load: Value -> Result<ComponentClass>,
    construct: (ComponentClass, Factory) -> Result<Hook>,
    inputEffect: (Hook, map<string, Value>) -> map<string, Value>,
    callback: map<string, Value> -> (seq<Value>, map<string, Value>),
    outputEffect: (Hook, seq<Value>) -> seq<Value>)

  /** The result of `playback`: the found output, in order, and the three snapshots. */
  datatype Replay = Replay(out: seq<Value>, attrs: Snapshots)

  /** The middlewares `playback` loads from the cassette for a spider. */
  function LoadedChain(c: Cassette, cfg: SpiderConfig, env: Environment): (r: Result<seq<Hook>>)
    ensures Iterate(c.middlewares).Failure? ==> r == Failure(Iterate(c.middlewares).error)
    ensures r.Success? ==> Iterate(c.middlewares).Success? && |r.value| <= |Iterate(c.middlewares).value|
  {
    match Iterate(c.middlewares)
    case Failure(e) => Failure(e)
    case Success(paths) =>
      LoadChain(seq(|paths|, i requires 0 <= i < |paths| =>
        Instantiate(paths[i], cfg.settings, Crawler(cfg.settings), env.load, env.construct)))
  }

  /**
   * The phases of `playback` after the middlewares are loaded: input hooks
   * in recorded order, the callback, output hooks in reverse order, then
   * either the comparison or just the output snapshot.
   */
  function AfterLoad(c: Cassette, cfg: SpiderConfig, env: Environment, snaps: Snapshots, attrs: map<string, Value>,
                     mws: seq<Hook>, compare: bool): (r: (Result<Replay>, map<string, Value>))
    ensures r.1 == env.callback(InputChain(mws, attrs, env.inputEffect)).1
    ensures r.0.Success? ==>
      r.0.value.attrs.init == snaps.init && r.0.value.attrs.input == snaps.input &&
      SpiderAttrs(cfg, r.1) == Success(r.0.value.attrs.output)
    ensures compare && r.0.Success? ==> CompareAttrs(c, r.0.value.attrs) == Pass
  {
    var attrs2 := InputChain(mws, attrs, env.inputEffect);
    var (cbOut, attrs3) := env.callback(attrs2);
    var out := Onion(mws, cbOut, env.outputEffect);
    match Iterate(c.outputData)
    case Failure(e) => (Failure(e), attrs3)
    case Success(expected) =>
      if compare then
        match CompareSpec(ItemChecker(cfg, c.filename), out, expected, 1, c.filename)
        case Failure(e) => (Failure(e), attrs3)
        case Success(found) =>
          match SpiderAttrs(cfg, attrs3)
          case Failure(e) => (Failure(e), attrs3)
          case Success(output) =>
            var all := snaps.(output := output);
            match CompareAttrs(c, all)
            case Fail(e) => (Failure(e), attrs3)
            case Pass => (Success(Replay(found, all)), attrs3)
      else
        match SpiderAttrs(cfg, attrs3)
        case Failure(e) => (Failure(e), attrs3)
        case Success(output) => (Success(Replay(out, snaps.(output := output))), attrs3)
  }

  /**
   * What `playback` has in hand when the first hook is about to run: the
   * snapshots, the chain, and the arguments the response is built from.
   */
  datatype Prepared = Prepared(snaps: Snapshots, mws: seq<Hook>, responseArgs: map<Key, Value>)

  /**
   * The phases of `playback` before any hook runs, with the spider's
   * attributes after them: the version check comes first, the init
   * snapshot is taken before the recorded input attributes are set, the
   * input snapshot after.
   */
  function Prepare(c: Cassette, cfg: SpiderConfig, attrs0: map<string, Value>, env: Environment): (r: (Result<Prepared>, map<string, Value>))
    ensures c.pythonVersion != Int(env.running) ==> r == (Failure(VersionMismatch(c.pythonVersion, Int(env.running))), attrs0)
    ensures r.0.Success? ==> c.pythonVersion == Int(env.running) && InputAttrs(c.inputAttrs).Success?
    ensures r.0.Success? ==> r.1 == attrs0 + InputAttrs(c.inputAttrs).value
    ensures r.0.Success? ==> SpiderAttrs(cfg, attrs0) == Success(r.0.value.snaps.init)
    ensures r.0.Success? ==> SpiderAttrs(cfg, r.1) == Success(r.0.value.snaps.input) && r.0.value.snaps.output == map[]
    ensures r.0.Success? ==> ResponseClass(c.response).Success? && LoadedChain(c, cfg, env) == Success(r.0.value.mws)
    ensures r.0.Success? ==>
      KText("cls") !in r.0.value.responseArgs && r.0.value.responseArgs == c.response.entries - {KText("cls")} &&
      Popped(c).response == Dict(r.0.value.responseArgs)
    ensures r.1 == attrs0 || (InputAttrs(c.inputAttrs).Success? && r.1 == attrs0 + InputAttrs(c.inputAttrs).value)
  {
    match CheckPythonVersion(c, env.running)
    case Fail(e) => (Failure(e), attrs0)
    case Pass =>
      match SpiderAttrs(cfg, attrs0)
      case Failure(e) => (Failure(e), attrs0)
      case Success(init) =>
        match InputAttrs(c.inputAttrs)
        case Failure(e) => (Failure(e), attrs0)
        case Success(given) =>
          var attrs1 := attrs0 + given;
          var input := SpiderAttrs(cfg, attrs1).value;
          match ResponseClass(c.response)
          case Failure(e) => (Failure(e), attrs1)
          case Success((_, args)) =>
            match LoadedChain(c, cfg, env)
            case Failure(e) => (Failure(e), attrs1)
            case Success(mws) => (Success(Prepared(Snapshots(init, input, map[]), mws, args)), attrs1)
  }

  /**
   * `playback` as a function of the spider's attributes before it: the
   * result and the attributes after it.
   */
  function PlaybackSpec(c: Cassette, cfg: SpiderConfig, attrs0: map<string, Value>, env: Environment, compare: bool): (r: (Result<Replay>, map<string, Value>))
    ensures c.pythonVersion != Int(env.running) ==> r == (Failure(VersionMismatch(c.pythonVersion, Int(env.running))), attrs0)
    ensures r.0.Success? ==>
      Prepare(c, cfg, attrs0, env).0.Success? && SpiderAttrs(cfg, attrs0) == Success(r.0.value.attrs.init) &&
      SpiderAttrs(cfg, Prepare(c, cfg, attrs0, env).1) == Success(r.0.value.attrs.input) &&
      SpiderAttrs(cfg, r.1) == Success(r.0.value.attrs.output)
    ensures compare && r.0.Success? ==>
      c.initAttrs == AttrsValue(r.0.value.attrs.init) && c.inputAttrs == AttrsValue(r.0.value.attrs.input) &&
      c.outputAttrs == AttrsValue(r.0.value.attrs.output)
  {
    var (p, attrs1) := Prepare(c, cfg, attrs0, env);
    match p
    case Failure(e) => (Failure(e), attrs1)
    case Success(prepared) => AfterLoad(Popped(c), cfg, env, prepared.snaps, attrs1, prepared.mws, compare)
  }

  /**
   * The replay driver, holding the cassette and the spider built from it;
   * a replay pops `cls` from the cassette's response.
   */
  class Replayer {
    var cassette: Cassette
    const spider: Spider

    constructor (cassette: Cassette, spider: Spider)
      ensures this.cassette == cassette && this.spider == spider
    {
      this.cassette := cassette;
      this.spider := spider;
    }

    /** `setattr(spider, k, v)` for every recorded input attribute. */
    method ApplyInputAttrs(given: map<string, Value>)
      modifies spider
      ensures spider.attrs == old(spider.attrs) + given
    {
      var todo := given.Keys;
      ghost var done: set<string> := {};
      while todo != {}
        invariant todo + done == given.Keys && todo !! done
        invariant spider.attrs == old(spider.attrs) + map k | k in done :: given[k]
        decreases todo
      {
        var k :| k in todo;
        spider.attrs := spider.attrs[k := given[k]];
        todo := todo - {k};
        done := done + {k};
      }
      assert done == given.Keys;
      assert (map k | k in done :: given[k]) == given;
    }

    /**
     * `playback(compare)`: checks the python version, snapshots the
     * attributes, applies the recorded input attributes, loads the
     * middlewares, runs their input hooks, the callback and their output
     * hooks in reverse, then compares or only drains the output.
     */
    method Playback(env: Environment, compare: bool) returns (r: Result<Replay>)
      modifies this, spider
      ensures (r, spider.attrs) == PlaybackSpec(old(cassette), spider.config, old(spider.attrs), env, compare)
      ensures cassette == old(cassette) || cassette == Popped(old(cassette))
      ensures r.Success? ==> cassette == Popped(old(cassette))
    {
      var prepared := PrepareReplay(env);
      if prepared.Failure? {
        r := Failure(prepared.error);
      } else {
        r := RunPhases(env, prepared.value.snaps, prepared.value.mws, compare);
      }
    }

    /** The phases before any hook runs. */
    method PrepareReplay(env: Environment) returns (r: Result<Prepared>)
      modifies this, spider
      ensures (r, spider.attrs) == Prepare(old(cassette), spider.config, old(spider.attrs), env)
      ensures cassette == old(cassette) || cassette == Popped(old(cassette))
      ensures r.Success? ==> cassette == Popped(old(cassette))
    {
      var cfg := spider.config;
      var version := CheckPythonVersion(cassette, env.running);
      if version.Fail? {
        return Failure(version.error);
      }
      var init := SpiderAttrs(cfg, spider.attrs);
      if init.Failure? {
        return Failure(init.error);
      }
      var given := InputAttrs(cassette.inputAttrs);
      if given.Failure? {
        return Failure(given.error);
      }
      ApplyInputAttrs(given.value);
      var input := SpiderAttrs(cfg, spider.attrs);
      var http := ResponseClass(cassette.response);
      if http.Failure? {
        return Failure(http.error);
      }
      cassette := cassette.(response := Dict(http.value.1));
      var paths := Iterate(cassette.middlewares);
      if paths.Failure? {
        return Failure(paths.error);
      }
      var mws := LoadMiddlewares(paths.value, cfg.settings, Crawler(cfg.settings), env.load, env.construct);
      if mws.Failure? {
        return Failure(mws.error);
      }
      return Success(Prepared(Snapshots(init.value, input.value, map[]), mws.value, http.value.1));
    }

    /** The phases after loading: hooks, callback, comparison or draining. */
    method RunPhases(env: Environment, snaps: Snapshots, mws: seq<Hook>, compare: bool) returns (r: Result<Replay>)
      modifies spider
      ensures (r, spider.attrs) == AfterLoad(cassette, spider.config, env, snaps, old(spider.attrs), mws, compare)
    {
      var cfg := spider.config;
      RunInputHooks(spider, mws, env.inputEffect);
      var called := env.callback(spider.attrs);
      spider.attrs := called.1;
      var out := RunOutputHooks(mws, called.0, env.outputEffect);
      var expected := Iterate(cassette.outputData);
      if expected.Failure? {
        return Failure(expected.error);
      }
      if compare {
        var found := CompareOutputs(ItemChecker(cfg, cassette.filename), out, expected.value, cassette.filename);
        if found.Failure? {
          return Failure(found.error);
        }
        var output := SpiderAttrs(cfg, spider.attrs);
        if output.Failure? {
          return Failure(output.error);
        }
        var all := snaps.(output := output.value);
        var verdict := CompareAttrs(cassette, all);
        if verdict.Fail? {
          return Failure(verdict.error);
        }
        return Success(Replay(found.value, all));
      } else {
        var drained := out;
        var output := SpiderAttrs(cfg, spider.attrs);
        if output.Failure? {
          return Failure(output.error);
        }
        return Success(Replay(drained, snaps.(output := output.value)));
      }
    }
  }

  /**
   * Without comparison the whole output of the output hooks is returned
   * and no comparison error can arise.
   */
  lemma NoCompareDrains(c: Cassette, cfg: SpiderConfig, env: Environment, snaps: Snapshots, attrs: map<string, Value>, mws: seq<Hook>)
    ensures var (r, _) := AfterLoad(c, cfg, env, snaps, attrs, mws, false);
      (r.Success? ==> r.value.out == Onion(mws, env.callback(InputChain(mws, attrs, env.inputEffect)).0, env.outputEffect)) &&
      (r.Failure? ==> !(r.error.MoreFound? || r.error.MoreExpected? || r.error.ItemMismatch? || r.error.AttrsMismatch?))
  {
  }

  /**
   * A replay whose comparison passes agrees with a replay without
   * comparison on the spider's attributes and the snapshots; its output is
   * the drained output as the item checks leave it.
   */
  lemma ComparePassedAgreesWithDrain(c: Cassette, cfg: SpiderConfig, attrs0: map<string, Value>, env: Environment)
    requires PlaybackSpec(c, cfg, attrs0, env, true).0.Success?
    ensures var (t, attrsT) := PlaybackSpec(c, cfg, attrs0, env, true);
      var (d, attrsD) := PlaybackSpec(c, cfg, attrs0, env, false);
      attrsT == attrsD && d.Success? && t.value.attrs == d.value.attrs && Iterate(c.outputData).Success? &&
      CompareSpec(ItemChecker(cfg, c.filename), d.value.out, Iterate(c.outputData).value, 1, c.filename) == Success(t.value.out)
  {
    var (p, attrs1) := Prepare(c, cfg, attrs0, env);
    AfterLoadAgrees(Popped(c), cfg, env, p.value.snaps, attrs1, p.value.mws);
  }

  /** The same agreement for the phases after the middlewares are loaded. */
  lemma AfterLoadAgrees(c: Cassette, cfg: SpiderConfig, env: Environment, snaps: Snapshots, attrs: map<string, Value>, mws: seq<Hook>)
    requires AfterLoad(c, cfg, env, snaps, attrs, mws, true).0.Success?
    ensures var (t, attrsT) := AfterLoad(c, cfg, env, snaps, attrs, mws, true);
      var (d, attrsD) := AfterLoad(c, cfg, env, snaps, attrs, mws, false);
      attrsT == attrsD && d.Success? && t.value.attrs == d.value.attrs && Iterate(c.outputData).Success? &&
      CompareSpec(ItemChecker(cfg, c.filename), d.value.out, Iterate(c.outputData).value, 1, c.filename) == Success(t.value.out)
  {
  }

  /**
   * When no fields are skipped and every drained item is already in parsed
   * form, the compared replay returns exactly what the drained one does.
   */
  lemma CompareAgreesOnParsedOutput(c: Cassette, cfg: SpiderConfig, attrs0: map<string, Value>, env: Environment)
    requires PlaybackSpec(c, cfg, attrs0, env, true).0.Success?
    requires SkippedFields !in cfg.settings && RequestSkippedFields !in cfg.settings
    requires var d := PlaybackSpec(c, cfg, attrs0, env, false).0;
      d.Success? && forall j :: 0 <= j < |d.value.out| ==> ParseObject(cfg, d.value.out[j]) == Success(d.value.out[j])
    ensures PlaybackSpec(c, cfg, attrs0, env, true) == PlaybackSpec(c, cfg, attrs0, env, false)
  {
    ComparePassedAgreesWithDrain(c, cfg, attrs0, env);
    var (t, attrsT) := PlaybackSpec(c, cfg, attrs0, env, true);
    var (d, attrsD) := PlaybackSpec(c, cfg, attrs0, env, false);
    ParsedOutputKept(cfg, c.filename, d.value.out, Iterate(c.outputData).value);
    assert t.value == Replay(d.value.out, d.value.attrs);
  }

  /** A comparison without skipped fields that passes on parsed items returns them as they were. */
  lemma ParsedOutputKept(cfg: SpiderConfig, filename: Value, out: seq<Value>, expected: seq<Value>)
    requires SkippedFields !in cfg.settings && RequestSkippedFields !in cfg.settings
    requires forall j :: 0 <= j < |out| ==> ParseObject(cfg, out[j]) == Success(out[j])
    requires CompareSpec(ItemChecker(cfg, filename), out, expected, 1, filename).Success?
    ensures CompareSpec(ItemChecker(cfg, filename), out, expected, 1, filename) == Success(out)
  {
    var check := ItemChecker(cfg, filename);
    forall j | 0 <= j < |out| ensures check(1 + j, out[j], expected[j]) == Success(out[j]) {
      NoSkipKeepsParsed(cfg, 1 + j, out[j], expected[j], filename);
    }
    PassedUnchanged(check, out, expected, 1, filename);
  }

  /** With no skipped fields, a passing check leaves an already parsed item as it was. */
  lemma NoSkipKeepsParsed(cfg: SpiderConfig, index: nat, found: Value, expected: Value, filename: Value)
    requires SkippedFields !in cfg.settings && RequestSkippedFields !in cfg.settings
    requires ParseObject(cfg, found) == Success(found)
    requires ItemAfterCompare(cfg, index, found, expected, filename).Success?
    ensures ItemAfterCompare(cfg, index, found, expected, filename) == Success(found)
  {
    var fields := Get(cfg.settings, SkipSetting(Lookup(expected, "type").value), List([]));
    assert fields == List([]);
  }
}

=== FILE: pytext.dfy ===
/**
 * The few Python `str` operations the package relies on: `int(s)` as a
 * recognizer and parser, `str.endswith`, `str.split(',')`, `str.rfind`.
 * Only ASCII whitespace and ASCII digits are recognised.
 */
module PyText {

  predicate IsDigit(c: char) { '0' <= c <= '9' }

  /** ASCII whitespace as `str.strip()` removes it. */
  predicate IsSpace(c: char) { c == ' ' || (9 <= c as int <= 13) }

  /** Characters that may occur in a string `int()` accepts. */
  predicate IsIntChar(c: char) { IsDigit(c) || IsSpace(c) || c == '+' || c == '-' || c == '_' }

  function StripLeft(s: string): (r: string)
    ensures |r| <= |s| && r == s[|s| - |r|..]
    ensures r != [] ==> !IsSpace(r[0])
  {
    if s != [] && IsSpace(s[0]) then StripLeft(s[1..]) else s
  }

  function StripRight(s: string): (r: string)
    ensures |r| <= |s| && r == s[..|r|]
    ensures r != [] ==> !IsSpace(r[|r| - 1])
  {
    if s != [] && IsSpace(s[|s| - 1]) then StripRight(s[..|s| - 1]) else s
  }

  function Strip(s: string): string {
    StripRight(StripLeft(s))
  }

  /** `digit (["_"] digit)*`: Python's decimal integer body. */
  predicate DigitGroups(s: string)
    decreases |s|
  {
    |s| >= 1 && IsDigit(s[0]) &&
    (|s| == 1 ||
     (s[1] == '_' && |s| >= 3 && DigitGroups(s[2..])) ||
     (s[1] != '_' && DigitGroups(s[1..])))
  }

  /** `int(s)` succeeds. */
  predicate IsPyInt(s: string) {
    var t := Strip(s);
    t != [] && (if t[0] == '+' || t[0] == '-' then DigitGroups(t[1..]) else DigitGroups(t))
  }

  /** The value of a run of digits and underscores. */
  function DigitsValue(s: string): nat
    decreases |s|
  {
    if s == [] then 0
    else if IsDigit(s[|s| - 1]) then DigitsValue(s[..|s| - 1]) * 10 + (s[|s| - 1] as int - '0' as int)
    else DigitsValue(s[..|s| - 1])
  }

  /** `int(s)` for a string it accepts. */
  function PyIntValue(s: string): int
    requires IsPyInt(s)
  {
    var t := Strip(s);
    if t[0] == '-' then 0 - DigitsValue(t[1..])
    else if t[0] == '+' then DigitsValue(t[1..])
    else DigitsValue(t)
  }

  lemma {:induction false} DigitGroupsChars(s: string)
    requires DigitGroups(s)
    ensures forall i :: 0 <= i < |s| ==> IsDigit(s[i]) || s[i] == '_'
    decreases |s|
  {
    if |s| == 1 {
    } else if s[1] == '_' && |s| >= 3 && DigitGroups(s[2..]) {
      DigitGroupsChars(s[2..]);
      assert forall i :: 2 <= i < |s| ==> s[i] == s[2..][i - 2];
    } else {
      DigitGroupsChars(s[1..]);
      assert forall i :: 1 <= i < |s| ==> s[i] == s[1..][i - 1];
    }
  }

  lemma {:induction false} StripLeftKeeps(s: string, i: int)
    requires 0 <= i < |s| && !IsSpace(s[i])
    ensures |s| - |StripLeft(s)| <= i
    decreases |s|
  {
    if s != [] && IsSpace(s[0]) {
      StripLeftKeeps(s[1..], i - 1);
    }
  }

  lemma {:induction false} StripRightKeeps(s: string, i: int)
    requires 0 <= i < |s| && !IsSpace(s[i])
    ensures i < |StripRight(s)|
    decreases |s|
  {
    if s != [] && IsSpace(s[|s| - 1]) {
      StripRightKeeps(s[..|s| - 1], i);
    }
  }

  /** A non-blank character survives `strip()` at its shifted position. */
  lemma StripKeeps(s: string, i: int)
    requires 0 <= i < |s| && !IsSpace(s[i])
    ensures var off := |s| - |StripLeft(s)|;
      off <= i < off + |Strip(s)| && Strip(s)[i - off] == s[i]
  {
    StripLeftKeeps(s, i);
    var l := StripLeft(s);
    var off := |s| - |l|;
    assert l[i - off] == s[i];
    StripRightKeeps(l, i - off);
  }

  /** The characters of an optionally signed digit-group body. */
  lemma SignedGroupsChars(t: string)
    requires t != [] && (if t[0] == '+' || t[0] == '-' then DigitGroups(t[1..]) else DigitGroups(t))
    ensures forall j :: 0 <= j < |t| ==> IsIntChar(t[j])
  {
    if t[0] == '+' || t[0] == '-' {
      DigitGroupsChars(t[1..]);
      forall j | 1 <= j < |t| ensures IsIntChar(t[j]) {
        assert t[j] == t[1..][j - 1];
      }
    } else {
      DigitGroupsChars(t);
    }
  }

  /** Every character of a string `int()` accepts is a digit, a sign, `_` or blank. */
  lemma PyIntChars(s: string)
    requires IsPyInt(s)
    ensures forall i :: 0 <= i < |s| ==> IsIntChar(s[i])
  {
    var t := Strip(s);
    SignedGroupsChars(t);
    forall i | 0 <= i < |s| ensures IsIntChar(s[i]) {
      if !IsSpace(s[i]) {
        StripKeeps(s, i);
        assert s[i] == t[i - (|s| - |StripLeft(s)|)];
      }
    }
  }

  /** A string with a character `int()` never accepts is not an integer literal. */
  lemma NotPyInt(s: string, i: int)
    requires 0 <= i < |s| && !IsIntChar(s[i])
    ensures !IsPyInt(s)
  {
    if IsPyInt(s) {
      PyIntChars(s);
    }
  }

  predicate EndsWith(s: string, suffix: string) {
    |suffix| <= |s| && s[|s| - |suffix|..] == suffix
  }

  /** `s.split(sep)` with a one-character separator. */
  function Split(s: string, sep: char): (r: seq<string>)
    ensures |r| >= 1
    ensures forall i :: 0 <= i < |r| ==> sep !in r[i]
    decreases |s|
  {
    if s == [] then [""]
    else
      var rest := Split(s[1..], sep);
      if s[0] == sep then [""] + rest
      else [[s[0]] + rest[0]] + rest[1..]
  }

  /** `s.rfind(c)`: the last index of `c`, or -1. */
  function LastIndexOf(s: string, c: char): (r: int)
    ensures -1 <= r < |s|
    ensures r >= 0 ==> s[r] == c
    ensures forall j :: r < j < |s| ==> s[j] != c
    decreases |s|
  {
    if s == [] then -1
    else if s[|s| - 1] == c then |s| - 1
    else LastIndexOf(s[..|s| - 1], c)
  }
}

=== FILE: scrapy.dfy ===
/**
 * The parts of Scrapy the package leans on, as far as they decide its
 * behaviour: the settings getters, the spider and crawler, and the
 * dict form of a request.  Scrapy itself is outside this model; these are
 * the given inputs and the documented semantics of its getters.
 */
module Scrapy {
  import opened Values
  import opened PyText

  /** A Settings object: setting name to value (priorities are not modelled). */
  type Settings = map<string, Value>

  /** `settings.get(name, default)`: a stored None counts as missing. */
  function Get(s: Settings, name: string, default: Value): Value {
    if name in s && s[name] != Null then s[name] else default
  }

  /** `settings.getlist(name, [])`: a string is split on commas. */
  function GetList(s: Settings, name: string): (r: Result<seq<Value>>)
    ensures name !in s ==> r == Success([])
  {
    var v := Get(s, name, List([]));
    if v.Text? then
      var parts := Split(v.s, ',');
      Success(seq(|parts|, i requires 0 <= i < |parts| => Text(parts[i])))
    else Iterate(v)
  }

  /**
   * The elements of `settings.getlist(name, [])` as a set, for callers
   * that do not depend on their order: a mapping gives its keys, whose
   * iteration order this model does not hold.
   */
  function GetNames(s: Settings, name: string): (r: Result<set<Value>>)
    ensures GetList(s, name).Success? ==> r == Success(set x | x in GetList(s, name).value)
    ensures GetList(s, name).Failure? && !Get(s, name, List([])).Dict? && !Get(s, name, List([])).Item? ==> r.Failure?
    ensures Get(s, name, List([])).Dict? ==> r == Success(set k | k in Get(s, name, List([])).entries :: KeyValue(k))
    ensures Get(s, name, List([])).Item? ==> r == Success(set k | k in Get(s, name, List([])).fields :: KeyValue(k))
  {
    match Get(s, name, List([]))
    case Dict(m) => Success(set k | k in m :: KeyValue(k))
    case Item(m) => Success(set k | k in m :: KeyValue(k))
    case _ =>
      match GetList(s, name)
      case Failure(e) => Failure(e)
      case Success(xs) => Success(set x | x in xs)
  }

  /** An unset setting names nothing. */
  lemma GetNamesUnset(s: Settings, name: string)
    requires name !in s
    ensures GetNames(s, name) == Success({})
  {
    var none: seq<Value> := [];
    assert Get(s, name, List([])) == List(none);
    assert GetList(s, name) == Success(none);
    var names := set x | x in none;
    assert forall v :: v in names ==> v in none;
    assert names == {};
  }

  /** `int(x)` truncates a float toward zero. */
  function Trunc(r: real): (i: int)
    ensures r >= 0.0 ==> i as real <= r < i as real + 1.0
    ensures r < 0.0 ==> i as real - 1.0 < r <= i as real
  {
    if r >= 0.0 then r.Floor else -((-r).Floor)
  }

  /** `int(v)` for the values a setting may hold. */
  function ToInt(v: Value): Result<int> {
    match v
    case Int(i) => Success(i)
    case Bool(b) => Success(if b then 1 else 0)
    case Float(r) => Success(Trunc(r))
    case Text(t) => if IsPyInt(t) then Success(PyIntValue(t)) else Failure(ValueError("invalid literal for int()"))
    case _ => Failure(TypeError("int() argument must be a string or a number"))
  }

  /** `settings.getbool(name)`: `int()` first, then the words True/False. */
  function GetBool(s: Settings, name: string): (r: Result<bool>)
    ensures name !in s ==> r == Success(false)
  {
    var v := Get(s, name, Bool(false));
    match ToInt(v)
    case Success(i) => Success(i != 0)
    case Failure(e) =>
      if v == Text("True") || v == Text("true") then Success(true)
      else if v == Text("False") || v == Text("false") then Success(false)
      else if v.Text? then Failure(ValueError("Supported values for boolean settings are 0/1, True/False, '0'/'1', 'True'/'False' and 'true'/'false'"))
      else Failure(e)
  }

  /** `settings.getint(name)`. */
  function GetInt(s: Settings, name: string): (r: Result<int>)
    ensures name !in s ==> r == Success(0)
  {
    ToInt(Get(s, name, Int(0)))
  }

  /** The entries `BaseSettings.update` takes from one setting value. */
  function UpdateEntries(v: Value): Result<map<Key, Value>> {
    match v
    case Null => Success(map[])
    case Dict(m) => Success(m)
    case Item(m) => Success(m)
    case _ => Failure(AttributeError("items"))
  }

  /** `settings.getwithbase(name)`: `name_BASE` overridden by `name`. */
  function GetWithBase(s: Settings, name: string): (r: Result<map<Key, Value>>)
    ensures r.Success? ==> name in s && s[name].Dict? ==> s[name].entries.Keys <= r.value.Keys
  {
    var base := if name + "_BASE" in s then s[name + "_BASE"] else Null;
    var own := if name in s then s[name] else Null;
    match UpdateEntries(base)
    case Failure(e) => Failure(e)
    case Success(b) =>
      match UpdateEntries(own)
      case Failure(e) => Failure(e)
      case Success(o) => Success(b + o)
  }

  /**
   * What the package needs of a spider besides its attribute dict: its name,
   * whether it is a CrawlSpider, the callbacks of its `rules`, and its settings.
   */
  datatype SpiderConfig = SpiderConfig(
    name: string,
    isCrawlSpider: bool,
    ruleCallbacks: seq<Value>,
    settings: Settings)

  /** A running spider: `attrs` is its `__dict__`, which `setattr` updates. */
  class Spider {
    const config: SpiderConfig
    var attrs: map<string, Value>

    constructor (config: SpiderConfig, attrs: map<string, Value>)
      ensures this.config == config && this.attrs == attrs
    {
      this.config := config;
      this.attrs := attrs;
    }
  }

  datatype Crawler = Crawler(settings: Settings)

  /** `request_to_dict(request)`: the fields the package reads back. */
  function RequestDict(r: Request): (d: map<Key, Value>)
    ensures KText("callback") in d && d[KText("callback")] == r.callback
    ensures KText("headers") in d && d[KText("headers")] == Dict(r.headers)
    ensures KText("meta") in d && d[KText("meta")] == Dict(r.meta)
    ensures KText("body") in d && d[KText("body")] == Bytes(r.body)
    ensures KText("url") in d && d[KText("url")] == Text(r.url)
    ensures KText("method") in d && d[KText("method")] == Text(r.httpMethod)
    ensures d.Keys == {KText("url"), KText("callback"), KText("method"), KText("headers"), KText("body"), KText("meta")}
  {
    map[KText("url") := Text(r.url),
        KText("callback") := r.callback,
        KText("method") := Text(r.httpMethod),
        KText("headers") := Dict(r.headers),
        KText("body") := Bytes(r.body),
        KText("meta") := Dict(r.meta)]
  }
}

=== FILE: utf8.dfy ===
/**
 * UTF-8 as Python's `bytes.decode('utf-8')` and `str.encode()` apply it
 * (RFC 3629, section 4): strict decoding, decoding with replacement, and
 * encoding, with their round trips.
 *
 * Replacement follows the "maximal subpart" practice CPython uses: an
 * ill-formed run is replaced by one U+FFFD per maximal prefix of a
 * well-formed sequence, and by one U+FFFD per byte that cannot start one.
 */
module Utf8 {
  import opened Values

  const Replacement: char := 0xFFFD as char

  /** A continuation byte, `10xxxxxx`. */
  predicate IsCont(b: Byte) { 0x80 <= b <= 0xBF }

  /** The length of a well-formed sequence led by `lead`, or 0 when no sequence starts with it. */
  function SeqLength(lead: Byte): (n: nat)
    ensures n <= 4
  {
    if lead < 0x80 then 1
    else if 0xC2 <= lead <= 0xDF then 2
    else if 0xE0 <= lead <= 0xEF then 3
    else if 0xF0 <= lead <= 0xF4 then 4
    else 0
  }

  /** The range of the byte after a lead byte, which rules out overlong forms, surrogates and values past U+10FFFF. */
  function SecondLow(lead: Byte): Byte {
    if lead == 0xE0 then 0xA0 else if lead == 0xF0 then 0x90 else 0x80
  }

  function SecondHigh(lead: Byte): Byte {
    if lead == 0xED then 0x9F else if lead == 0xF4 then 0x8F else 0xBF
  }

  /** The length of the longest prefix of `b` that some well-formed sequence starts with. */
  function ValidPrefix(b: ByteString): (n: nat)
    ensures n <= |b| && n <= 4
    ensures b != [] && SeqLength(b[0]) > 0 ==> 1 <= n <= SeqLength(b[0])
  {
    if b == [] then 0
    else
      var len := SeqLength(b[0]);
      if len == 0 then 0
      else if len == 1 || |b| == 1 || !(SecondLow(b[0]) <= b[1] <= SecondHigh(b[0])) then 1
      else if len == 2 || |b| == 2 || !IsCont(b[2]) then 2
      else if len == 3 || |b| == 3 || !IsCont(b[3]) then 3
      else 4
  }

  /** `b` starts with a whole well-formed sequence. */
  predicate StartsWellFormed(b: ByteString) {
    b != [] && SeqLength(b[0]) > 0 && ValidPrefix(b) == SeqLength(b[0])
  }

  /** The smallest code point a sequence of `n` bytes may carry (shorter forms are overlong). */
  function MinCodePoint(n: nat): int {
    if n <= 1 then 0 else if n == 2 then 0x80 else if n == 3 then 0x800 else 0x10000
  }

  /** The scalar value a well-formed sequence carries. */
  function CodePoint(b: ByteString): (cp: int)
    requires StartsWellFormed(b)
    ensures 0 <= cp < 0xD800 || 0xE000 <= cp < 0x11_0000
    ensures MinCodePoint(SeqLength(b[0])) <= cp
    ensures SeqLength(b[0]) < 4 ==> cp < 0x10000
    ensures SeqLength(b[0]) < 3 ==> cp < 0x800
    ensures SeqLength(b[0]) < 2 ==> cp < 0x80
  {
    var len := SeqLength(b[0]);
    if len == 1 then b[0]
    else if len == 2 then Join2(b[0] as int - 0xC0, b[1] as int - 0x80)
    else if len == 3 then Join3(b[0] as int - 0xE0, b[1] as int - 0x80, b[2] as int - 0x80)
    else Join4(b[0] as int - 0xF0, b[1] as int - 0x80, b[2] as int - 0x80, b[3] as int - 0x80)
  }

  // The payload bits of a sequence: the lead's low bits, then six bits per continuation byte.

  function Join2(p: int, q: int): int { p * 64 + q }

  function Join3(p: int, q: int, r: int): int { p * 4096 + q * 64 + r }

  function Join4(p: int, q: int, r: int, t: int): int { p * 262144 + q * 4096 + r * 64 + t }

  /** Division by 64 recovers the parts of `p * 64 + q`. */
  lemma Unique64(p: int, q: int)
    requires 0 <= q < 64
    ensures (p * 64 + q) / 64 == p && (p * 64 + q) % 64 == q
  {
  }

  lemma Unique4096(p: int, q: int)
    requires 0 <= q < 4096
    ensures (p * 4096 + q) / 4096 == p && (p * 4096 + q) % 4096 == q
  {
  }

  lemma Unique262144(p: int, q: int)
    requires 0 <= q < 262144
    ensures (p * 262144 + q) / 262144 == p && (p * 262144 + q) % 262144 == q
  {
  }

  /** Six-bit groups of a number below 2^21, most significant first. */
  lemma Groups(x: int)
    requires 0 <= x
    ensures x / 4096 == (x / 64) / 64 && x / 262144 == (x / 4096) / 64
    ensures x == Join2(x / 64, x % 64)
    ensures x == Join3(x / 4096, (x / 64) % 64, x % 64)
    ensures x == Join4(x / 262144, (x / 4096) % 64, (x / 64) % 64, x % 64)
  {
    var y, r := x / 64, x % 64;
    var z, s := y / 64, y % 64;
    var w, t := z / 64, z % 64;
    assert x == y * 64 + r;
    assert y == z * 64 + s;
    assert z == w * 64 + t;
    assert x == z * 4096 + (s * 64 + r);
    Unique4096(z, s * 64 + r);
    assert x == w * 262144 + (t * 4096 + s * 64 + r);
    Unique262144(w, t * 4096 + s * 64 + r);
  }

  /** The six-bit groups of a joined value are the parts it was joined from. */
  lemma Split2(p: int, q: int)
    requires 0 <= q < 64
    ensures Join2(p, q) / 64 == p && Join2(p, q) % 64 == q
  {
    Unique64(p, q);
  }

  lemma Split3(p: int, q: int, r: int)
    requires 0 <= p && 0 <= q < 64 && 0 <= r < 64
    ensures var x := Join3(p, q, r); x / 4096 == p && (x / 64) % 64 == q && x % 64 == r
  {
    var x := Join3(p, q, r);
    assert x == (p * 64 + q) * 64 + r;
    Unique64(p * 64 + q, r);
    Unique64(p, q);
    Unique4096(p, q * 64 + r);
  }

  lemma Split4(p: int, q: int, r: int, t: int)
    requires 0 <= p && 0 <= q < 64 && 0 <= r < 64 && 0 <= t < 64
    ensures var x := Join4(p, q, r, t); x / 262144 == p && (x / 4096) % 64 == q && (x / 64) % 64 == r && x % 64 == t
  {
    var x := Join4(p, q, r, t);
    assert x == ((p * 64 + q) * 64 + r) * 64 + t;
    Unique64((p * 64 + q) * 64 + r, t);
    Unique64(p * 64 + q, r);
    Unique64(p, q);
    assert x == (p * 64 + q) * 4096 + (r * 64 + t);
    Unique4096(p * 64 + q, r * 64 + t);
    Unique262144(p, q * 4096 + r * 64 + t);
  }

  /** `bytes.decode('utf-8')`: the text, or None where Python raises UnicodeDecodeError. */
  function DecodeStrict(b: ByteString): (r: Option<string>)
    ensures r.Some? ==> |r.value| <= |b|
    decreases |b|
  {
    if b == [] then Some([])
    else if !StartsWellFormed(b) then None
    else
      match DecodeStrict(b[SeqLength(b[0])..])
      case None => None
      case Some(rest) => Some([CodePoint(b) as char] + rest)
  }

  /** `bytes.decode('utf-8', 'replace')`: never fails. */
  function DecodeReplace(b: ByteString): (s: string)
    ensures |s| <= |b|
    decreases |b|
  {
    if b == [] then []
    else if StartsWellFormed(b) then [CodePoint(b) as char] + DecodeReplace(b[SeqLength(b[0])..])
    else
      var skip := if ValidPrefix(b) == 0 then 1 else ValidPrefix(b);
      [Replacement] + DecodeReplace(b[skip..])
  }

  /** The UTF-8 form of one character. */
  function EncodeChar(c: char): (b: ByteString)
    ensures 1 <= |b| <= 4
  {
    var x := c as int;
    if x < 0x80 then [x]
    else if x < 0x800 then [0xC0 + x / 64, 0x80 + x % 64]
    else if x < 0x10000 then [0xE0 + x / 4096, 0x80 + (x / 64) % 64, 0x80 + x % 64]
    else [0xF0 + x / 262144, 0x80 + (x / 4096) % 64, 0x80 + (x / 64) % 64, 0x80 + x % 64]
  }

  /** `str.encode()`. */
  function EncodeUtf8(s: string): (b: ByteString)
    ensures |s| <= |b|
    decreases |s|
  {
    if s == [] then [] else EncodeChar(s[0]) + EncodeUtf8(s[1..])
  }

  /** An encoded character is a well-formed sequence carrying that character, whatever follows it. */
  lemma EncodeCharWellFormed(c: char, rest: ByteString)
    ensures var b := EncodeChar(c) + rest;
      StartsWellFormed(b) && SeqLength(b[0]) == |EncodeChar(c)| && CodePoint(b) == c as int
  {
    var x := c as int;
    var b := EncodeChar(c) + rest;
    Groups(x);
    if x < 0x80 {
    } else if x < 0x800 {
      assert b[0] == 0xC0 + x / 64 && b[1] == 0x80 + x % 64;
    } else if x < 0x10000 {
      assert b[0] == 0xE0 + x / 4096 && b[1] == 0x80 + (x / 64) % 64 && b[2] == 0x80 + x % 64;
    } else {
      assert b[0] == 0xF0 + x / 262144 && b[1] == 0x80 + (x / 4096) % 64;
      assert b[2] == 0x80 + (x / 64) % 64 && b[3] == 0x80 + x % 64;
    }
  }

  /** Decoding what was encoded gives the text back. */
  lemma {:induction false} DecodeEncode(s: string)
    ensures DecodeStrict(EncodeUtf8(s)) == Some(s)
    decreases |s|
  {
    if s != [] {
      var b := EncodeUtf8(s);
      EncodeCharWellFormed(s[0], EncodeUtf8(s[1..]));
      assert b[|EncodeChar(s[0])|..] == EncodeUtf8(s[1..]);
      DecodeEncode(s[1..]);
      assert [s[0]] + s[1..] == s;
    }
  }

  /** A well-formed sequence is the encoding of the character it carries. */
  lemma CodePointEncodes(b: ByteString)
    requires StartsWellFormed(b)
    ensures EncodeChar(CodePoint(b) as char) == b[..SeqLength(b[0])]
  {
    var len := SeqLength(b[0]);
    if len == 2 {
      Split2(b[0] as int - 0xC0, b[1] as int - 0x80);
    } else if len == 3 {
      Split3(b[0] as int - 0xE0, b[1] as int - 0x80, b[2] as int - 0x80);
    } else if len == 4 {
      Split4(b[0] as int - 0xF0, b[1] as int - 0x80, b[2] as int - 0x80, b[3] as int - 0x80);
    }
  }

  /** Encoding what was decoded gives the bytes back. */
  lemma {:induction false} EncodeDecode(b: ByteString)
    requires DecodeStrict(b).Some?
    ensures EncodeUtf8(DecodeStrict(b).value) == b
    decreases |b|
  {
    if b != [] {
      var len := SeqLength(b[0]);
      CodePointEncodes(b);
      EncodeDecode(b[len..]);
      var s := DecodeStrict(b).value;
      assert s[0] == CodePoint(b) as char && s[1..] == DecodeStrict(b[len..]).value;
      assert b == b[..len] + b[len..];
    }
  }

  /** Strict decoding never maps two byte strings to the same text. */
  lemma DecodeStrictInjective(a: ByteString, b: ByteString)
    requires DecodeStrict(a).Some? && DecodeStrict(a) == DecodeStrict(b)
    ensures a == b
  {
    EncodeDecode(a);
    EncodeDecode(b);
  }

  /** Where strict decoding succeeds, decoding with replacement gives the same text. */
  lemma {:induction false} ReplaceAgrees(b: ByteString)
    requires DecodeStrict(b).Some?
    ensures DecodeReplace(b) == DecodeStrict(b).value
    decreases |b|
  {
    if b != [] {
      ReplaceAgrees(b[SeqLength(b[0])..]);
    }
  }

  /** Ill-formed input is never dropped silently: replacement decoding marks it. */
  lemma {:induction false} ReplaceMarksErrors(b: ByteString)
    requires DecodeStrict(b).None?
    ensures Replacement in DecodeReplace(b)
    decreases |b|
  {
    if StartsWellFormed(b) {
      ReplaceMarksErrors(b[SeqLength(b[0])..]);
    }
  }

  /** One character per byte: how ASCII bytes read. */
  function AsciiText(b: ByteString): (s: string)
    ensures |s| == |b|
  {
    seq(|b|, i requires 0 <= i < |b| => b[i] as char)
  }

  /** ASCII bytes decode to the characters with the same numbers. */
  lemma {:induction false} AsciiDecodes(b: ByteString)
    requires forall i :: 0 <= i < |b| ==> b[i] < 0x80
    ensures DecodeStrict(b) == Some(AsciiText(b))
    decreases |b|
  {
    if b != [] {
      AsciiDecodes(b[1..]);
      assert AsciiText(b) == [b[0] as char] + AsciiText(b[1..]);
    }
  }
}

=== FILE: utils.dfy ===
/**
 * The older sanitiser helpers (`parse_headers`, `parse_item`,
 * `parse_request`, `parse_items_with_requests`, `response_to_dict`) and
 * the path arithmetic of the fixture and test trees.
 *
 * A Python dict is iterated in insertion order; `Value` dicts have no
 * order, so the helpers that iterate a dict in order take its items as a
 * sequence that enumerates it.
 */
module Utils {
  import opened Values
  import opened Utf8
  import opened PyText
  import Scrapy
  import Parser

  /** `UnicodeDecodeError`, a subclass of ValueError. */
  const DecodeError := ValueError("'utf-8' codec can't decode")

  /** The error of calling `parse_request(value)` without its `spider` argument. */
  const MissingSpider := TypeError("parse_request() missing 1 required positional argument: 'spider'")

  /** A dict's items in iteration order. */
  type Items = seq<(Key, Value)>

  /** `items` lists every entry of `m` once. */
  predicate Enumerates(items: Items, m: map<Key, Value>) {
    (forall i, j :: 0 <= i < j < |items| ==> items[i].0 != items[j].0) &&
    (forall i :: 0 <= i < |items| ==> items[i].0 in m && m[items[i].0] == items[i].1) &&
    (forall k :: k in m ==> exists i :: 0 <= i < |items| && items[i].0 == k)
  }

  // ---------------------------------------------------------------------
  // parse_headers
  // ---------------------------------------------------------------------

  /** A header name: bytes are decoded, anything else is kept. */
  function DecodeKey(k: Key): (r: Result<Key>)
    ensures k.KBytes? ==> (r.Success? <==> DecodeStrict(k.b).Some?)
    ensures k.KBytes? && r.Success? ==> r.value == KText(DecodeStrict(k.b).value)
    ensures !k.KBytes? ==> r == Success(k)
  {
    match k
    case KBytes(b) => if DecodeStrict(b).Some? then Success(KText(DecodeStrict(b).value)) else Failure(DecodeError)
    case _ => Success(k)
  }

  /** One element of a header list: bytes are decoded, anything else is kept. */
  function DecodeElement(v: Value): (r: Result<Value>)
    ensures v.Bytes? ==> (r.Success? <==> DecodeStrict(v.bytes).Some?)
    ensures v.Bytes? && r.Success? ==> r.value == Text(DecodeStrict(v.bytes).value)
    ensures !v.Bytes? ==> r == Success(v)
  {
    if v.Bytes? then
      if DecodeStrict(v.bytes).Some? then Success(Text(DecodeStrict(v.bytes).value)) else Failure(DecodeError)
    else Success(v)
  }

  /** A header value: bytes are decoded, a list is decoded element by element, anything else is kept. */
  function ParseHeaderValue(v: Value): (r: Result<Value>)
    ensures v.List? && r.Success? ==> r.value.List? && |r.value.items| == |v.items|
    ensures v.List? && r.Success? ==>
      forall j :: 0 <= j < |v.items| ==> DecodeElement(v.items[j]) == Success(r.value.items[j])
    ensures v.List? ==> (r.Success? <==> forall j :: 0 <= j < |v.items| ==> DecodeElement(v.items[j]).Success?)
    ensures !v.List? ==> r == DecodeElement(v)
  {
    if v.List? then
      var rs := seq(|v.items|, j requires 0 <= j < |v.items| => DecodeElement(v.items[j]));
      match Collect(rs)
      case Failure(e) => Failure(e)
      case Success(xs) => Success(List(xs))
    else DecodeElement(v)
  }

  /** One entry of `parse_headers`' result. */
  function ParseHeaderEntry(item: (Key, Value)): Result<(Key, Value)> {
    match DecodeKey(item.0)
    case Failure(e) => Failure(e)
    case Success(k) =>
      match ParseHeaderValue(item.1)
      case Failure(e) => Failure(e)
      case Success(v) => Success((k, v))
  }

  /** `parse_headers` over the items in order: a later entry overwrites an earlier one with the same decoded name. */
  function ParseHeadersF(items: Items): Result<map<Key, Value>>
    decreases |items|
  {
    if items == [] then Success(map[])
    else
      match ParseHeadersF(items[..|items| - 1])
      case Failure(e) => Failure(e)
      case Success(acc) =>
        match ParseHeaderEntry(items[|items| - 1])
        case Failure(e) => Failure(e)
        case Success(entry) => Success(acc[entry.0 := entry.1])
  }

  /** `parse_headers`: decode every header name and value into a fresh dict. */
  method ParseHeaders(items: Items) returns (r: Result<map<Key, Value>>)
    ensures r == ParseHeadersF(items)
  {
    var parsed := map[];
    var i := 0;
    while i < |items|
      invariant 0 <= i <= |items|
      invariant ParseHeadersF(items[..i]) == Success(parsed)
    {
      assert items[..i + 1][..i] == items[..i];
      var entry := ParseHeaderEntry(items[i]);
      if entry.Failure? {
        FirstHeaderFailure(items, i);
        return Failure(entry.error);
      }
      parsed := parsed[entry.value.0 := entry.value.1];
      i := i + 1;
    }
    assert items[..i] == items;
    return Success(parsed);
  }

  /** A failing entry fails the whole parse, whatever follows it. */
  lemma {:induction false} FirstHeaderFailure(items: Items, i: nat)
    requires i < |items| && ParseHeadersF(items[..i]).Success? && ParseHeaderEntry(items[i]).Failure?
    ensures ParseHeadersF(items) == Failure(ParseHeaderEntry(items[i]).error)
    decreases |items|
  {
    if i == |items| - 1 {
      assert items[..|items| - 1] == items[..i];
    } else {
      assert items[..|items| - 1][..i] == items[..i];
      FirstHeaderFailure(items[..|items| - 1], i);
    }
  }

  /** The parse succeeds exactly when every entry decodes. */
  lemma {:induction false} ParseHeadersSucceeds(items: Items)
    ensures ParseHeadersF(items).Success? <==> forall i :: 0 <= i < |items| ==> ParseHeaderEntry(items[i]).Success?
    decreases |items|
  {
    if items != [] {
      var init := items[..|items| - 1];
      ParseHeadersSucceeds(init);
      assert forall i :: 0 <= i < |init| ==> init[i] == items[i];
    }
  }

  /** The result's keys are exactly the decoded names. */
  lemma {:induction false} ParseHeadersKeys(items: Items)
    requires ParseHeadersF(items).Success?
    ensures forall i :: 0 <= i < |items| ==> ParseHeaderEntry(items[i]).Success?
    ensures forall k :: k in ParseHeadersF(items).value <==>
      exists i :: 0 <= i < |items| && DecodeKey(items[i].0) == Success(k)
    decreases |items|
  {
    ParseHeadersSucceeds(items);
    if items != [] {
      var init := items[..|items| - 1];
      assert forall i :: 0 <= i < |init| ==> init[i] == items[i];
      ParseHeadersKeys(init);
      forall k | exists i :: 0 <= i < |items| && DecodeKey(items[i].0) == Success(k)
        ensures k in ParseHeadersF(items).value
      {
        var i :| 0 <= i < |items| && DecodeKey(items[i].0) == Success(k);
        if i < |init| {
          assert init[i] == items[i];
        }
      }
    }
  }

  /** An item that no later item renames to the same key gives the entry's value. */
  lemma {:induction false} ParseHeadersLastWins(items: Items, i: nat)
    requires ParseHeadersF(items).Success? && i < |items|
    requires forall j :: i < j < |items| ==> DecodeKey(items[j].0) != DecodeKey(items[i].0)
    ensures ParseHeaderEntry(items[i]).Success?
    ensures var e := ParseHeaderEntry(items[i]).value;
      e.0 in ParseHeadersF(items).value && ParseHeadersF(items).value[e.0] == e.1
    decreases |items|
  {
    ParseHeadersSucceeds(items);
    var n := |items| - 1;
    if i < n {
      var init := items[..n];
      assert init[i] == items[i];
      assert forall j :: i < j < |init| ==> init[j] == items[j];
      ParseHeadersLastWins(init, i);
    }
  }

  /**
   * With names that stay distinct once decoded (Scrapy's headers hold only
   * bytes names, and decoding is injective), each item gives exactly one
   * entry, with its own decoded value.
   */
  lemma OneEntryPerHeader(items: Items, i: nat)
    requires ParseHeadersF(items).Success? && i < |items|
    requires forall j :: 0 <= j < |items| ==> items[j].0.KBytes?
    requires forall j, l :: 0 <= j < l < |items| ==> items[j].0 != items[l].0
    ensures ParseHeaderEntry(items[i]).Success?
    ensures var e := ParseHeaderEntry(items[i]).value;
      e.0 in ParseHeadersF(items).value && ParseHeadersF(items).value[e.0] == e.1
  {
    ParseHeadersSucceeds(items);
    forall j | i < j < |items|
      ensures DecodeKey(items[j].0) != DecodeKey(items[i].0)
    {
      if DecodeKey(items[j].0) == DecodeKey(items[i].0) {
        DecodeStrictInjective(items[i].0.b, items[j].0.b);
      }
    }
    ParseHeadersLastWins(items, i);
  }

  // ---------------------------------------------------------------------
  // parse_item
  // ---------------------------------------------------------------------

  /** `parse_item`: Items and dicts become dicts, tuples and lists become lists, recursively. */
  function ParseItem(v: Value): (r: Value)
    ensures (v.Dict? || v.Item?) ==> r.Dict? && r.entries.Keys == (if v.Dict? then v.entries.Keys else v.fields.Keys)
    ensures (v.List? || v.Tuple?) ==> r.List? && |r.items| == |v.items|
    ensures !(v.Dict? || v.Item? || v.List? || v.Tuple?) ==> r == v
    decreases v
  {
    match v
    case Dict(m) => Dict(map k | k in m :: ParseItem(m[k]))
    case Item(m) => Dict(map k | k in m :: ParseItem(m[k]))
    case List(xs) => List(seq(|xs|, i requires 0 <= i < |xs| => ParseItem(xs[i])))
    case Tuple(xs) => List(seq(|xs|, i requires 0 <= i < |xs| => ParseItem(xs[i])))
    case _ => v
  }

  /** No Item and no tuple anywhere inside (what `parse_item` leaves). */
  predicate Plain(v: Value)
    decreases v
  {
    match v
    case Dict(m) => forall k :: k in m ==> Plain(m[k])
    case List(xs) => forall i :: 0 <= i < |xs| ==> Plain(xs[i])
    case Item(_) => false
    case Tuple(_) => false
    case _ => true
  }

  /** What `parse_item` returns holds no Item and no tuple. */
  lemma {:induction false} ParseItemPlain(v: Value)
    ensures Plain(ParseItem(v))
    decreases v
  {
    match v
    case Dict(m) =>
      forall k | k in m ensures Plain(ParseItem(v).entries[k]) {
        ParseItemPlain(m[k]);
      }
    case Item(m) =>
      forall k | k in m ensures Plain(ParseItem(v).entries[k]) {
        ParseItemPlain(m[k]);
      }
    case List(xs) =>
      forall i | 0 <= i < |xs| ensures Plain(ParseItem(v).items[i]) {
        ParseItemPlain(xs[i]);
      }
    case Tuple(xs) =>
      forall i | 0 <= i < |xs| ensures Plain(ParseItem(v).items[i]) {
        ParseItemPlain(xs[i]);
      }
    case _ =>
  }

  /** A plain value is left as it is. */
  lemma {:induction false} ParseItemKeepsPlain(v: Value)
    requires Plain(v)
    ensures ParseItem(v) == v
    decreases v
  {
    match v
    case Dict(m) =>
      forall k | k in m ensures ParseItem(m[k]) == m[k] {
        ParseItemKeepsPlain(m[k]);
      }
      assert ParseItem(v).entries == m;
    case List(xs) =>
      forall i | 0 <= i < |xs| ensures ParseItem(xs[i]) == xs[i] {
        ParseItemKeepsPlain(xs[i]);
      }
      assert ParseItem(v).items == xs;
    case _ =>
  }

  /** Parsing twice is parsing once. */
  lemma ParseItemIdempotent(v: Value)
    ensures ParseItem(ParseItem(v)) == ParseItem(v)
  {
    ParseItemPlain(v);
    ParseItemKeepsPlain(ParseItem(v));
  }

  // ---------------------------------------------------------------------
  // parse_request, response_to_dict, parse_items_with_requests
  // ---------------------------------------------------------------------

  /** The meta dict of `parse_request`: Items parsed, a Request fails the call. */
  function ParseMeta(meta: map<Key, Value>): (r: Result<map<Key, Value>>)
    ensures r.Failure? <==> exists k :: k in meta && meta[k].Req?
    ensures r.Failure? ==> r.error == MissingSpider
    ensures r.Success? ==> r.value.Keys == meta.Keys
    ensures r.Success? ==> forall k :: k in meta ==> r.value[k] == (if meta[k].Item? then ParseItem(meta[k]) else meta[k])
  {
    if exists k :: k in meta && meta[k].Req? then Failure(MissingSpider)
    else Success(map k | k in meta :: if meta[k].Item? then ParseItem(meta[k]) else meta[k])
  }

  /**
   * `parse_request`: the request as a dict with `'parse'` for an empty
   * callback, headers parsed, the body decoded, and Items in meta parsed.
   * Errors surface in that order.
   */
  function ParseRequest(req: Request, headerItems: Items): (r: Result<map<Key, Value>>)
    requires Enumerates(headerItems, req.headers)
    ensures r.Success? <==>
      ParseHeadersF(headerItems).Success? && DecodeStrict(req.body).Some? && ParseMeta(req.meta).Success?
    ensures ParseHeadersF(headerItems).Failure? ==> r == Failure(ParseHeadersF(headerItems).error)
    ensures r.Success? ==> r.value.Keys == Scrapy.RequestDict(req).Keys
    ensures ParseHeadersF(headerItems).Success? && DecodeStrict(req.body).None? ==> r == Failure(DecodeError)
    ensures r.Success? ==> r.value[KText("callback")] == (if Truthy(req.callback) then req.callback else Text("parse"))
    ensures r.Success? ==> r.value[KText("headers")] == Dict(ParseHeadersF(headerItems).value)
    ensures r.Success? ==> r.value[KText("body")] == Text(DecodeStrict(req.body).value)
    ensures r.Success? ==> r.value[KText("meta")] == Dict(ParseMeta(req.meta).value)
  {
    var d := Scrapy.RequestDict(req);
    var callback := if Truthy(req.callback) then req.callback else Text("parse");
    match ParseHeadersF(headerItems)
    case Failure(e) => Failure(e)
    case Success(headers) =>
      match DecodeStrict(req.body)
      case None => Failure(DecodeError)
      case Some(body) =>
        match ParseMeta(req.meta)
        case Failure(e) => Failure(e)
        case Success(meta) =>
          Success(d[KText("callback") := callback][KText("headers") := Dict(headers)]
                   [KText("body") := Text(body)][KText("meta") := Dict(meta)])
  }

  /** `response_to_dict`: five entries; the body is decoded with replacement, so only a header can fail. */
  function ResponseToDict(resp: Response, headerItems: Items): (r: Result<map<Key, Value>>)
    requires Enumerates(headerItems, resp.headers)
    ensures r.Success? <==> ParseHeadersF(headerItems).Success?
    ensures r.Success? ==> r.value.Keys == {KText("url"), KText("status"), KText("body"), KText("headers"), KText("flags")}
    ensures r.Success? ==> r.value[KText("url")] == Text(resp.url) && r.value[KText("status")] == Int(resp.status)
    ensures r.Success? ==> r.value[KText("body")] == Text(DecodeReplace(resp.body))
    ensures r.Success? ==> r.value[KText("headers")] == Dict(ParseHeadersF(headerItems).value)
    ensures r.Success? ==> r.value[KText("flags")] == List(resp.flags)
  {
    match ParseHeadersF(headerItems)
    case Failure(e) => Failure(e)
    case Success(headers) =>
      Success(map[KText("url") := Text(resp.url), KText("status") := Int(resp.status),
                  KText("body") := Text(DecodeReplace(resp.body)), KText("headers") := Dict(headers),
                  KText("flags") := List(resp.flags)])
  }

  /** The header order of each request met in the output. */
  type HeaderOrder = Request -> Items

  /** The entry `parse_items_with_requests` makes of one element. */
  function TagLegacy(item: Value, order: HeaderOrder): (r: Result<Value>)
    requires item.Req? ==> Enumerates(order(item.request), item.request.headers)
    ensures r.Success? ==> r.value.Dict? && r.value.entries.Keys == {KText("type"), KText("data")}
    ensures r.Success? ==> (r.value.entries[KText("type")] == Text("request") <==> item.Req?)
    ensures r.Success? && !item.Req? ==> r.value.entries[KText("type")] == Text("item") && r.value.entries[KText("data")] == ParseItem(item)
    ensures item.Req? ==> r.Success? == ParseRequest(item.request, order(item.request)).Success?
    ensures !item.Req? ==> r.Success?
  {
    if item.Req? then
      match ParseRequest(item.request, order(item.request))
      case Failure(e) => Failure(e)
      case Success(d) => Success(Parser.Entry("request", Dict(d)))
    else Success(Parser.Entry("item", ParseItem(item)))
  }

  /** The requests among `items` each come with their header order. */
  predicate Ordered(items: seq<Value>, order: HeaderOrder) {
    forall i :: 0 <= i < |items| && items[i].Req? ==> Enumerates(order(items[i].request), items[i].request.headers)
  }

  /** The entry of every element, in order. */
  function TagLegacyEach(items: seq<Value>, order: HeaderOrder): (rs: seq<Result<Value>>)
    requires Ordered(items, order)
    ensures |rs| == |items| && forall i :: 0 <= i < |items| ==> rs[i] == TagLegacy(items[i], order)
  {
    seq(|items|, i requires 0 <= i < |items| => TagLegacy(items[i], order))
  }

  /** `parse_items_with_requests` as a function: one entry per element, in order; the first failure is the result. */
  function TagLegacyAll(items: seq<Value>, order: HeaderOrder): (r: Result<seq<Value>>)
    requires Ordered(items, order)
    ensures r.Success? <==> forall i :: 0 <= i < |items| ==> TagLegacy(items[i], order).Success?
    ensures r.Success? ==> |r.value| == |items| && forall i :: 0 <= i < |items| ==> TagLegacy(items[i], order) == Success(r.value[i])
    ensures r.Failure? ==> exists i :: 0 <= i < |items| && TagLegacy(items[i], order) == Failure(r.error) &&
                                       forall j :: 0 <= j < i ==> TagLegacy(items[j], order).Success?
  {
    Collect(TagLegacyEach(items, order))
  }

  /** `parse_items_with_requests`: the loop that tags every element. */
  method ParseItemsWithRequests(items: seq<Value>, order: HeaderOrder) returns (r: Result<seq<Value>>)
    requires Ordered(items, order)
    ensures r == TagLegacyAll(items, order)
  {
    ghost var rs := TagLegacyEach(items, order);
    var parsed := [];
    var i := 0;
    while i < |items|
      invariant 0 <= i <= |items| && |parsed| == i
      invariant forall j :: 0 <= j < i ==> rs[j] == Success(parsed[j])
    {
      var entry := TagLegacy(items[i], order);
      if entry.Failure? {
        CollectFirstFailure(rs, i);
        return Failure(entry.error);
      }
      parsed := parsed + [entry.value];
      i := i + 1;
    }
    CollectAll(rs, parsed);
    return Success(parsed);
  }

  /** Results that all succeed collect into their values. */
  lemma CollectAll<T>(rs: seq<Result<T>>, xs: seq<T>)
    requires |rs| == |xs| && forall j :: 0 <= j < |rs| ==> rs[j] == Success(xs[j])
    ensures Collect(rs) == Success(xs)
  {
    assert Collect(rs).Success?;
    assert Collect(rs).value == xs;
  }

  // ---------------------------------------------------------------------
  // Paths (get_or_create_fixtures_dir, write_test)
  // ---------------------------------------------------------------------

  /** A path as its components. */
  type Path = seq<string>

  function Parent(p: Path): Path {
    if p == [] then [] else p[..|p| - 1]
  }

  function Name(p: Path): string {
    if p == [] then "" else p[|p| - 1]
  }

  /** `PurePath.stem`: the name without its last suffix; a leading or trailing dot is not a suffix. */
  function Stem(name: string): (r: string)
    ensures |r| <= |name| && r == name[..|r|]
  {
    var i := LastIndexOf(name, '.');
    if 0 < i < |name| - 1 then name[..i] else name
  }

  /** `get_or_create_fixtures_dir`: where the fixtures of a spider's callback live. */
  function FixturesDir(base: Path, spiderName: string, callbackName: string): (r: Path)
    ensures base < r && |r| == |base| + 3 && r[|r| - 1] == callbackName
  {
    base + ["fixtures"] + [spiderName] + [callbackName]
  }

  /** `create_tests_tree`: where the tests of a spider's callback live. */
  function TestsDir(base: Path, spiderName: string, callbackName: string): (r: Path)
    ensures base < r && |r| == |base| + 3 && r[|r| - 1] == callbackName
  {
    base + ["tests"] + [spiderName] + [callbackName]
  }

  /** `write_test`: the test module for a fixture, found by walking up from the fixture. */
  function TestPath(fixture: Path): Path {
    var callbackPath := Parent(fixture);
    var spiderPath := Parent(callbackPath);
    var base := Parent(Parent(spiderPath));
    base + ["tests"] + [Name(spiderPath)] + [Name(callbackPath)] + ["test_" + Stem(Name(fixture)) + ".py"]
  }

  /** A fixture in its callback's fixtures directory has its test in the mirrored tests directory. */
  lemma TestPathMirrorsFixture(base: Path, spiderName: string, callbackName: string, fileName: string)
    ensures TestPath(FixturesDir(base, spiderName, callbackName) + [fileName]) ==
      TestsDir(base, spiderName, callbackName) + ["test_" + Stem(fileName) + ".py"]
  {
    var fixture := FixturesDir(base, spiderName, callbackName) + [fileName];
    assert Parent(fixture) == base + ["fixtures", spiderName, callbackName];
    assert Parent(Parent(fixture)) == base + ["fixtures", spiderName];
    assert Parent(base + ["fixtures", spiderName]) == base + ["fixtures"];
    assert Parent(base + ["fixtures"]) == base;
  }

  /** A fixture named by `parse_fixture_arg` (`name.bin`) gets the test module `test_name.py`. */
  lemma StemDropsBin(name: string)
    requires name != []
    ensures Stem(name + ".bin") == name
  {
    var s := name + ".bin";
    assert s[|name|] == '.';
    assert forall j :: |name| < j < |s| ==> s[j] != '.';
  }
}

=== FILE: values.dfy ===
/**
 * Python data as the recorder, the sanitiser and the comparator see it.
 *
 * `Value` is the plain-data universe the package moves around: what a
 * callback yields, what a cassette stores, what the comparator diffs.
 * Scrapy's `Request` and `Response` objects are values here too, because
 * the sanitiser must recognise them inside arbitrary nested output.
 * Python exceptions become `Error` values carried by `Result`/`Outcome`.
 */
module Values {

  type Byte = b: int | 0 <= b < 256
  type ByteString = seq<Byte>

  /** Keys a Python dict of this package can hold (str, bytes, int). */
  datatype Key = KText(s: string) | KBytes(b: ByteString) | KInt(i: int)

  datatype Value =
    | Null
    | Bool(b: bool)
    | Int(i: int)
    | Float(r: real)
    | Text(s: string)
    | Bytes(bytes: ByteString)
    | DateTime(iso: string)               // a datetime, known by its ISO-8601 text
    | List(items: seq<Value>)
    | Tuple(items: seq<Value>)
    | Dict(entries: map<Key, Value>)
    | Item(fields: map<Key, Value>)      // a scrapy.Item: dict-like but not a dict
    | Req(request: Request)
    | Resp(response: Response)
    | Object(repr: string)               // any other object, known by its repr

  /** A scrapy.Request; `callback` is the handler name or None. */
  datatype Request = Request(
    url: string,
    callback: Value,
    httpMethod: string,
    headers: map<Key, Value>,
    body: ByteString,
    meta: map<Key, Value>)

  /** A scrapy.Response; `moduleName`, `qualname`, `name` describe its class. */
  datatype Response = Response(
    moduleName: string,
    qualname: string,
    name: string,
    url: string,
    status: int,
    body: ByteString,
    headers: map<Key, Value>,
    flags: seq<Value>,
    encoding: string)

  datatype Option<T> = None | Some(value: T)

  datatype Error =
    | KeyError(key: Key)
    | TypeError(what: string)
    | AttributeError(name: string)
    | IndexError(what: string)
    | ValueError(message: string)
    | ImportError(path: string)
    | SanitizeFailed                      // _request_to_dict / parse_object raised
    | VersionMismatch(recorded: Value, current: Value)
    | MoreFound(count: nat, filename: Value)
    | MoreExpected(count: nat, filename: Value)
    | ItemMismatch(index: nat, filename: Value)
    | AttrsMismatch(phase: string, filename: Value)
    | NotConfigured(message: string)
    | MiddlewareRaised(message: string)

  datatype Result<T> = Success(value: T) | Failure(error: Error)

  /**
   * The results of a run of steps taken in order: all the values, or the
   * error of the first step that failed.
   */
  function Collect<T>(rs: seq<Result<T>>): (r: Result<seq<T>>)
    ensures r.Success? <==> forall i :: 0 <= i < |rs| ==> rs[i].Success?
    ensures r.Success? ==> |r.value| == |rs| && forall i :: 0 <= i < |rs| ==> rs[i] == Success(r.value[i])
    ensures r.Failure? ==> exists i :: 0 <= i < |rs| && rs[i] == Failure(r.error) && forall j :: 0 <= j < i ==> rs[j].Success?
    decreases |rs|
  {
    if rs == [] then Success([])
    else
      match rs[0]
      case Failure(e) => Failure(e)
      case Success(v) =>
        match Collect(rs[1..])
        case Failure(e) => Failure(e)
        case Success(vs) => Success([v] + vs)
  }

  /** The first failing step decides the error of the run. */
  lemma CollectFirstFailure<T>(rs: seq<Result<T>>, i: nat)
    requires i < |rs| && rs[i].Failure?
    requires forall j :: 0 <= j < i ==> rs[j].Success?
    ensures Collect(rs) == Failure(rs[i].error)
  {
  }

  /** A step that either completes or raises. */
  datatype Outcome = Pass | Fail(error: Error)

  /** Python truthiness (`if x:` / `x or y`). */
  predicate Truthy(v: Value) {
    match v
    case Null => false
    case Bool(b) => b
    case Int(i) => i != 0
    case Float(r) => r != 0.0
    case Text(s) => s != ""
    case Bytes(b) => b != []
    case List(xs) => xs != []
    case Tuple(xs) => xs != []
    case Dict(m) => m != map[]
    case Item(m) => m != map[]
    case _ => true
  }

  /** The value a dict key denotes. */
  function KeyValue(k: Key): (v: Value)
    ensures v.Text? || v.Bytes? || v.Int?
  {
    match k
    case KText(s) => Text(s)
    case KBytes(b) => Bytes(b)
    case KInt(i) => Int(i)
  }

  /** What `hash(v)` says about using `v` as a dict key here. */
  datatype Hashed = AsKey(key: Key) | NotAKey | Unhashable

  function Hash(v: Value): (h: Hashed)
    ensures h.AsKey? ==> KeyValue(h.key) == v || v.Bool?
    ensures h.Unhashable? <==> v.List? || v.Dict? || v.Item?
  {
    match v
    case Text(s) => AsKey(KText(s))
    case Bytes(b) => AsKey(KBytes(b))
    case Int(i) => AsKey(KInt(i))
    case Bool(b) => AsKey(KInt(if b then 1 else 0))  // True == 1 as a dict key
    case List(_) => Unhashable
    case Dict(_) => Unhashable
    case Item(_) => Unhashable
    case _ => NotAKey
  }

  /** `iter(v)` for the values the package iterates as sequences. */
  function Iterate(v: Value): (r: Result<seq<Value>>)
    ensures (v.List? || v.Tuple?) ==> r == Success(v.items)
    ensures r.Success? && v.Text? ==> |r.value| == |v.s|
    ensures v.Dict? || v.Item? ==> r.Failure?
  {
    match v
    case List(xs) => Success(xs)
    case Tuple(xs) => Success(xs)
    case Text(s) => Success(seq(|s|, i requires 0 <= i < |s| => Text([s[i]])))
    case Bytes(b) => Success(seq(|b|, i requires 0 <= i < |b| => Int(b[i])))
    case Dict(_) => Failure(TypeError("iteration order of a mapping"))
    case Item(_) => Failure(TypeError("iteration order of a mapping"))
    case _ => Failure(TypeError("object is not iterable"))
  }

  /** Iterating a string gives its characters, one string each, in order. */
  lemma IterateChars(t: string)
    ensures Iterate(Text(t)).Success? && |Iterate(Text(t)).value| == |t|
    ensures forall i :: 0 <= i < |t| ==> Iterate(Text(t)).value[i] == Text([t[i]])
  {
  }

  /** Iterating bytes gives their integer values, in order. */
  lemma IterateBytes(b: ByteString)
    ensures Iterate(Bytes(b)).Success? && |Iterate(Bytes(b)).value| == |b|
    ensures forall i :: 0 <= i < |b| ==> Iterate(Bytes(b)).value[i] == Int(b[i])
  {
  }

  /** `set(v)`: the elements of an iterable, which must be hashable. */
  function AsSet(v: Value): (r: Result<set<Value>>)
    ensures r.Success? ==> forall x :: x in r.value ==> !Hash(x).Unhashable?
  {
    match v
    case Dict(m) => Success(set k | k in m :: KeyValue(k))
    case Item(m) => Success(set k | k in m :: KeyValue(k))
    case _ =>
      match Iterate(v)
      case Failure(e) => Failure(e)
      case Success(xs) =>
        if exists i :: 0 <= i < |xs| && Hash(xs[i]).Unhashable? then Failure(TypeError("unhashable type"))
        else Success(set x | x in xs)
  }

  /** `d[key]` for a string key. */
  function Lookup(d: Value, key: string): (r: Result<Value>)
    ensures r.Success? <==> (d.Dict? && KText(key) in d.entries) || (d.Item? && KText(key) in d.fields)
    ensures d.Dict? && KText(key) in d.entries ==> r.value == d.entries[KText(key)]
    ensures d.Item? && KText(key) in d.fields ==> r.value == d.fields[KText(key)]
  {
    match d
    case Dict(m) => if KText(key) in m then Success(m[KText(key)]) else Failure(KeyError(KText(key)))
    case Item(m) => if KText(key) in m then Success(m[KText(key)]) else Failure(KeyError(KText(key)))
    case _ => Failure(TypeError("object is not subscriptable"))
  }

  /** `d.get(key, default)` on a mapping. */
  function GetOr(d: map<Key, Value>, key: string, default: Value): Value {
    if KText(key) in d then d[KText(key)] else default
  }

  /** Python's `needle in hay` on strings. */
  predicate IsSubstring(needle: string, hay: string)
    decreases |hay|
  {
    needle <= hay || (hay != [] && IsSubstring(needle, hay[1..]))
  }

  /** `x in container`. */
  function Contains(container: Value, x: Value): (r: Result<bool>)
    ensures (container.List? || container.Tuple?) ==> r == Success(x in container.items)
  {
    match container
    case List(xs) => Success(x in xs)
    case Tuple(xs) => Success(x in xs)
    case Text(t) =>
      if x.Text? then Success(IsSubstring(x.s, t)) else Failure(TypeError("'in <string>' requires string as left operand"))
    case Dict(m) =>
      (match Hash(x)
       case AsKey(k) => Success(k in m)
       case NotAKey => Success(false)
       case Unhashable => Failure(TypeError("unhashable type")))
    case Item(m) =>
      (match Hash(x)
       case AsKey(k) => Success(k in m)
       case NotAKey => Success(false)
       case Unhashable => Failure(TypeError("unhashable type")))
    case _ => Failure(TypeError("argument is not iterable"))
  }

  /** A dict with string keys, as Python builds it from `obj.__dict__`. */
  function TextKeyed(m: map<string, Value>): (d: map<Key, Value>)
    ensures forall k :: k in d <==> k.KText? && k.s in m
    ensures forall s :: s in m ==> d[KText(s)] == m[s]
  {
    map s | s in m :: KText(s) := m[s]
  }
}
